=== FILE: README.md ===
# Match engine of a face-off voting service, in Dafny

This project models the server core of a "which of these two profiles do
you prefer" voting service written in JavaScript (Node/Express over MySQL).
It covers the following parts:

- **Sessions** (`api/handlers/playlist.js`): a playlist keeps two
  generations of pending matches. `genMatch` lazily rotates the
  generations and stores a new match under a fresh UUID. `finishMatch`
  resolves a UUID at most once.
- **PairSelector** (`api/handlers/runtime.js`, pair selection in
  `generateMatch`): the two ranks offered to a voter are drawn either
  uniformly or from a fairness window of `MINIMUM_POSSIBLE_OPPONENTS = 20`
  ranks on each side. The random draws are integer parameters.
- **Outcome** (`api/handlers/match.js`, `api/handlers/matchresult.js`,
  `api/stats/statistics.js`): the wire code of a vote (1 = first won,
  0 = second won, anything else = skip) and the three things it drives:
  - the pair of rating deltas;
  - the win/loss statistic of each contestant;
  - the logged `winnerId`.

  The Elo formula is an uninterpreted parameter `d(self, opponent, score)`.
- **Store** (`api/utilities/databasewrapper.js`,
  `api/handlers/databasemysql.js`): only the control decisions of the
  store layer. These are the predefined/dynamic dispatch, the rank-update
  partition and its status combination, the task sequencing, the
  membership tuple list and the statistic clause. Every answer of the
  database is an input.
- **Registry** (`api/handlers/runtime.js`): the playlist registry and
  what is built on it:
  - `addPlaylist` with its aliasing of one fresh gender object under a
    category and a country;
  - `getPlaylist`, `getPlaylistsByProfile` and `setupPlaylists`;
  - the full control flow of `generateMatch` and `finishMatch`, including
    the rating shifts and when the connection is released.
- **Reconcile** (`api/handlers/runtime.js`): `syncPlaylists` and
  `profileCleanup`.
- **Translation** (`api/handlers/admin.js`): the translation tooling over
  a JSON tree with ordered keys:
  - `findNextTranslationKeyPath` and `findEndNode`;
  - `getTranslationFromTranslationKey`;
  - the dotted-path insertion of `submitTranslation`;
  - the key and language checks of all three requests.
- **Routes** (`api/routes.js`): the request validators. These are
  `voterFbId` normalisation, the `/vote` gate with `Number.parseInt`, and
  the digits-only `fbId` check. **Decimal** holds the digit-string
  arithmetic they share with the translation tree, whose strings are
  indexed by decimal property names.

Randomness, the clock, UUIDs, the database and the file system are
parameters. A JavaScript `null`/`undefined` result is an `Option` or a
dedicated constructor. A callback that is never invoked is `None`. A
thrown `TypeError` is a `Throws`/`TypeError` constructor or a `None`
result, as each member's documentation says.

Where the code departs from its documented intent, the model follows the
code:

- `profileCleanup` still syncs after a failed task. It jumps to
  `Number.MAX_VALUE` and logs "Continuing...".
- `addPlaylist` rebinds a category to a fresh object when only the country
  is new, so the category loses its earlier playlists.
- A single nonzero rating shift never releases its connection.
- `shiftProfileCount` has no lower bound.
- With no playlists loaded, the sync never calls back, so `profileCleanup`
  never releases its connection.

## Model

| member | source | states |
|---|---|---|
| Outcome.EloDelta | api/handlers/matchresult.js:26-35 | a skip code gives `(0, 0)`; a decisive code gives `d(elo0, elo1, r)` for the first contestant and `d(elo1, elo0, 1 - r)` for the second |
| Outcome.EloDeltaSwapSymmetry | api/handlers/matchresult.js:31-34 | swapping the contestants and flipping a decisive result swaps the two deltas |
| Outcome.SkipIgnoresFormula | api/handlers/matchresult.js:27-29 | a skip yields `(0, 0)` whatever the formula |
| Outcome.SecondDeltaOwnPerspective | api/handlers/matchresult.js:32 | the second delta depends only on the formula at the second contestant's own perspective, not on the first delta |
| Outcome.DeltasNeedNotCancel | api/handlers/matchresult.js:31-34 | the two deltas are computed independently, so they need not sum to zero |
| Outcome.NewMatch | api/handlers/match.js:21-26 | a match keeps both profile ids, the voter, and a rating record built from the two profiles' ratings |
| Outcome.ProfileIndex | api/handlers/match.js:37-42 | 0 exactly when the first id matches (checked first), 1 exactly when only the second matches, -1 exactly when neither does |
| Outcome.MatchEloDelta | api/handlers/match.js:50-52 | a skip gives `(0, 0)`; a decisive code gives each contestant `d` from its own perspective, using the two ratings recorded when the match was made |
| Outcome.MatchDeltaFromProfiles | api/handlers/match.js:21-26 | a match built from two profiles rates a decisive result from those profiles' ratings |
| Outcome.ResultForWinner | api/handlers/match.js:10-13 | `1 - getProfileIndex(winner)` is 1 exactly when the winner is the first contestant, 0 exactly when it is only the second, and 2 (a skip) for anyone else |
| Outcome.ResultForWinnerCodes | api/handlers/match.js:37-42 | with distinct contestants, `1 - getProfileIndex(winner)` is 1 for the first and 0 for the second |
| Outcome.ReasonCode | api/stats/statistics.js:4-14 | the failure-reason constants range over -1..6, and -1 is only the unknown error |
| Outcome.ReasonCodesDistinct | api/stats/statistics.js:4-14 | no two failure reasons share a constant |
| Outcome.WinnerId | api/stats/statistics.js:44-51 | code 1 logs the first id, code 0 the second, every other code -1 |
| Outcome.MatchEnded | api/stats/statistics.js:37-57 | the vote row is logged for every code: playlist, both ids, voter, and the winner as `WinnerId` gives it |
| Outcome.WinnerIdRoundTrip | api/stats/statistics.js:44-51 | for a decisive code the logged winner sits at position `1 - result`, and feeding it back through `1 - getProfileIndex` gives the code again |
| Outcome.ResultForWinnerRoundTrip | api/stats/statistics.js:44-51 | logging the code of a contestant's win names that contestant |
| Outcome.StatClauseFor | api/handlers/databasemysql.js:231-238 | statistic 0 adds a loss, 1 adds a win, anything else changes the rating only |
| Outcome.StatClausesMatchLoggedWinner | api/handlers/runtime.js:635-640 | of the two shifts of a decisive vote, exactly the contestant the log names as winner gets the win |
| Sessions.NewPlaylist | api/handlers/playlist.js:21-36 | a new playlist has the key `category-gender`, two empty buckets, active index 0, count 0, and the clock reading as its last change |
| Sessions.Rotate | api/handlers/playlist.js:51-58 | when due, the index flips, the clock reading is kept, the newly active bucket is emptied and the other keeps the old active bucket; otherwise nothing changes |
| Sessions.GenMatch | api/handlers/playlist.js:49-67 | after the rotation step, the match is stored under the token in the active bucket, the other bucket is untouched, and the token is returned |
| Sessions.HasMatch | api/handlers/playlist.js:79-89 | true exactly when either bucket holds the token |
| Sessions.FinishMatch | api/handlers/playlist.js:101-122 | the active bucket is searched first and then the previous one; the match is removed from the bucket that held it; `None` and no change when neither holds it |
| Sessions.SetProfileCount | api/handlers/playlist.js:140-142 | the count is overwritten and nothing else changes |
| Sessions.ShiftProfileCount | api/handlers/playlist.js:152-154 | the count moves by exactly the shift and nothing else changes |
| Sessions.GenThenFinish | api/handlers/playlist.js:61-66 | a freshly stored match is found, and `finishMatch` returns it |
| Sessions.GenMatchLive | api/handlers/playlist.js:49-67 | after `genMatch` the live tokens are the new one plus the old active bucket (rotation) or all old ones (no rotation) |
| Sessions.FinishTwice | api/handlers/playlist.js:101-122 | a second `finishMatch` of the same token finds nothing and changes nothing |
| Sessions.ExactlyOnce | api/handlers/playlist.js:49-122 | a generated match is resolved by the first `finishMatch` and not by the second |
| Sessions.SurvivesOneRotationNotTwo | api/handlers/playlist.js:51-58 | a match survives the next rotation and is gone after the one after that |
| Sessions.NoRotationKeepsMatches | api/handlers/playlist.js:51-66 | without rotation, `genMatch` keeps every other pending match |
| Sessions.ShiftCanGoNegative | api/handlers/playlist.js:152-154 | nothing keeps the count non-negative |
| Sessions.SetOverridesShift | api/handlers/playlist.js:140-154 | setting the count overrides any earlier shift |
| PairSelector.SkipOverBijection | api/handlers/runtime.js:464-466 | "add 1 when at or above `index0`" maps a range one-to-one onto the range one larger without `index0` |
| PairSelector.SelectUniform | api/handlers/runtime.js:458-467 | both ranks lie in `[1, n]`, they differ, and the first is `r0 + 1` |
| PairSelector.UniformSecondDrawBijective | api/handlers/runtime.js:458-467 | the second draw maps one-to-one onto the ranks other than the first, with an explicit inverse |
| PairSelector.Offset | api/handlers/runtime.js:472-477 | the window start lies in `[1, n - 39]` and the window of 40 ranks contains the first rank |
| PairSelector.SelectBiased | api/handlers/runtime.js:469-487 | both ranks lie in `[1, n]` and differ, the second lies in the window, they are at most 39 apart, and at most 20 apart when no clamp applies |
| PairSelector.BiasedSecondDrawBijective | api/handlers/runtime.js:469-487 | the second draw maps one-to-one onto the window ranks other than the first, with an explicit inverse |
| PairSelector.SelectPair | api/handlers/runtime.js:456-488 | the first rank is the first draw plus one; below 40 profiles the pair is the uniform one, from 40 on the biased one; the ranks are distinct and in range, and in the biased regime the second lies in the window, at most 39 ranks away, and at most 20 when neither clamp applies |
| PairSelector.SelectPairReachesEveryOpponent | api/handlers/runtime.js:456-488 | for any first draw, the second draw reaches every possible opponent (every other rank below 40 profiles, every other rank of the window from 40 on), each by exactly one value |
| Store.VariantOf | api/utilities/databasewrapper.js:58-80 | the static variant is chosen exactly for predefined playlists |
| Store.CountProfilesCall | api/utilities/databasewrapper.js:58-64 | the count goes to the playlist's variant |
| Store.GetParticipantsCall | api/utilities/databasewrapper.js:66-72 | the participant query goes to the playlist's variant with the ranks as given |
| Store.ShiftProfileStatsCall | api/utilities/databasewrapper.js:74-80 | the shift goes to the playlist's variant, with the statistic clause chosen by `statIdentifier` |
| Store.GetLeaderboardCall | api/utilities/databasewrapper.js:115-121 | the leaderboard query goes to the playlist's variant |
| Store.PartitionIsSplit | api/utilities/databasewrapper.js:87-96 | the two lists together are a permutation of the playlists, predefined ones in the first and the others in the second |
| Store.PartitionLoop | api/utilities/databasewrapper.js:90-96 | the loop builds exactly the order-preserving filters of predefined and dynamic playlists |
| Store.UpdateRanksSequential | api/handlers/databasemysql.js:535-562 | success exactly when every playlist's update succeeds; on failure, the updates stop at the first failing playlist |
| Store.UpdatePlaylistsRanks | api/utilities/databasewrapper.js:86-113 | no callback for an empty list; success exactly when both kinds succeed; with one kind present, its status |
| Store.StaticRanksFirst | api/utilities/databasewrapper.js:100-111 | the rank updates are issued static first: the static playlists in order up to the first failing one, then the dynamic playlists in order up to the first failing one, and nothing else |
| Store.DynamicRunsAfterStaticFailure | api/utilities/databasewrapper.js:100-105 | the dynamic update is still issued after a failed static update, and the combined status is failure |
| Store.MembershipRows | api/handlers/databasemysql.js:447-453 | one `(playlistId, userId)` tuple per playlist, in order |
| Store.AddProfileToPlaylists | api/handlers/databasemysql.js:441-465 | an empty list succeeds with no query; otherwise one insert of all tuples whose answer is the status |
| Store.RemoveProfileByUserId | api/handlers/databasemysql.js:590-619 | memberships are deleted before the user row; the user row is not touched after a failed first delete |
| Store.PerformTask | api/handlers/databasemysql.js:786-804 | the task row is deleted first and its failure means no callback; "add" inserts the parsed memberships, and unparsable data means no callback after the row is gone; "remove" removes the profile; any other kind fails |
| Registry.HasPlaylist | api/handlers/runtime.js:340-345 | a registered `(category, gender)` has a listed category and names a loaded playlist of that category and gender |
| Registry.GetPlaylist | api/handlers/runtime.js:340-399 | `Some` exactly when the category is registered and its gender object has the gender; the playlist found has that category and gender |
| Registry.AddPlaylist | api/handlers/runtime.js:149-175 | other genders change nothing; otherwise the playlist is appended and found by `getPlaylist`, the category is listed once, a new name binds both maps to one fresh object, and the registry stays valid |
| Registry.AddPlaylistKeepsOtherCategories | api/handlers/runtime.js:155-166 | adding a playlist never changes what another category resolves to |
| Registry.NewCountryUnbindsCategory | api/handlers/runtime.js:155-158 | a known category added under a new country loses its earlier playlists |
| Registry.SetupPlaylists | api/handlers/runtime.js:96-105 | exactly the active rows with gender "m" or "f" become playlists, one each and in row order, carrying the row's id, category, gender and predefined flag; every loaded category is listed, and the registry is valid |
| Registry.GetPlaylistsByProfile | api/handlers/runtime.js:777-801 | `null` for unsupported genders; a throw when "international" is unregistered; otherwise the international entry is last and the country entry precedes it exactly when the lower-cased country is registered |
| Registry.ProfilePlaylistsHaveGender | api/handlers/runtime.js:777-801 | every entry of the list names a loaded playlist of the requested gender |
| Registry.GenerateMatch | api/handlers/runtime.js:429-534 | returns false with no query and no change exactly for an unknown playlist or fewer than two profiles; otherwise the participant query is issued exactly when connected, for two distinct ranks in `[1, profileCount]`; the failure reason is passed to `matchFailed` on every error path except a missing connection; an offer is made exactly for two or more rows, and the stored match is then the only change |
| Registry.GenerateMatchKeepsValid | api/handlers/runtime.js:524 | with a fresh token, `generateMatch` keeps the registry valid |
| Registry.ShiftCalls | api/handlers/runtime.js:617-640 | no shift for a skip; otherwise one shift per nonzero delta, the first contestant with statistic `result` and the second with `1 - result` |
| Registry.FinishMatch | api/handlers/runtime.js:600-647 | returns true exactly when the playlist holds the token; then the token is consumed, the vote is logged even for skips, the shifts are issued only when connected, and the connection is released exactly when two shifts were issued |
| Registry.OneSidedShiftNeverReleases | api/handlers/runtime.js:626-640 | a decisive vote with exactly one nonzero delta issues one shift and never releases the connection |
| Registry.FinishMatchOnce | api/handlers/runtime.js:600-615 | a second `finishMatch` with the same token fails and changes nothing |
| Registry.GenerateThenFinish | api/handlers/runtime.js:429-647 | an offered match can be voted on, and the logged vote names the offered pair and the voter |
| Reconcile.UpdateProfileCounts | api/handlers/runtime.js:223-242 | counts are set in array order up to the first `null` answer; that playlist and every later one are untouched |
| Reconcile.SyncPlaylists | api/handlers/runtime.js:215-246 | the counts are reloaded only after the ranks succeed; no callback without playlists; success exactly when the ranks and every count succeed |
| Reconcile.SyncStopsAtFirstFailedCount | api/handlers/runtime.js:230-238 | a failed count ends the sync at that playlist with failure |
| Reconcile.RunTasks | api/handlers/runtime.js:274-297 | tasks run in order; a failing task ends the loop and a task without callback stalls it; every task before the last one started succeeded |
| Reconcile.RunTasksQueries | api/handlers/runtime.js:274-297 | the loop issues exactly the queries of the tasks it started, task by task in order |
| Reconcile.FirstFailureEndsRun | api/handlers/runtime.js:286-295 | the loop ends exactly at the first task that does not succeed |
| Reconcile.ProfileCleanup | api/handlers/runtime.js:257-303 | without connection nothing happens; a failed task query releases the connection; a loop that does not stall is followed by the sync, which releases the connection when it calls back |
| Reconcile.SyncRunsAfterFailedTask | api/handlers/runtime.js:289-294 | after a failed task the loop ends there, yet the playlists are still synced |
| Reconcile.StalledTaskLeaksConnection | api/handlers/databasemysql.js:786-804 | a task whose row cannot be deleted stalls the cleanup: no sync, and the connection is kept |
| Reconcile.UnparsableTaskIsLost | api/handlers/databasemysql.js:786-794 | an "add" task whose data does not parse is deleted without inserting anything, and the cleanup stalls there with the connection kept |
| Reconcile.EmptyRegistryNeverReleases | api/handlers/runtime.js:275-281 | with no playlists loaded, the cleanup never releases its connection |
| Decimal.Render | api/handlers/admin.js:104 | the property name of string index `n` (as `Object.keys` lists it) is a canonical digit string, one digit long exactly below 10 |
| Decimal.ValueOfRender | api/handlers/admin.js:104 | reading back the property name of an index gives the index |
| Decimal.RenderOfValue | api/handlers/admin.js:120 | rendering the value of a canonical digit string gives the string back |
| Decimal.IndexOf | api/handlers/admin.js:120 | a property name denotes a string index exactly when it is a canonical rendering |
| Routes.ParseInt | api/routes.js:73 | the empty string and any text without a decimal digit are NaN; text that starts with a decimal digit and no `0x` prefix is a non-negative number |
| Routes.TrimStartIsSuffix | api/routes.js:73 | the leading-whitespace skip of `parseInt` removes exactly a whitespace prefix |
| Routes.ParseIntDigits | api/routes.js:73 | a digit string, with or without a sign, parses to its decimal value |
| Routes.ParseIntSkipsWhitespace | api/routes.js:73 | leading whitespace does not change the parse |
| Routes.ParseIntStopsAtPoint | api/routes.js:73 | parsing stops at the first non-digit: `"1.9"` gives 1 |
| Routes.ParseIntReadsHex | api/routes.js:73 | a `0x` prefix switches to base 16 |
| Routes.ParseIntOfWordIsNaN | api/routes.js:73-74 | text without leading digits is NaN |
| Routes.NormalizeVoter | api/routes.js:45-53 | the voter is kept exactly when the parameter is present and all digits; otherwise the voter is anonymous (-1) |
| Routes.MatchReply | api/routes.js:56-60 | a `null` match becomes the error object, anything else is sent as is |
| Routes.MatchRoute | api/routes.js:44-63 | the route calls `generateMatch` with the normalised voter and answers with the offer exactly when one was made |
| Routes.NonDigitVoterIsAnonymous | api/routes.js:47-50 | a non-digit voter parameter is recorded as anonymous in the stored match |
| Routes.Vote | api/routes.js:65-86 | `finishMatch` runs exactly when all four fields are present and the result parses; success exactly when it returns true; nothing changes otherwise |
| Routes.SkipVoteConsumesMatch | api/routes.js:73-81 | a skip vote for a pending match succeeds, consumes the match, issues no shift, and logs winner -1 |
| Routes.NaNResultChangesNothing | api/routes.js:73-74 | an unparsable result fails without touching the registry |
| Routes.ProfileRoute | api/routes.js:152-170 | the profile lookup runs exactly for a digits-only id; otherwise the answer is "Invalid id" |
| Translation.Get | api/handlers/admin.js:120 | a property exists exactly for the listed keys; a property of a string is a one-character string |
| Translation.FindEndNode | api/handlers/admin.js:156-175 | the returned path extends the path it was given, by at least one key below an object, and only an object whose first-key descent meets an empty object yields nothing |
| Translation.EndPath | api/handlers/admin.js:156-175 | the path of first keys, when it exists, leads to a leaf |
| Translation.FindEndNodeIsEndPath | api/handlers/admin.js:156-175 | `findEndNode` returns the dotted path of first keys to a leaf, and nothing when it meets an empty object |
| Translation.EndPathExists | api/handlers/admin.js:152-155 | without empty objects, a path of first keys to a leaf always exists |
| Translation.FindNext | api/handlers/admin.js:103-116 | an object without keys gives -1 at once |
| Translation.MissingIsAbsentLeaf | api/handlers/admin.js:117-149 | every path the key-list search reports is a leaf path of `all` that is absent from `existing` |
| Translation.NoneMissingIsComplete | api/handlers/admin.js:147-149 | when the search reports nothing, no leaf path of `all` is absent from `existing` |
| Translation.FirstMissingIsAbsentLeaf | api/handlers/admin.js:103-150 | without empty objects, the search reports nothing exactly when no leaf is absent, and otherwise an absent leaf path |
| Translation.FindNextIsFirstMissing | api/handlers/admin.js:103-150 | on trees with non-empty, dot-free keys, the string-building search of the source equals the key-list search |
| Translation.FindNextFindsAbsentLeaf | api/handlers/admin.js:103-150 | on such trees without empty objects, the search never throws, returns -1 exactly when nothing is missing, and otherwise returns the joined path of an absent leaf |
| Translation.FirstMissingIsFirst | api/handlers/admin.js:117-146 | the key the search reports comes no later, in key order, than the first key of any absent leaf |
| Translation.FirstMissingStopsBy | api/handlers/admin.js:117-146 | the search stops at a key no later than any key that reports something, every key it passes over has nothing missing under it, and its report is that key's report |
| Translation.FindNextFindsFirstAbsentLeaf | api/handlers/admin.js:103-150 | on such trees, when some absent leaf lies under key number `j`, the search returns the path of an absent leaf whose first key is among keys `0..j` |
| Translation.SplitJoin | api/handlers/admin.js:41 | splitting a dot-joined path of dot-free keys gives the keys back |
| Translation.JoinSplit | api/handlers/admin.js:41 | joining the parts of a split gives the string back |
| Translation.Walk | api/handlers/admin.js:177-191 | the empty path is the tree itself; one step is defined exactly for a key the tree has and never throws; a `TypeError` needs at least two steps |
| Translation.WalkLeafPath | api/handlers/admin.js:186-188 | walking a path ends at a string exactly when the path is a leaf path |
| Translation.GetTranslation | api/handlers/admin.js:177-191 | -1 gives the empty string |
| Translation.GetTranslationOfLeaf | api/handlers/admin.js:177-191 | on trees whose keys are non-empty and dot-free, the dotted form of a leaf path resolves to a string |
| Translation.FoundPathResolves | api/handlers/admin.js:81-86 | on trees whose keys are non-empty and dot-free and without empty objects, the path the search returns resolves to a string leaf of `all` and to nothing in `existing` |
| Translation.SetProperty | api/handlers/admin.js:48 | the assigned property holds the new value, every other property is unchanged, and no key is lost |
| Translation.Insert | api/handlers/admin.js:41-54 | the insertion keeps an object an object, and leaves a string unchanged |
| Translation.InsertStores | api/handlers/admin.js:41-54 | when every prefix is absent or an object, the insertion succeeds and the path then resolves to the translation |
| Translation.InsertKeepsOtherLeaves | api/handlers/admin.js:41-54 | every other leaf path that does not extend the inserted path keeps its value |
| Translation.AbsentIsInsertable | api/handlers/admin.js:46-51 | a path absent from an object can be inserted |
| Translation.InsertUnderStringIsIgnored | api/handlers/admin.js:50-54 | assigning a property of a string is silently ignored |
| Translation.InsertBelowStringThrows | api/handlers/admin.js:47-50 | descending two levels below a string throws |
| Translation.TestTranslationKey | api/handlers/admin.js:4-25 | a missing key gives status 1 "No key"; no store means no callback; status 0 authorizes the returned language, and any other status is passed on |
| Translation.SubmitTranslation | api/handlers/admin.js:27-64 | the file is written exactly for an authorized key whose language matches and whose path can be inserted; a language mismatch is refused as not authorized |
| Translation.SubmitStores | api/handlers/admin.js:36-58 | an authorized submission stores the translation at its path |
| Translation.RequestNewTranslation | api/handlers/admin.js:66-94 | the next key is offered exactly for an authorized key whose language matches; the refusals mirror `submitTranslation` |
| Translation.NextTranslationReply | api/handlers/admin.js:78-87 | no callback exactly when the search or the lookup throws; otherwise -1 with `""` when the search finds nothing, and the found key with its English text otherwise |
| Translation.NextTranslationOffersAGap | api/handlers/admin.js:78-87 | on trees with good keys and no empty objects there is always a reply; the offered key is -1 with `""` exactly when no leaf is missing, and otherwise a leaf absent from the translation, with its English text |
| Translation.RequestThenSubmitFillsTheGap | api/handlers/admin.js:27-94 | for an authorized key, an English tree whose keys are non-empty and dot-free with no empty objects, and an in-progress object, submitting a translation for the offered key stores it at exactly that absent leaf |
| Translation.EmptyKeyLosesItsPlace | api/handlers/admin.js:118-138 | with an empty key at the top, the leading dot is stripped twice, and the returned path no longer resolves |

## Left out

- The Elo formula of `api/utilities/elo.js` uses floating point
  (`Math.pow`, `Math.round`). It is the parameter `d` everywhere.
- SQL text, the connection pool and configuration loading are not
  modelled. Each query is a tagged call, and each answer is an input.
  Rank computation (`ORDER BY elo DESC`) is not modelled.
- `simplifyProfile` and `getImagePath` are field projections. The offer
  carries the raw rows.
- `setupRuntime`, `setupTasks`, `addTask`, the scheduler and
  `process.exit` on a failed start-up are not modelled.
  `Registry.SetupPlaylists` models only the loading loop.
- The profile, login, token and leaderboard handlers of `runtime.js` are
  not modelled, apart from the dispatch helpers they share.
- The Facebook client, logger, i18n, templating, `app.js` and the browser
  scripts are not modelled.
- Concurrency: `genMatch` and `finishMatch` run to completion on Node's
  event loop, so they are atomic transitions. The source's
  `match == null` re-check after the bucket lookup cannot fire in the
  model, since a stored match is never `null`. `generateMatch`,
  `syncPlaylists` and `profileCleanup` are single transitions in the
  model too, although each spans database callbacks during which other
  requests run: the profile count read at `api/handlers/runtime.js:440`,
  for example, can be stale by the time `genMatch` stores the match at
  `api/handlers/runtime.js:524`. Interleavings are not modelled.
- Store.PerformTask: data that parses to something other than a list of
  ids (a number, an object) is not modelled; `data` is either a list of
  ids or unparsable. An uncaught exception in a callback also ends the
  Node process by default; the model records only that the callback is
  never invoked.
- The file system is not modelled. The in-progress object and the English
  file are parameters. `getInProgressObjectByLanguage` (an unreadable or
  `null` file becomes `{}`) is not modelled.
- `testTranslationKey` (`api/handlers/admin.js:10`) logs through an
  undeclared `logger` when the store is unavailable. The key test itself,
  `submitTranslation` and `requestNewTranslation` all reach that line.
  The resulting `ReferenceError` is modelled as "no callback"
  (`Translation.TestTranslationKey`).
- JSON numbers, booleans, arrays and `null` are not modelled. Duplicate
  object keys are not modelled either: `Get` takes the first.
  `Object.keys` order is the explicit field order: JavaScript lists
  integer-like keys first, and the model does not reorder them.
- String index keys are decimal renderings over `seq<char>`. UTF-16 code
  units and the string `length` property are not modelled.
- Assigning a property of a string is ignored, as in sloppy-mode
  JavaScript. Strict mode would throw.
- `toLowerCase` is a function parameter.
- Query arrays (`?voterFbId=1&voterFbId=2`) are not modelled: a query
  parameter is one string.
- Routes.ParseInt: `Number.parseInt` is modelled on mathematical
  integers. It returns `-0` as `0`, and it does not round beyond 2^53.
- Translation.FindNextIsFirstMissing: the agreement of the source's
  string-building search with the key-list search is proved only for
  keys that are non-empty and dot-free. Translation.EmptyKeyLosesItsPlace
  shows what happens to an empty key.
- Translation.FindNextFindsAbsentLeaf: proved under the same key
  condition, and for trees without empty objects. The source assumes the
  latter in its comment on `findEndNode`.
- Property lookups see only stored keys. In JavaScript, `in` and `obj[k]`
  also find the names every object inherits from `Object.prototype`
  (`"toString"`, `"constructor"`, `"__proto__"`, ...). The model treats
  these names as absent, so the following members promise less than the
  source does for them:
- Sessions.HasMatch: answers false for an inherited name such as
  `"toString"`, where the source's `in` answers true.
- Sessions.FinishMatch: answers `None` for an inherited name, where the
  source returns the inherited function and deletes nothing.
- Sessions.FinishTwice: holds in the model for every token. In the source
  a second `finishMatch` of an inherited name succeeds again.
- Registry.HasPlaylist: answers false for an inherited category or gender
  name, where the source finds an inherited value.
- Registry.GetPlaylist: answers `None` for an inherited category or gender
  name. In the source, `getPlaylist("constructor", "name")` returns the
  string `"Object"`, and `generateMatch` then throws.
- Registry.GetPlaylistsByProfile: a country such as `"Constructor"`
  lower-cases to an inherited name, which the source's `in` finds. The
  source then pushes an undefined entry before the international one; the
  model returns only the international entry.
- Registry.AddPlaylist: a category or country named like an inherited
  property (`"constructor"`) counts as present in the source, so no fresh
  object is bound and the playlist is stored on the inherited value. The
  model binds a fresh object.
- Registry.GenerateMatch: for `/match/constructor/name` the source's
  `getPlaylist` returns the string `"Object"`, and
  `playlist.getProfileCount()` (`api/handlers/runtime.js:440`) throws. The
  model answers `IllegalPlaylist` and false.
- Registry.FinishMatch: answers false for an inherited token. The source
  returns true for a skip code and logs a vote with undefined ids, and it
  throws a `TypeError` for a decisive code.
- Registry.FinishMatchOnce: holds in the model for every token. The source
  accepts a vote for an inherited token such as `"toString"` any number
  of times.
- Translation.Get: answers `None` for an inherited name, so the search
  reports a key such as `"constructor"` as missing, where the source's
  `existing[key] === undefined` test skips it.
- Registry.FinishMatch: the vote row is logged whenever the call returns
  true. In the source `matchEnded` asks the pool for its own connection
  and drops the row when it gets none.
- Translation.InsertKeepsOtherLeaves: says nothing about leaf paths that
  extend the inserted path. The insertion replaces the object they lie
  in.

=== FILE: common.dfy ===
/**
 Small shared vocabulary: an optional value (JavaScript's `null`/`undefined`
 answers) and a few sequence predicates used by several modules.
 */
module Common {

  /** `None` stands for a JavaScript `null` or `undefined` answer. */
  datatype Option<+T> = None | Some(value: T)

  /** No element occurs twice. */
  predicate NoDuplicates<T(==)>(s: seq<T>)
  {
    forall i, j :: 0 <= i < j < |s| ==> s[i] != s[j]
  }

  /** Appends `x` unless it is already present (`Array.includes` followed by `push`). */
  function AppendIfAbsent<T(==,!new)>(s: seq<T>, x: T): (r: seq<T>)
    ensures x in r
    ensures forall y :: y in r <==> y in s || y == x
    ensures NoDuplicates(s) ==> NoDuplicates(r)
    ensures x in s ==> r == s
    ensures x !in s ==> |r| == |s| + 1 && r[..|s|] == s
  {
    if x in s then s else s + [x]
  }

  /** The elements of `s` that satisfy `p`, in their original order. */
  function Filter<T(!new)>(p: T -> bool, s: seq<T>): (r: seq<T>)
    ensures |r| <= |s|
    ensures forall x :: x in r <==> x in s && p(x)
    ensures multiset(r) <= multiset(s)
  {
    if s == [] then []
    else
      assert s == [s[0]] + s[1..];
      if p(s[0]) then [s[0]] + Filter(p, s[1..])
      else Filter(p, s[1..])
  }

  /** Filtering a list extended by one element extends the filtered list by that element if it passes. */
  lemma {:induction false} FilterSnoc<T(!new)>(p: T -> bool, s: seq<T>, x: T)
    ensures Filter(p, s + [x]) == Filter(p, s) + (if p(x) then [x] else [])
    decreases |s|
  {
    if s == [] {
      assert s + [x] == [x];
    } else {
      assert (s + [x])[1..] == s[1..] + [x];
      FilterSnoc(p, s[1..], x);
    }
  }
}

=== FILE: decimal.dfy ===
/**
 Decimal digit strings: the `/^[0-9]+$/` test of api/routes.js, the
 rendering of a natural number as the property name JavaScript uses for
 an array or string index, and the value of a digit string.
 */
module Decimal {
  import opened Common

  predicate IsDigit(c: char)
  {
    '0' <= c <= '9'
  }

  /** `/^[0-9]+$/.test(s)`: one or more ASCII digits and nothing else. */
  predicate IsDigits(s: string)
  {
    |s| > 0 && forall i :: 0 <= i < |s| ==> IsDigit(s[i])
  }

  function DigitValue(c: char): (d: nat)
    requires IsDigit(c)
    ensures d < 10
  {
    c as int - '0' as int
  }

  function DigitChar(d: nat): (c: char)
    requires d < 10
    ensures IsDigit(c) && DigitValue(c) == d
  {
    ('0' as int + d) as char
  }

  /** A digit string without superfluous leading zeros: the form JavaScript gives an index. */
  predicate Canonical(s: string)
  {
    IsDigits(s) && (|s| == 1 || s[0] != '0')
  }

  /** The decimal rendering of `n`, as `String(n)` gives it. */
  function Render(n: nat): (s: string)
    ensures Canonical(s)
    ensures n < 10 <==> |s| == 1
  {
    if n < 10 then [DigitChar(n)]
    else
      var s := Render(n / 10) + [DigitChar(n % 10)];
      assert s[0] == Render(n / 10)[0];
      s
  }

  /** The value of a digit string, most significant digit first; leading zeros are allowed. */
  function Value(s: string): nat
    requires forall i :: 0 <= i < |s| ==> IsDigit(s[i])
  {
    if s == [] then 0 else Value(s[..|s| - 1]) * 10 + DigitValue(s[|s| - 1])
  }

  /** Reading back a rendering gives the number. */
  lemma {:induction false} ValueOfRender(n: nat)
    ensures Value(Render(n)) == n
  {
    if n >= 10 {
      var s := Render(n);
      assert s[..|s| - 1] == Render(n / 10);
      ValueOfRender(n / 10);
    }
  }

  /** A digit string that does not start with `0` has a value of at least `1`, and of at least `10` from two digits on. */
  lemma {:induction false} LeadingNonzeroValue(s: string)
    requires IsDigits(s) && s[0] != '0'
    ensures Value(s) >= 1
    ensures |s| >= 2 ==> Value(s) >= 10
  {
    if |s| >= 2 {
      var p := s[..|s| - 1];
      assert p[0] == s[0];
      LeadingNonzeroValue(p);
    }
  }

  /** Rendering the value of a canonical string gives the string back. */
  lemma {:induction false} RenderOfValue(s: string)
    requires Canonical(s)
    ensures Render(Value(s)) == s
  {
    if |s| >= 2 {
      var p := s[..|s| - 1];
      assert p[0] == s[0];
      LeadingNonzeroValue(s);
      LeadingNonzeroValue(p);
      RenderOfValue(p);
      assert s == p + [s[|s| - 1]];
    }
  }

  /**
   The index a property name denotes on a string or array: `Some(i)`
   exactly for the canonical rendering of `i`.
   */
  function IndexOf(key: string): (r: Option<nat>)
    ensures r.Some? <==> Canonical(key)
    ensures r.Some? ==> Render(r.value) == key
  {
    if Canonical(key) then
      RenderOfValue(key);
      Some(Value(key))
    else None
  }

  /** Each index has exactly one property name. */
  lemma IndexOfRender(n: nat)
    ensures IndexOf(Render(n)) == Some(n)
  {
    ValueOfRender(n);
  }
}

=== FILE: outcome.dfy ===
/**
 A finished vote: the wire encoding of its result, the rating deltas it
 produces (api/handlers/matchresult.js), the match record kept for it
 (api/handlers/match.js), and the way the vote is logged
 (api/stats/statistics.js).

 Result codes on the wire: 1 means the first profile (position 0) won,
 0 means the second profile (position 1) won, and any other integer is a
 skip. The Elo formula itself is not modelled: it is the parameter
 `d(self, opponent, score)` of every function that needs it.
 */
module Outcome {

  /** The rating formula `getEloDelta(elo0, elo1, result)` of api/utilities/elo.js. */
  type EloFormula = (int, int, int) -> int

  /** Who cast a vote: `-1` on the wire when nobody is logged in. */
  datatype VoterId = Anonymous | FbId(digits: string)

  /** The two fields of a stored profile row that a match keeps. */
  datatype Profile = Profile(id: int, elo: int)

  /** `MatchResult`: the ratings of both contestants when the match was made. */
  datatype MatchResult = MatchResult(elo0: int, elo1: int)

  /** `Match`: the ids of both contestants, the voter, and their ratings. */
  datatype Match = Match(id0: int, id1: int, voter: VoterId, matchResult: MatchResult)

  /** True when `result` is a decisive (non-skip) result code. */
  predicate IsDecisive(result: int)
  {
    result == 0 || result == 1
  }

  /** `MatchResult.getEloDelta`: the pair of rating changes for a result code. */
  function EloDelta(mr: MatchResult, result: int, d: EloFormula): (r: (int, int))
    ensures !IsDecisive(result) ==> r == (0, 0)
    ensures IsDecisive(result) ==> r.0 == d(mr.elo0, mr.elo1, result)
    ensures IsDecisive(result) ==> r.1 == d(mr.elo1, mr.elo0, 1 - result)
  {
    if result != 0 && result != 1 then (0, 0)
    else (d(mr.elo0, mr.elo1, result), d(mr.elo1, mr.elo0, 1 - result))
  }

  /** Swapping the two contestants and flipping a decisive result swaps the deltas. */
  lemma EloDeltaSwapSymmetry(a: int, b: int, result: int, d: EloFormula)
    requires IsDecisive(result)
    ensures var fwd := EloDelta(MatchResult(a, b), result, d);
            var bwd := EloDelta(MatchResult(b, a), 1 - result, d);
            bwd == (fwd.1, fwd.0)
  {
  }

  /** A skip result is a no-op whichever formula is used. */
  lemma SkipIgnoresFormula(mr: MatchResult, result: int, d: EloFormula, d': EloFormula)
    requires !IsDecisive(result)
    ensures EloDelta(mr, result, d) == EloDelta(mr, result, d') == (0, 0)
  {
  }

  /**
   The second delta is computed from the second contestant's own
   perspective: it depends only on the formula's value at
   (elo1, elo0, 1 - result), never on the first delta.
   */
  lemma SecondDeltaOwnPerspective(mr: MatchResult, result: int, d: EloFormula, d': EloFormula)
    requires IsDecisive(result)
    requires d(mr.elo1, mr.elo0, 1 - result) == d'(mr.elo1, mr.elo0, 1 - result)
    ensures EloDelta(mr, result, d).1 == EloDelta(mr, result, d').1
  {
  }

  /** A formula whose two deltas are not each other's negation. */
  function OffByOneFormula(self: int, opponent: int, score: int): int
  {
    if score == 1 then 16 else -15
  }

  /** Because the second delta is not `-first`, the pair need not sum to zero. */
  lemma DeltasNeedNotCancel()
    ensures var r := EloDelta(MatchResult(1000, 1000), 1, OffByOneFormula);
            r.0 + r.1 != 0
  {
  }

  /** The `Match` constructor. */
  function NewMatch(profile0: Profile, profile1: Profile, voter: VoterId): (m: Match)
    ensures m.id0 == profile0.id && m.id1 == profile1.id && m.voter == voter
    ensures m.matchResult.elo0 == profile0.elo && m.matchResult.elo1 == profile1.elo
  {
    Match(profile0.id, profile1.id, voter, MatchResult(profile0.elo, profile1.elo))
  }

  /** `Match.getProfileIndex`: 0 for the first contestant (checked first), 1 for the second, -1 otherwise. */
  function ProfileIndex(m: Match, profileId: int): (r: int)
    ensures r == 0 <==> m.id0 == profileId
    ensures r == 1 <==> m.id0 != profileId && m.id1 == profileId
    ensures r == -1 <==> m.id0 != profileId && m.id1 != profileId
  {
    if m.id0 == profileId then 0
    else if m.id1 == profileId then 1
    else -1
  }

  /** `Match.getEloDelta`: the deltas computed from the ratings the contestants had when matched. */
  function MatchEloDelta(m: Match, result: int, d: EloFormula): (r: (int, int))
    ensures !IsDecisive(result) ==> r == (0, 0)
    ensures IsDecisive(result) ==> r.0 == d(m.matchResult.elo0, m.matchResult.elo1, result)
    ensures IsDecisive(result) ==> r.1 == d(m.matchResult.elo1, m.matchResult.elo0, 1 - result)
  {
    EloDelta(m.matchResult, result, d)
  }

  /** A match built from two profiles rates a decisive result from those profiles' ratings. */
  lemma MatchDeltaFromProfiles(p0: Profile, p1: Profile, voter: VoterId, result: int, d: EloFormula)
    requires IsDecisive(result)
    ensures MatchEloDelta(NewMatch(p0, p1, voter), result, d)
            == (d(p0.elo, p1.elo, result), d(p1.elo, p0.elo, 1 - result))
  {
  }

  /** The result code for a known winner: `1 - getProfileIndex(winner)`. */
  function ResultForWinner(m: Match, winnerId: int): (r: int)
    ensures r == 1 <==> winnerId == m.id0
    ensures r == 0 <==> winnerId != m.id0 && winnerId == m.id1
    ensures r == 2 <==> winnerId != m.id0 && winnerId != m.id1
  {
    1 - ProfileIndex(m, winnerId)
  }

  /** With distinct contestants, the first one winning is code 1 and the second one winning is code 0. */
  lemma ResultForWinnerCodes(m: Match)
    requires m.id0 != m.id1
    ensures ResultForWinner(m, m.id0) == 1
    ensures ResultForWinner(m, m.id1) == 0
  {
  }

  // ---------------------------------------------------------------------
  // api/stats/statistics.js
  // ---------------------------------------------------------------------

  /** The failure reasons that statistics.js exports. */
  datatype FailReason =
    | UnknownError | TooFewProfiles | DatabaseError | IllegalPlaylist
    | NonexistentMatch | AlreadyExists | IllegalGender | DoesntExist

  /** The numeric constant of each failure reason. */
  function ReasonCode(f: FailReason): (c: int)
    ensures -1 <= c <= 6
    ensures c == -1 <==> f == UnknownError
  {
    match f
    case UnknownError => -1
    case TooFewProfiles => 0
    case DatabaseError => 1
    case IllegalPlaylist => 2
    case NonexistentMatch => 3
    case AlreadyExists => 4
    case IllegalGender => 5
    case DoesntExist => 6
  }

  /** No two failure reasons share a constant. */
  lemma ReasonCodesDistinct(f: FailReason, g: FailReason)
    ensures ReasonCode(f) == ReasonCode(g) ==> f == g
  {
  }

  /** The `winnerId` that `matchEnded` logs: the first id for 1, the second for 0, -1 otherwise. */
  function WinnerId(profile1Id: int, profile2Id: int, result: int): (w: int)
    ensures result == 1 ==> w == profile1Id
    ensures result == 0 ==> w == profile2Id
    ensures !IsDecisive(result) ==> w == -1
  {
    if result == 1 then profile1Id
    else if result == 0 then profile2Id
    else -1
  }

  /** The row `logVote` is asked to insert. */
  datatype VoteRow = VoteRow(playlistId: int, profile1Id: int, profile2Id: int, winnerId: int, voter: VoterId)

  /** `matchEnded`: the vote row, logged for every result code including skips. */
  function MatchEnded(playlistId: int, m: Match, result: int): (row: VoteRow)
    ensures row.playlistId == playlistId && row.voter == m.voter
    ensures row.profile1Id == m.id0 && row.profile2Id == m.id1
    ensures IsDecisive(result) ==> row.winnerId == (if result == 1 then m.id0 else m.id1)
    ensures !IsDecisive(result) ==> row.winnerId == -1
  {
    VoteRow(playlistId, m.id0, m.id1, WinnerId(m.id0, m.id1, result), m.voter)
  }

  /**
   The logged winner and `Match`'s result convention agree: for a decisive
   result the winner sits at position `1 - result`, and feeding the logged
   winner back through `1 - getProfileIndex` gives the result again.
   */
  lemma WinnerIdRoundTrip(m: Match, result: int)
    requires m.id0 != m.id1
    requires IsDecisive(result)
    ensures ProfileIndex(m, WinnerId(m.id0, m.id1, result)) == 1 - result
    ensures ResultForWinner(m, WinnerId(m.id0, m.id1, result)) == result
  {
  }

  /** The other direction: logging the result code of a contestant's win names that contestant. */
  lemma ResultForWinnerRoundTrip(m: Match, winnerId: int)
    requires m.id0 != m.id1
    requires winnerId == m.id0 || winnerId == m.id1
    ensures WinnerId(m.id0, m.id1, ResultForWinner(m, winnerId)) == winnerId
  {
  }

  // ---------------------------------------------------------------------
  // api/handlers/databasemysql.js: the statistic a rating shift adds
  // ---------------------------------------------------------------------

  /** Which counter `shiftProfileStats` bumps besides the rating. */
  datatype StatClause = AddLoss | AddWin | EloOnly

  /** `statIdentifier` 0 adds a loss, 1 adds a win, anything else changes the rating only. */
  function StatClauseFor(statIdentifier: int): (c: StatClause)
    ensures c == AddLoss <==> statIdentifier == 0
    ensures c == AddWin <==> statIdentifier == 1
    ensures c == EloOnly <==> !IsDecisive(statIdentifier)
  {
    if statIdentifier == 0 then AddLoss
    else if statIdentifier == 1 then AddWin
    else EloOnly
  }

  /**
   A decisive vote gives the first contestant statistic `result` and the
   second `1 - result`; exactly the contestant the vote log names as winner
   gets the win, and the other the loss.
   */
  lemma StatClausesMatchLoggedWinner(m: Match, result: int)
    requires m.id0 != m.id1
    requires IsDecisive(result)
    ensures var w := WinnerId(m.id0, m.id1, result);
            (StatClauseFor(result) == AddWin <==> w == m.id0)
            && (StatClauseFor(1 - result) == AddWin <==> w == m.id1)
            && StatClauseFor(result) != StatClauseFor(1 - result)
  {
  }
}

=== FILE: pair_selector.dfy ===
/**
 The choice of the two ranks to match in `generateMatch`
 (api/handlers/runtime.js). Ranks are one-based, as in the database.

 Each `Math.floor(Math.random() * k)` of the source is an integer draw
 `r` with `0 <= r < k`. Below `2 * W` profiles both ranks are uniform;
 from `2 * W` profiles on, the second rank is drawn from a window of
 `2 * W - 1` ranks around the first, shifted to stay inside `[1, n]`.
 */
module PairSelector {

  /** `MINIMUM_POSSIBLE_OPPONENTS`: opponents on each side of the first rank. */
  const W: int := 20

  /** The two ranks to fetch, in the order they are requested. */
  datatype Pair = Pair(index0: int, index1: int)

  /** The range `k` of the second draw for a playlist of `n` profiles. */
  function SecondDrawRange(n: int): int
  {
    if n < 2 * W then n - 1 else 2 * W - 1
  }

  /** True when `r0`, `r1` are values the two random draws can take for `n` profiles. */
  predicate DrawsInRange(n: int, r0: int, r1: int)
  {
    0 <= r0 < n && 0 <= r1 < SecondDrawRange(n)
  }

  /** "If index1 is at or above index0, add 1": skips the first rank. */
  function SkipOver(candidate: int, index0: int): int
  {
    if candidate >= index0 then candidate + 1 else candidate
  }

  /** The inverse of `SkipOver` on ranks other than `index0`. */
  function UnskipOver(rank: int, index0: int): int
  {
    if rank > index0 then rank - 1 else rank
  }

  /**
   `SkipOver` maps `[lo, hi - 1]` one-to-one onto `[lo, hi]` without
   `index0`, and `UnskipOver` undoes it, in both directions.
   */
  lemma SkipOverBijection(lo: int, hi: int, index0: int)
    requires lo <= index0 <= hi
    ensures forall c :: lo <= c <= hi - 1 ==>
              lo <= SkipOver(c, index0) <= hi && SkipOver(c, index0) != index0
              && UnskipOver(SkipOver(c, index0), index0) == c
    ensures forall t :: lo <= t <= hi && t != index0 ==>
              lo <= UnskipOver(t, index0) <= hi - 1
              && SkipOver(UnskipOver(t, index0), index0) == t
  {
  }

  /** The uniform regime, `n < 2 * W`. */
  function SelectUniform(n: int, r0: int, r1: int): (p: Pair)
    requires 2 <= n
    requires 0 <= r0 < n && 0 <= r1 < n - 1
    ensures 1 <= p.index0 <= n && 1 <= p.index1 <= n
    ensures p.index0 != p.index1
    ensures p.index0 == r0 + 1
  {
    var index0 := r0 + 1;
    Pair(index0, SkipOver(r1 + 1, index0))
  }

  /** The second uniform draw that yields rank `t` when the first draw is `r0`: the inverse of the second draw. */
  function UniformDrawFor(r0: int, t: int): int
  {
    UnskipOver(t, r0 + 1) - 1
  }

  /**
   In the uniform regime every rank other than the first is reached by
   exactly one value of the second draw, namely `UniformDrawFor`.
   */
  lemma UniformSecondDrawBijective(n: int, r0: int)
    requires 2 <= n && 0 <= r0 < n
    ensures forall r1, r1' :: 0 <= r1 < n - 1 && 0 <= r1' < n - 1 && r1 != r1' ==>
              SelectUniform(n, r0, r1).index1 != SelectUniform(n, r0, r1').index1
    ensures forall r1 :: 0 <= r1 < n - 1 ==> UniformDrawFor(r0, SelectUniform(n, r0, r1).index1) == r1
    ensures forall t :: 1 <= t <= n && t != r0 + 1 ==>
              0 <= UniformDrawFor(r0, t) < n - 1
              && SelectUniform(n, r0, UniformDrawFor(r0, t)).index1 == t
  {
    SkipOverBijection(1, n, r0 + 1);
  }

  /** The window start: clamped at the top, then at the bottom, else `index0 - W`. */
  function Offset(n: int, index0: int): (offset: int)
    requires 2 * W <= n && 1 <= index0 <= n
    ensures 1 <= offset <= n - 2 * W + 1
    ensures offset <= index0 <= offset + 2 * W - 1
  {
    if index0 + W > n then n - 2 * W + 1
    else if index0 - W < 1 then 1
    else index0 - W
  }

  /** True when neither clamp of `Offset` applies. */
  predicate Unclamped(n: int, index0: int)
  {
    index0 + W <= n && 1 <= index0 - W
  }

  /** The biased regime, `n >= 2 * W`. */
  function SelectBiased(n: int, r0: int, r1: int): (p: Pair)
    requires 2 * W <= n
    requires 0 <= r0 < n && 0 <= r1 < 2 * W - 1
    ensures 1 <= p.index0 <= n && 1 <= p.index1 <= n
    ensures p.index0 != p.index1
    ensures p.index0 == r0 + 1
    ensures Offset(n, p.index0) <= p.index1 <= Offset(n, p.index0) + 2 * W - 1
    ensures -(2 * W - 1) <= p.index0 - p.index1 <= 2 * W - 1
    ensures Unclamped(n, p.index0) ==> -W <= p.index0 - p.index1 <= W
  {
    var index0 := r0 + 1;
    var offset := Offset(n, index0);
    Pair(index0, SkipOver(offset + r1, index0))
  }

  /** The second biased draw that yields rank `t` when the first draw is `r0`: the inverse of the second draw. */
  function BiasedDrawFor(n: int, r0: int, t: int): int
    requires 2 * W <= n && 0 <= r0 < n
  {
    UnskipOver(t, r0 + 1) - Offset(n, r0 + 1)
  }

  /**
   In the biased regime every rank of the window other than the first is
   reached by exactly one value of the second draw, namely `BiasedDrawFor`.
   */
  lemma BiasedSecondDrawBijective(n: int, r0: int)
    requires 2 * W <= n && 0 <= r0 < n
    ensures forall r1, r1' :: 0 <= r1 < 2 * W - 1 && 0 <= r1' < 2 * W - 1 && r1 != r1' ==>
              SelectBiased(n, r0, r1).index1 != SelectBiased(n, r0, r1').index1
    ensures forall r1 :: 0 <= r1 < 2 * W - 1 ==> BiasedDrawFor(n, r0, SelectBiased(n, r0, r1).index1) == r1
    ensures forall t :: Offset(n, r0 + 1) <= t <= Offset(n, r0 + 1) + 2 * W - 1 && t != r0 + 1 ==>
              0 <= BiasedDrawFor(n, r0, t) < 2 * W - 1
              && SelectBiased(n, r0, BiasedDrawFor(n, r0, t)).index1 == t
  {
    var offset := Offset(n, r0 + 1);
    SkipOverBijection(offset, offset + 2 * W - 1, r0 + 1);
  }

  /**
   The selection `generateMatch` makes for a playlist of `n >= 2` profiles:
   the uniform regime below `2 * W` profiles, the biased one from there on.
   */
  function SelectPair(n: int, r0: int, r1: int): (p: Pair)
    requires 2 <= n
    requires DrawsInRange(n, r0, r1)
    ensures 1 <= p.index0 <= n && 1 <= p.index1 <= n
    ensures p.index0 != p.index1
    ensures p.index0 == r0 + 1
    ensures n < 2 * W ==> p == SelectUniform(n, r0, r1)
    ensures 2 * W <= n ==> p == SelectBiased(n, r0, r1)
    ensures 2 * W <= n ==> Offset(n, p.index0) <= p.index1 <= Offset(n, p.index0) + 2 * W - 1
    ensures 2 * W <= n ==> -(2 * W - 1) <= p.index0 - p.index1 <= 2 * W - 1
    ensures 2 * W <= n && Unclamped(n, p.index0) ==> -W <= p.index0 - p.index1 <= W
  {
    if n < 2 * W then SelectUniform(n, r0, r1)
    else SelectBiased(n, r0, r1)
  }

  /** The ranks the second draw can reach once the first rank is `index0`. */
  predicate Opponent(n: int, index0: int, t: int)
    requires 2 <= n && 1 <= index0 <= n
  {
    1 <= t <= n && t != index0 && (2 * W <= n ==> Offset(n, index0) <= t <= Offset(n, index0) + 2 * W - 1)
  }

  /** The second draw that makes `SelectPair` choose opponent `t`. */
  function OpponentDraw(n: int, r0: int, t: int): int
    requires 2 <= n && 0 <= r0 < n
  {
    if n < 2 * W then UniformDrawFor(r0, t) else BiasedDrawFor(n, r0, t)
  }

  /**
   Whatever the first draw, the second draw of `SelectPair` reaches every
   possible opponent, each by exactly one value: distinct draws give
   distinct opponents, and `OpponentDraw` is the draw for each opponent.
   */
  lemma SelectPairReachesEveryOpponent(n: int, r0: int)
    requires 2 <= n && 0 <= r0 < n
    ensures forall r1 :: DrawsInRange(n, r0, r1) ==> Opponent(n, r0 + 1, SelectPair(n, r0, r1).index1)
    ensures forall r1, r1' :: DrawsInRange(n, r0, r1) && DrawsInRange(n, r0, r1') && r1 != r1' ==>
              SelectPair(n, r0, r1).index1 != SelectPair(n, r0, r1').index1
    ensures forall t :: Opponent(n, r0 + 1, t) ==>
              DrawsInRange(n, r0, OpponentDraw(n, r0, t)) && SelectPair(n, r0, OpponentDraw(n, r0, t)).index1 == t
  {
    if n < 2 * W {
      UniformSecondDrawBijective(n, r0);
    } else {
      BiasedSecondDrawBijective(n, r0);
    }
  }
}

=== FILE: reconcile.dfy ===
/**
 The periodic reconciliation of the runtime with the store
 (api/handlers/runtime.js): `syncPlaylists` re-ranks every playlist and
 reloads the profile counts, and `profileCleanup` first applies the
 pending add/remove tasks and then syncs. Every answer of the store is an
 oracle input.
 */
module Reconcile {
  import opened Common
  import opened Sessions
  import opened Store
  import opened Registry

  /** `countProfilesInPlaylist`'s answer per variant and playlist id; `None` is `null`. */
  type CountOracle = (Variant, int) -> Option<int>

  /** True when the store answers the count query of `p`. */
  predicate Counted(p: Playlist, count: CountOracle)
  {
    count(VariantOf(p), p.id).Some?
  }

  /** The result of the count loop: the playlists, how many were updated, and whether it completed. */
  datatype CountRun = CountRun(playlists: seq<Playlist>, updated: nat, ok: bool)

  /**
   `updateProfileCount(from)`: sets the counts in array order and stops at
   the first `null` answer, leaving that playlist and all later ones
   untouched.
   */
  function UpdateProfileCounts(ps: seq<Playlist>, count: CountOracle, from: nat): (r: CountRun)
    requires from <= |ps|
    ensures |r.playlists| == |ps|
    ensures from <= r.updated <= |ps|
    ensures r.ok <==> r.updated == |ps|
    ensures !r.ok ==> !Counted(ps[r.updated], count)
    ensures forall i :: from <= i < r.updated ==>
              Counted(ps[i], count)
              && r.playlists[i] == SetProfileCount(ps[i], count(VariantOf(ps[i]), ps[i].id).value)
    ensures forall i :: 0 <= i < from || r.updated <= i < |ps| ==> r.playlists[i] == ps[i]
    ensures forall i :: 0 <= i < |ps| ==> r.playlists[i].(profileCount := ps[i].profileCount) == ps[i]
    decreases |ps| - from
  {
    if from == |ps| then CountRun(ps, |ps|, true)
    else
      match count(VariantOf(ps[from]), ps[from].id)
      case None => CountRun(ps, from, false)
      case Some(c) =>
        var q := SetProfileCount(ps[from], c);
        var ps' := ps[from := q];
        var rest := UpdateProfileCounts(ps', count, from + 1);
        assert forall i :: 0 <= i < |ps| && i != from ==> ps'[i] == ps[i];
        assert rest.playlists[from] == q;
        rest
  }

  /** What `syncPlaylists` did: the registry afterwards, the rank update, the count loop, and its callback status. */
  datatype Synced = Synced(runtime: Runtime, ranks: RanksOutcome, updated: nat, status: Option<bool>)

  /**
   `syncPlaylists`: the ranks are updated first; only when that succeeds
   are the counts reloaded. With no playlists the rank update never calls
   back, and neither does the sync.
   */
  function SyncPlaylists(rt: Runtime, rankOk: (Variant, int) -> bool, count: CountOracle): (s: Synced)
    requires Valid(rt)
    ensures Valid(s.runtime)
    ensures s.ranks == UpdatePlaylistsRanks(rt.playlists, rankOk)
    ensures s.status == None <==> rt.playlists == []
    ensures s.ranks.status != Some(true) ==> s.runtime == rt && s.updated == 0
    ensures s.status == Some(true) <==>
              s.ranks.status == Some(true) && forall i :: 0 <= i < |rt.playlists| ==> Counted(rt.playlists[i], count)
    ensures s.runtime.(playlists := rt.playlists) == rt && |s.runtime.playlists| == |rt.playlists|
    ensures s.updated <= |rt.playlists|
    ensures forall i :: 0 <= i < s.updated ==>
              Counted(rt.playlists[i], count)
              && s.runtime.playlists[i] == SetProfileCount(rt.playlists[i], count(VariantOf(rt.playlists[i]), rt.playlists[i].id).value)
    ensures forall i :: s.updated <= i < |rt.playlists| ==> s.runtime.playlists[i] == rt.playlists[i]
  {
    var ranks := UpdatePlaylistsRanks(rt.playlists, rankOk);
    if ranks.status != Some(true) then Synced(rt, ranks, 0, if ranks.status == None then None else Some(false))
    else
      var c := UpdateProfileCounts(rt.playlists, count, 0);
      CountsKeepValid(rt, c.playlists);
      Synced(rt.(playlists := c.playlists), ranks, c.updated, Some(c.ok))
  }

  /** Changing nothing but profile counts keeps the registry valid. */
  lemma CountsKeepValid(rt: Runtime, ps: seq<Playlist>)
    requires Valid(rt)
    requires |ps| == |rt.playlists|
    requires forall i :: 0 <= i < |ps| ==> ps[i].(profileCount := rt.playlists[i].profileCount) == rt.playlists[i]
    ensures Valid(rt.(playlists := ps))
  {
    forall i | 0 <= i < |ps|
      ensures ps[i].category == rt.playlists[i].category && ps[i].gender == rt.playlists[i].gender
      ensures Disjoint(ps[i])
    {
      assert ps[i].(profileCount := rt.playlists[i].profileCount) == rt.playlists[i];
    }
    ReshapeKeepsValid(rt, ps);
  }

  /**
   The count loop stops at the first playlist whose count fails: that
   playlist and every later one keep their old count, every earlier one
   has its new count.
   */
  lemma SyncStopsAtFirstFailedCount(rt: Runtime, rankOk: (Variant, int) -> bool, count: CountOracle, j: nat)
    requires Valid(rt)
    requires UpdatePlaylistsRanks(rt.playlists, rankOk).status == Some(true)
    requires j < |rt.playlists| && !Counted(rt.playlists[j], count)
    requires forall i :: 0 <= i < j ==> Counted(rt.playlists[i], count)
    ensures var s := SyncPlaylists(rt, rankOk, count);
            && s.status == Some(false)
            && s.updated == j
            && (forall i :: j <= i < |rt.playlists| ==> s.runtime.playlists[i] == rt.playlists[i])
            && (forall i :: 0 <= i < j ==>
                  (s.runtime.playlists[i].profileCount == count(VariantOf(rt.playlists[i]), rt.playlists[i].id).value))
  {
  }

  // ---------------------------------------------------------------------
  // profileCleanup
  // ---------------------------------------------------------------------

  /** The store's answers to the queries of each task, by task id. */
  type TaskOracle = int -> TaskAnswers

  /** True when `performTask` calls back with success for `t`. */
  predicate TaskSucceeds(t: Task, answers: TaskOracle)
  {
    PerformTask(t, answers(t.id)).status == Some(true)
  }

  /** What the task loop did: its queries, how many tasks it started, and how it ended. */
  datatype TaskRun = TaskRun(queries: seq<Query>, attempted: nat, stalled: bool, failed: bool)

  /**
   `performTask(index)` of `profileCleanup`: tasks run in order; a failed
   task ends the loop (by jumping to `Number.MAX_VALUE`), and a task whose
   callback never comes stalls it.
   */
  function RunTasks(tasks: seq<Task>, answers: TaskOracle, from: nat): (r: TaskRun)
    requires from <= |tasks|
    ensures from <= r.attempted <= |tasks|
    ensures !(r.stalled && r.failed)
    ensures forall i :: from <= i < r.attempted - 1 ==> TaskSucceeds(tasks[i], answers)
    ensures !r.stalled && !r.failed <==> r.attempted == |tasks| && (from < |tasks| ==> TaskSucceeds(tasks[|tasks| - 1], answers))
    ensures r.stalled ==> from < r.attempted && PerformTask(tasks[r.attempted - 1], answers(tasks[r.attempted - 1].id)).status == None
    ensures r.failed ==> from < r.attempted && PerformTask(tasks[r.attempted - 1], answers(tasks[r.attempted - 1].id)).status == Some(false)
    decreases |tasks| - from
  {
    if from == |tasks| then TaskRun([], from, false, false)
    else
      var run := PerformTask(tasks[from], answers(tasks[from].id));
      match run.status
      case None => TaskRun(run.queries, from + 1, true, false)
      case Some(ok) =>
        if !ok then TaskRun(run.queries, from + 1, false, true)
        else
          var rest := RunTasks(tasks, answers, from + 1);
          TaskRun(run.queries + rest.queries, rest.attempted, rest.stalled, rest.failed)
  }

  /** The queries of tasks `from` up to `to`, each task's in turn. */
  function TaskQueries(tasks: seq<Task>, answers: TaskOracle, from: nat, to: nat): seq<Query>
    requires from <= to <= |tasks|
    decreases |tasks| - from
  {
    if from == to then []
    else PerformTask(tasks[from], answers(tasks[from].id)).queries + TaskQueries(tasks, answers, from + 1, to)
  }

  /** The loop issues exactly the queries of the tasks it started, in order, and nothing else. */
  lemma {:induction false} RunTasksQueries(tasks: seq<Task>, answers: TaskOracle, from: nat)
    requires from <= |tasks|
    ensures RunTasks(tasks, answers, from).queries
            == TaskQueries(tasks, answers, from, RunTasks(tasks, answers, from).attempted)
    decreases |tasks| - from
  {
    if from < |tasks| {
      var run := PerformTask(tasks[from], answers(tasks[from].id));
      if run.status == Some(true) {
        RunTasksQueries(tasks, answers, from + 1);
      } else {
        assert TaskQueries(tasks, answers, from + 1, from + 1) == [];
        assert run.queries + [] == run.queries;
      }
    }
  }

  /** What `profileCleanup` did; `finished` is whether `dbw.finish()` released the connection. */
  datatype Cleaned = Cleaned(runtime: Runtime, tasks: Option<TaskRun>, sync: Option<Synced>, finished: bool)

  /**
   `profileCleanup`. `connected` is whether a connection was obtained and
   `tasks` the answer of `getTasks` (`None` is `null`). After the task loop
   ends, successfully or at a failed task, the playlists are synced and the
   connection released when the sync calls back; a stalled task loop never
   gets there.
   */
  function ProfileCleanup(rt: Runtime, connected: bool, tasks: Option<seq<Task>>, answers: TaskOracle,
                          rankOk: (Variant, int) -> bool, count: CountOracle): (c: Cleaned)
    requires Valid(rt)
    ensures Valid(c.runtime)
    ensures !connected ==> c == Cleaned(rt, None, None, false)
    ensures connected && tasks.None? ==> c == Cleaned(rt, None, None, true)
    ensures c.tasks.Some? <==> connected && tasks.Some?
    ensures c.sync.Some? <==> c.tasks.Some? && !c.tasks.value.stalled
    ensures c.sync.Some? ==> c.sync.value == SyncPlaylists(rt, rankOk, count) && c.runtime == c.sync.value.runtime
    ensures c.sync.None? ==> c.runtime == rt
    ensures c.tasks.Some? ==> (c.finished <==> c.sync.Some? && c.sync.value.status.Some?)
  {
    if !connected then Cleaned(rt, None, None, false)
    else
      match tasks
      case None => Cleaned(rt, None, None, true)
      case Some(ts) =>
        var run := RunTasks(ts, answers, 0);
        if run.stalled then Cleaned(rt, Some(run), None, false)
        else
          var s := SyncPlaylists(rt, rankOk, count);
          Cleaned(s.runtime, Some(run), Some(s), s.status.Some?)
  }

  /**
   A failed task ends the task loop, yet the playlists are still synced:
   the code logs "Continuing..." and proceeds.
   */
  lemma SyncRunsAfterFailedTask(rt: Runtime, tasks: seq<Task>, answers: TaskOracle,
                                rankOk: (Variant, int) -> bool, count: CountOracle, j: nat)
    requires Valid(rt)
    requires j < |tasks|
    requires forall i :: 0 <= i < j ==> TaskSucceeds(tasks[i], answers)
    requires PerformTask(tasks[j], answers(tasks[j].id)).status == Some(false)
    ensures var c := ProfileCleanup(rt, true, Some(tasks), answers, rankOk, count);
            && c.tasks.Some? && c.tasks.value.failed
            && c.tasks.value.attempted == j + 1
            && c.sync == Some(SyncPlaylists(rt, rankOk, count))
  {
    FirstFailureEndsRun(tasks, answers, 0, j);
  }

  /** How a task loop ended: the number of tasks it started, and whether it stalled or failed. */
  function Ending(r: TaskRun): (nat, bool, bool)
  {
    (r.attempted, r.stalled, r.failed)
  }

  /** How the loop ends when task `j` is the one that does not succeed. */
  function EndingAt(tasks: seq<Task>, answers: TaskOracle, j: nat): (nat, bool, bool)
    requires j < |tasks|
  {
    var status := PerformTask(tasks[j], answers(tasks[j].id)).status;
    (j + 1, status == None, status == Some(false))
  }

  /** The task loop started at `from` ends exactly at the first task after `from` that does not succeed. */
  lemma FirstFailureEndsRun(tasks: seq<Task>, answers: TaskOracle, from: nat, j: nat)
    requires from <= j < |tasks|
    requires forall i :: from <= i < j ==> TaskSucceeds(tasks[i], answers)
    requires !TaskSucceeds(tasks[j], answers)
    ensures Ending(RunTasks(tasks, answers, from)) == EndingAt(tasks, answers, j)
  {
    var r := RunTasks(tasks, answers, from);
    if r.stalled || r.failed {
      assert r.attempted - 1 == j;
    }
  }

  /** A task whose row cannot be deleted stalls the cleanup: no sync, and the connection is never released. */
  lemma StalledTaskLeaksConnection(rt: Runtime, tasks: seq<Task>, answers: TaskOracle,
                                   rankOk: (Variant, int) -> bool, count: CountOracle, j: nat)
    requires Valid(rt)
    requires j < |tasks|
    requires forall i :: 0 <= i < j ==> TaskSucceeds(tasks[i], answers)
    requires !answers(tasks[j].id).deleteTaskOk
    ensures var c := ProfileCleanup(rt, true, Some(tasks), answers, rankOk, count);
            c.sync == None && !c.finished && c.runtime == rt
  {
    FirstFailureEndsRun(tasks, answers, 0, j);
  }

  /**
   An "add" task whose data does not parse is lost: its row is deleted,
   no membership is inserted, and the cleanup stalls there with its
   connection held.
   */
  lemma UnparsableTaskIsLost(rt: Runtime, tasks: seq<Task>, answers: TaskOracle,
                             rankOk: (Variant, int) -> bool, count: CountOracle, j: nat)
    requires Valid(rt)
    requires j < |tasks|
    requires forall i :: 0 <= i < j ==> TaskSucceeds(tasks[i], answers)
    requires answers(tasks[j].id).deleteTaskOk && tasks[j].kind == "add" && tasks[j].data.None?
    ensures PerformTask(tasks[j], answers(tasks[j].id)).queries == [DeleteTask(tasks[j].id)]
    ensures var c := ProfileCleanup(rt, true, Some(tasks), answers, rankOk, count);
            && c.tasks.Some? && c.tasks.value.stalled && c.tasks.value.attempted == j + 1
            && c.sync == None && !c.finished && c.runtime == rt
  {
    FirstFailureEndsRun(tasks, answers, 0, j);
  }

  /**
   With no playlists loaded the sync never calls back, so a cleanup that
   reaches the sync never releases its connection.
   */
  lemma EmptyRegistryNeverReleases(rt: Runtime, tasks: seq<Task>, answers: TaskOracle,
                                   rankOk: (Variant, int) -> bool, count: CountOracle)
    requires Valid(rt) && rt.playlists == []
    ensures !ProfileCleanup(rt, true, Some(tasks), answers, rankOk, count).finished
  {
  }
}

=== FILE: registry.dfy ===
/**
 The runtime's playlist registry and the two match operations built on it
 (api/handlers/runtime.js).

 The registry is three JavaScript objects that share structure:
 `playlistsByCategory` and `playlistsByCountry` map a name to a plain
 object `{ m?: playlist, f?: playlist }`, and `addPlaylist` may bind ONE
 fresh object under both names. The model keeps those gender objects in a
 heap `tables` and lets both maps hold heap indices, so the aliasing is
 explicit. Playlists themselves live in `playlists` (the source's
 `playlistsArray`) and the gender objects refer to them by index.
 */
module Registry {
  import opened Common
  import opened Outcome
  import opened Sessions
  import opened PairSelector
  import opened Store

  const MaleKey: string := "m"
  const FemaleKey: string := "f"

  /** `DECAY_TIME`: one minute, in milliseconds. */
  const DecayTime: int := 1000 * 60

  /** The country every profile is added to. */
  const International: string := "international"

  /** One `{ m?: playlist, f?: playlist }` object: gender key to playlist index. */
  type GenderTable = map<string, nat>

  /** An entry of `playlistInformation`. */
  datatype Info = Info(country: string, category: string, gender: string, isActive: bool)

  datatype Runtime = Runtime(
    tables: seq<GenderTable>,
    byCategory: map<string, nat>,
    byCountry: map<string, nat>,
    playlists: seq<Playlist>,
    categories: seq<string>,
    information: seq<Info>)

  /** The registry before `setupPlaylists` has added anything. */
  const Empty: Runtime := Runtime([], map[], map[], [], [], [])

  /** Every name refers to an existing gender object, and every gender object to an existing playlist. */
  predicate RefsInRange(rt: Runtime)
  {
    && (forall c :: c in rt.byCategory ==> rt.byCategory[c] < |rt.tables|)
    && (forall c :: c in rt.byCountry ==> rt.byCountry[c] < |rt.tables|)
    && (forall t, g :: 0 <= t < |rt.tables| && g in rt.tables[t] ==> rt.tables[t][g] < |rt.playlists|)
  }

  /** No two categories are bound to the same gender object. */
  predicate CategoriesUnshared(rt: Runtime)
  {
    forall c1, c2 :: c1 in rt.byCategory && c2 in rt.byCategory && c1 != c2 ==>
      rt.byCategory[c1] != rt.byCategory[c2]
  }

  /** A playlist reached as `(category, gender)` was created for that category and gender. */
  /** Every gender object, whichever names still reach it, holds each playlist under that playlist's own gender. */
  predicate TablesMatchGenders(rt: Runtime)
    requires RefsInRange(rt)
  {
    forall u, g :: 0 <= u < |rt.tables| && g in rt.tables[u] ==> rt.playlists[rt.tables[u][g]].gender == g
  }

  predicate PlaylistsMatchNames(rt: Runtime)
    requires RefsInRange(rt)
  {
    forall c, g :: c in rt.byCategory && g in rt.tables[rt.byCategory[c]] ==>
      rt.playlists[rt.tables[rt.byCategory[c]][g]].category == c
      && rt.playlists[rt.tables[rt.byCategory[c]][g]].gender == g
  }

  /** No match is in both buckets of a playlist. */
  predicate SessionsDisjoint(rt: Runtime)
  {
    forall i :: 0 <= i < |rt.playlists| ==> Disjoint(rt.playlists[i])
  }

  /** `playlistCategories` lists each registered category, once. */
  predicate CategoriesListed(rt: Runtime)
  {
    && NoDuplicates(rt.categories)
    && (forall c :: c in rt.categories ==> c in rt.byCategory)
    && (forall c :: c in rt.byCategory ==> c in rt.categories)
  }

  /** The registry invariant. */
  predicate Valid(rt: Runtime)
  {
    && RefsInRange(rt)
    && CategoriesUnshared(rt)
    && PlaylistsMatchNames(rt)
    && SessionsDisjoint(rt)
    && CategoriesListed(rt)
    && TablesMatchGenders(rt)
  }

  /**
   Replacing the playlists by ones of the same category and gender whose
   buckets stay disjoint keeps the registry valid: the invariant speaks of
   nothing else in a playlist.
   */
  lemma ReshapeKeepsValid(rt: Runtime, ps: seq<Playlist>)
    requires Valid(rt)
    requires |ps| == |rt.playlists|
    requires forall i :: 0 <= i < |ps| ==>
               ps[i].category == rt.playlists[i].category && ps[i].gender == rt.playlists[i].gender
    requires forall i :: 0 <= i < |ps| ==> Disjoint(ps[i])
    ensures Valid(rt.(playlists := ps))
  {
    var r := rt.(playlists := ps);
    assert RefsInRange(r);
    assert PlaylistsMatchNames(r);
    assert TablesMatchGenders(r);
  }

  /** Replacing one playlist by one of the same category and gender with disjoint buckets keeps the registry valid. */
  lemma ReplaceKeepsValid(rt: Runtime, i: nat, q: Playlist)
    requires Valid(rt) && i < |rt.playlists|
    requires q.category == rt.playlists[i].category && q.gender == rt.playlists[i].gender && Disjoint(q)
    ensures Valid(rt.(playlists := rt.playlists[i := q]))
  {
    ReshapeKeepsValid(rt, rt.playlists[i := q]);
  }

  lemma EmptyIsValid()
    ensures Valid(Empty)
  {
  }

  /** `hasPlaylist`: the category is registered and its object has the gender. */
  function HasPlaylist(rt: Runtime, category: string, gender: string): (r: bool)
    requires Valid(rt)
    ensures r ==> category in rt.categories
    ensures r ==> exists i :: 0 <= i < |rt.playlists| && rt.playlists[i].category == category && rt.playlists[i].gender == gender
  {
    if category in rt.byCategory && gender in rt.tables[rt.byCategory[category]] then
      var i := rt.tables[rt.byCategory[category]][gender];
      assert rt.playlists[i].category == category && rt.playlists[i].gender == gender;
      true
    else false
  }

  /**
   `getPlaylist`: the index of the playlist registered as `(category,
   gender)`, or `None` (the source's `null`).
   */
  function GetPlaylist(rt: Runtime, category: string, gender: string): (r: Option<nat>)
    requires Valid(rt)
    ensures r.Some? <==> HasPlaylist(rt, category, gender)
    ensures r.Some? ==> r.value < |rt.playlists|
    ensures r.Some? ==> rt.playlists[r.value].category == category && rt.playlists[r.value].gender == gender
  {
    if !HasPlaylist(rt, category, gender) then None
    else Some(rt.tables[rt.byCategory[category]][gender])
  }

  /** True for the two gender keys a playlist may have. */
  predicate IsGenderKey(gender: string)
  {
    gender == FemaleKey || gender == MaleKey
  }

  /** True when `addPlaylist` binds a fresh gender object under both names. */
  predicate NeedsFreshObject(rt: Runtime, category: string, country: string)
  {
    category !in rt.byCategory || country !in rt.byCountry
  }

  /** The first half of `addPlaylist`: rebinding both names to one fresh object when either is new. */
  function BindNames(rt: Runtime, category: string, country: string): (r: Runtime)
    requires Valid(rt)
    ensures NeedsFreshObject(rt, category, country) ==>
              && r.tables == rt.tables + [map[]]
              && r.byCategory == rt.byCategory[category := |rt.tables|]
              && r.byCountry == rt.byCountry[country := |rt.tables|]
    ensures !NeedsFreshObject(rt, category, country) ==> r == rt
    ensures r.playlists == rt.playlists && r.categories == rt.categories && r.information == rt.information
  {
    if NeedsFreshObject(rt, category, country) then
      var t := |rt.tables|;
      rt.(tables := rt.tables + [map[]],
          byCategory := rt.byCategory[category := t],
          byCountry := rt.byCountry[country := t])
    else rt
  }

  /**
   `addPlaylist`: a gender other than "m"/"f" is rejected and nothing
   changes. Otherwise the playlist is appended, registered in the object
   bound to its category, and its category and information recorded.
   */
  function AddPlaylist(rt: Runtime, id: int, category: string, country: string, gender: string,
                       active: bool, predefined: bool, now: int): (r: Runtime)
    requires Valid(rt)
    ensures Valid(r)
    ensures !IsGenderKey(gender) ==> r == rt
    ensures IsGenderKey(gender) ==>
              && GetPlaylist(r, category, gender) == Some(|rt.playlists|)
              && r.playlists == rt.playlists + [NewPlaylist(category, gender, id, DecayTime, active, predefined, now)]
              && r.information == rt.information + [Info(country, category, gender, active)]
              && r.categories == AppendIfAbsent(rt.categories, category)
    ensures IsGenderKey(gender) && NeedsFreshObject(rt, category, country) ==>
              && category in r.byCategory && country in r.byCountry
              && r.byCategory[category] == r.byCountry[country] == |rt.tables|
              && r.tables[|rt.tables|] == map[gender := |rt.playlists|]
    ensures IsGenderKey(gender) && !NeedsFreshObject(rt, category, country) ==>
              r.byCategory == rt.byCategory && r.byCountry == rt.byCountry
  {
    if !IsGenderKey(gender) then rt
    else
      var b := BindNames(rt, category, country);
      var p := NewPlaylist(category, gender, id, DecayTime, active, predefined, now);
      var r := Register(b, category, gender, p, rt.categories, rt.information + [Info(country, category, gender, active)]);
      BindNamesKeepsShape(rt, category, country);
      RegisterKeepsValid(b, category, gender, p, r);
      r
  }

  /** The second half of `addPlaylist`: storing the playlist in the object bound to its category. */
  function Register(b: Runtime, category: string, gender: string, p: Playlist,
                    categories: seq<string>, information: seq<Info>): (r: Runtime)
    requires category in b.byCategory && b.byCategory[category] < |b.tables|
  {
    var t := b.byCategory[category];
    var table: GenderTable := b.tables[t][gender := |b.playlists|];
    b.(tables := b.tables[t := table],
       categories := AppendIfAbsent(categories, category),
       information := information,
       playlists := b.playlists + [p])
  }

  /**
   The registry after `BindNames`, before the playlist is stored: valid
   except that `category` may be bound without being listed yet.
   */
  predicate BoundFor(b: Runtime, category: string)
  {
    && RefsInRange(b) && CategoriesUnshared(b) && PlaylistsMatchNames(b) && SessionsDisjoint(b)
    && TablesMatchGenders(b)
    && category in b.byCategory
    && NoDuplicates(b.categories)
    && (forall c :: c in b.categories ==> c in b.byCategory)
    && (forall c :: c in b.byCategory ==> c in b.categories || c == category)
  }

  lemma BindNamesKeepsShape(rt: Runtime, category: string, country: string)
    requires Valid(rt)
    ensures BoundFor(BindNames(rt, category, country), category)
  {
    if NeedsFreshObject(rt, category, country) {
      FreshObjectShape(rt, BindNames(rt, category, country), category, country);
    }
  }

  /** Binding both names to a fresh, empty gender object. */
  predicate FreshBinding(rt: Runtime, b: Runtime, category: string, country: string)
  {
    b == rt.(tables := rt.tables + [map[]],
             byCategory := rt.byCategory[category := |rt.tables|],
             byCountry := rt.byCountry[country := |rt.tables|])
  }

  lemma FreshObjectShape(rt: Runtime, b: Runtime, category: string, country: string)
    requires Valid(rt) && FreshBinding(rt, b, category, country)
    ensures BoundFor(b, category)
  {
    FreshRefsInRange(rt, b, category, country);
    FreshUnshared(rt, b, category, country);
    FreshMatchNames(rt, b, category, country);
    FreshMatchGenders(rt, b, category, country);
  }

  lemma FreshMatchGenders(rt: Runtime, b: Runtime, category: string, country: string)
    requires RefsInRange(rt) && TablesMatchGenders(rt) && FreshBinding(rt, b, category, country)
    ensures RefsInRange(b) && TablesMatchGenders(b)
  {
    FreshRefsInRange(rt, b, category, country);
    assert forall u :: 0 <= u < |rt.tables| ==> b.tables[u] == rt.tables[u];
    assert b.tables[|rt.tables|] == map[];
  }

  lemma FreshRefsInRange(rt: Runtime, b: Runtime, category: string, country: string)
    requires RefsInRange(rt) && FreshBinding(rt, b, category, country)
    ensures RefsInRange(b)
  {
    assert forall t :: 0 <= t < |rt.tables| ==> b.tables[t] == rt.tables[t];
    assert b.tables[|rt.tables|] == map[];
  }

  lemma FreshUnshared(rt: Runtime, b: Runtime, category: string, country: string)
    requires RefsInRange(rt) && CategoriesUnshared(rt) && FreshBinding(rt, b, category, country)
    ensures CategoriesUnshared(b)
  {
    assert forall c :: c in b.byCategory && c != category ==> b.byCategory[c] == rt.byCategory[c] < |rt.tables|;
  }

  lemma FreshMatchNames(rt: Runtime, b: Runtime, category: string, country: string)
    requires RefsInRange(rt) && PlaylistsMatchNames(rt) && FreshBinding(rt, b, category, country)
    ensures RefsInRange(b) && PlaylistsMatchNames(b)
  {
    FreshRefsInRange(rt, b, category, country);
    forall c, g | c in b.byCategory && g in b.tables[b.byCategory[c]]
      ensures b.playlists[b.tables[b.byCategory[c]][g]].category == c
      ensures b.playlists[b.tables[b.byCategory[c]][g]].gender == g
    {
      assert c != category by {
        assert b.tables[|rt.tables|] == map[];
      }
      assert b.byCategory[c] == rt.byCategory[c] < |rt.tables|;
      assert b.tables[b.byCategory[c]] == rt.tables[rt.byCategory[c]];
    }
  }

  /** Storing a playlist of the bound category and its gender completes a valid registry. */
  lemma RegisterKeepsValid(b: Runtime, category: string, gender: string, p: Playlist, r: Runtime)
    requires BoundFor(b, category)
    requires p.category == category && p.gender == gender && Disjoint(p)
    requires r == Register(b, category, gender, p, b.categories, r.information)
    ensures Valid(r)
  {
    var t := b.byCategory[category];
    var n := |b.playlists|;
    assert forall u :: 0 <= u < |b.tables| && u != t ==> r.tables[u] == b.tables[u];
    assert r.tables[t] == b.tables[t][gender := n];
    assert forall i :: 0 <= i < n ==> r.playlists[i] == b.playlists[i];
    assert r.playlists[n] == p;
    assert RefsInRange(r);
    forall c, g | c in r.byCategory && g in r.tables[r.byCategory[c]]
      ensures r.playlists[r.tables[r.byCategory[c]][g]].category == c
      ensures r.playlists[r.tables[r.byCategory[c]][g]].gender == g
    {
      if c != category {
        assert r.byCategory[c] != t;
      } else if g != gender {
        assert r.tables[t][g] == b.tables[t][g] < n;
      }
    }
    assert PlaylistsMatchNames(r);
    forall u, g | 0 <= u < |r.tables| && g in r.tables[u]
      ensures r.playlists[r.tables[u][g]].gender == g
    {
      if u != t || g != gender {
        assert r.tables[u][g] == b.tables[u][g] < n;
      }
    }
    assert TablesMatchGenders(r);
    assert SessionsDisjoint(r);
  }

  /**
   Registering a playlist never changes what another category resolves
   to: categories never share a gender object.
   */
  lemma AddPlaylistKeepsOtherCategories(rt: Runtime, id: int, category: string, country: string, gender: string,
                                        active: bool, predefined: bool, now: int, c: string, g: string)
    requires Valid(rt)
    requires c != category
    ensures GetPlaylist(AddPlaylist(rt, id, category, country, gender, active, predefined, now), c, g)
            == GetPlaylist(rt, c, g)
  {
    var b := BindNames(rt, category, country);
    if IsGenderKey(gender) && c in rt.byCategory {
      assert b.byCategory[c] == rt.byCategory[c];
      assert b.byCategory[c] != b.byCategory[category];
    }
  }

  /**
   A category that gains a playlist under a new country loses the
   playlists it had: the rebinding installs a fresh object holding only
   the new gender.
   */
  lemma NewCountryUnbindsCategory()
    ensures var rt1 := AddPlaylist(Empty, 1, "dk", "denmark", "f", true, false, 0);
            var rt2 := AddPlaylist(rt1, 2, "dk", "danmark", "m", true, false, 0);
            GetPlaylist(rt1, "dk", "f") == Some(0)
            && GetPlaylist(rt2, "dk", "f") == None
            && GetPlaylist(rt2, "dk", "m") == Some(1)
  {
    var rt1 := AddPlaylist(Empty, 1, "dk", "denmark", "f", true, false, 0);
    assert NeedsFreshObject(rt1, "dk", "danmark");
  }

  // ---------------------------------------------------------------------
  // setupPlaylists
  // ---------------------------------------------------------------------

  /** A row of the `playlists` table, with `active` and `predefined` as stored integers. */
  datatype PlaylistRow = PlaylistRow(id: int, countryShort: string, country: string, gender: string,
                                     active: int, predefined: int)

  /** True for a row `setupPlaylists` turns into a playlist: active, with gender "m" or "f". */
  predicate Loads(row: PlaylistRow)
  {
    row.active != 0 && IsGenderKey(row.gender)
  }

  /** True when playlist `p` is the one loaded from `row`. */
  predicate LoadedFrom(p: Playlist, row: PlaylistRow)
  {
    p.id == row.id && p.category == row.countryShort && p.gender == row.gender
    && p.active && p.predefined == (row.predefined != 0)
  }

  /** True when `ps` are the playlists loaded from `rows`, one per loading row, in row order. */
  predicate LoadedAll(ps: seq<Playlist>, rows: seq<PlaylistRow>)
  {
    |ps| == |Filter(Loads, rows)| && forall i :: 0 <= i < |ps| ==> LoadedFrom(ps[i], Filter(Loads, rows)[i])
  }

  /** True when the category of every loading row of `rows` is listed in `categories`. */
  predicate CategoriesCovered(categories: seq<string>, rows: seq<PlaylistRow>)
  {
    forall i :: 0 <= i < |rows| && Loads(rows[i]) ==> rows[i].countryShort in categories
  }

  /** Loading one more row keeps every loading row's category listed. */
  lemma CoverStep(before: seq<string>, after: seq<string>, rows: seq<PlaylistRow>, k: nat)
    requires k < |rows|
    requires CategoriesCovered(before, rows[..k])
    requires forall c :: c in before ==> c in after
    requires Loads(rows[k]) ==> rows[k].countryShort in after
    ensures CategoriesCovered(after, rows[..k + 1])
  {
    var done, row := rows[..k], rows[k];
    assert rows[..k + 1] == done + [row];
    forall i | 0 <= i < |done + [row]| && Loads((done + [row])[i])
      ensures (done + [row])[i].countryShort in after
    {
      if i < |done| {
        assert (done + [row])[i] == done[i];
      }
    }
  }

  /** Loading one more row keeps the playlists in step with the loading rows. */
  lemma LoadStep(before: seq<Playlist>, after: seq<Playlist>, rows: seq<PlaylistRow>, k: nat)
    requires k < |rows|
    requires LoadedAll(before, rows[..k])
    requires !Loads(rows[k]) ==> after == before
    requires Loads(rows[k]) ==> |after| == |before| + 1 && after[..|before|] == before && LoadedFrom(after[|before|], rows[k])
    ensures LoadedAll(after, rows[..k + 1])
  {
    var done, row := rows[..k], rows[k];
    assert rows[..k + 1] == done + [row];
    FilterSnoc(Loads, done, row);
    var f, g := Filter(Loads, done), Filter(Loads, done + [row]);
    if Loads(row) {
      assert g == f + [row];
      forall i | 0 <= i < |after|
        ensures LoadedFrom(after[i], g[i])
      {
        if i < |before| {
          assert after[i] == after[..|before|][i] == before[i];
          assert g[i] == f[i];
        }
      }
    } else {
      assert g == f;
    }
  }

  /** One iteration of `setupPlaylists`: an active row is added, an inactive one skipped. */
  function LoadRow(rt: Runtime, row: PlaylistRow, now: int): (r: Runtime)
    requires Valid(rt)
    ensures Valid(r)
    ensures |r.playlists| <= |rt.playlists| + 1
    ensures row.active == 0 ==> r == rt
    ensures (forall i :: 0 <= i < |rt.playlists| ==> rt.playlists[i].active) ==>
              forall i :: 0 <= i < |r.playlists| ==> r.playlists[i].active
    ensures forall c :: c in rt.categories ==> c in r.categories
    ensures row.active != 0 && IsGenderKey(row.gender) ==> row.countryShort in r.categories
    ensures !Loads(row) ==> r.playlists == rt.playlists
    ensures Loads(row) ==> |r.playlists| == |rt.playlists| + 1 && r.playlists[..|rt.playlists|] == rt.playlists
                           && LoadedFrom(r.playlists[|rt.playlists|], row)
  {
    if row.active != 0 then
      AddPlaylist(rt, row.id, row.countryShort, row.country, row.gender,
                  row.active != 0, row.predefined != 0, now)
    else rt
  }

  /**
   The loop of `setupPlaylists`: only active rows are added, so every
   loaded playlist is active, and at most one playlist per row is loaded.
   */
  method SetupPlaylists(rows: seq<PlaylistRow>, now: int) returns (rt: Runtime)
    ensures Valid(rt)
    ensures |rt.playlists| <= |rows|
    ensures forall i :: 0 <= i < |rt.playlists| ==> rt.playlists[i].active
    ensures forall i :: 0 <= i < |rows| && rows[i].active != 0 && IsGenderKey(rows[i].gender) ==>
              rows[i].countryShort in rt.categories
    ensures LoadedAll(rt.playlists, rows)
  {
    rt := Empty;
    var k := 0;
    assert rows[..0] == [];
    while k < |rows|
      invariant 0 <= k <= |rows|
      invariant Valid(rt)
      invariant CategoriesCovered(rt.categories, rows[..k])
      invariant LoadedAll(rt.playlists, rows[..k])
    {
      var before := rt;
      rt := LoadRow(rt, rows[k], now);
      LoadStep(before.playlists, rt.playlists, rows, k);
      CoverStep(before.categories, rt.categories, rows, k);
      k := k + 1;
    }
    assert rows[..k] == rows;
    assert forall i :: 0 <= i < |rt.playlists| ==> LoadedFrom(rt.playlists[i], Filter(Loads, rows)[i]);
    assert CategoriesCovered(rt.categories, rows);
  }

  // ---------------------------------------------------------------------
  // getPlaylistsByProfile
  // ---------------------------------------------------------------------

  /** The answer of `getPlaylistsByProfile`; an entry `None` is an `undefined` pushed into the list. */
  datatype ProfilePlaylists = UnsupportedGender | Throws | Playlists(entries: seq<Option<nat>>)

  /** `object[gender]` on a gender object. */
  function Lookup(t: GenderTable, gender: string): (r: Option<nat>)
    ensures r.Some? <==> gender in t
  {
    if gender in t then Some(t[gender]) else None
  }

  /**
   `getPlaylistsByProfile`: "male"/"female" become "m"/"f", any other
   gender gives `null`. The playlist of the lower-cased country comes first
   when that country is registered; the international playlist always comes
   last, and reading it throws when "international" was never registered.
   `lower` is `String.prototype.toLowerCase`.
   */
  function GetPlaylistsByProfile(rt: Runtime, gender: string, country: Option<string>,
                                 lower: string -> string): (r: ProfilePlaylists)
    requires Valid(rt)
    ensures r == UnsupportedGender <==> gender != "male" && gender != "female"
    ensures r == Throws <==> (gender == "male" || gender == "female") && International !in rt.byCountry
    ensures r.Playlists? ==>
              var g := if gender == "male" then MaleKey else FemaleKey;
              && 1 <= |r.entries| <= 2
              && r.entries[|r.entries| - 1] == Lookup(rt.tables[rt.byCountry[International]], g)
              && (|r.entries| == 2 <==> country.Some? && lower(country.value) in rt.byCountry)
              && (|r.entries| == 2 ==> r.entries[0] == Lookup(rt.tables[rt.byCountry[lower(country.value)]], g))
  {
    if gender != "male" && gender != "female" then UnsupportedGender
    else
      var g := if gender == "male" then MaleKey else FemaleKey;
      var head :=
        if country.Some? && lower(country.value) in rt.byCountry
        then [Lookup(rt.tables[rt.byCountry[lower(country.value)]], g)]
        else [];
      if International !in rt.byCountry then Throws
      else Playlists(head + [Lookup(rt.tables[rt.byCountry[International]], g)])
  }
  /**
   Each playlist `getPlaylistsByProfile` finds is a loaded playlist of the
   profile's gender, and the last one is listed under "international".
   */
  lemma ProfilePlaylistsHaveGender(rt: Runtime, gender: string, country: Option<string>, lower: string -> string)
    requires Valid(rt)
    ensures var r := GetPlaylistsByProfile(rt, gender, country, lower);
            r.Playlists? ==>
              var g := if gender == "male" then MaleKey else FemaleKey;
              forall i :: 0 <= i < |r.entries| && r.entries[i].Some? ==>
                r.entries[i].value < |rt.playlists| && rt.playlists[r.entries[i].value].gender == g
  {
    var r := GetPlaylistsByProfile(rt, gender, country, lower);
    if r.Playlists? {
      var g := if gender == "male" then MaleKey else FemaleKey;
      forall i | 0 <= i < |r.entries| && r.entries[i].Some?
        ensures r.entries[i].value < |rt.playlists| && rt.playlists[r.entries[i].value].gender == g
      {
        var u := if i == |r.entries| - 1 then rt.byCountry[International] else rt.byCountry[lower(country.value)];
        assert r.entries[i] == Lookup(rt.tables[u], g);
      }
    }
  }


  // ---------------------------------------------------------------------
  // generateMatch
  // ---------------------------------------------------------------------

  /** What the store answers to `getInstance` + `getParticipants`. */
  datatype StoreAnswer = NoConnection | QueryFailed | Rows(rows: seq<Profile>)

  /** `{ matchUUID, profile0, profile1 }`, the callback's argument on success. */
  datatype MatchOffer = MatchOffer(matchUuid: Uuid, profile0: Profile, profile1: Profile)

  /**
   Everything `generateMatch` does: the new registry, its return value,
   the participants query it issued, the callback's argument (`None` is
   `null`) and the failure reason it logged.
   */
  datatype Generated = Generated(runtime: Runtime, returned: bool, query: Option<StoreCall>,
                                 reply: Option<MatchOffer>, failure: Option<FailReason>)

  /** The random draws are in range for the playlist `generateMatch` would use. */
  predicate DrawsFit(rt: Runtime, category: string, gender: string, r0: int, r1: int)
    requires Valid(rt)
  {
    match GetPlaylist(rt, category, gender)
    case None => true
    case Some(i) => rt.playlists[i].profileCount < 2 || DrawsInRange(rt.playlists[i].profileCount, r0, r1)
  }

  /** No playlist holds `uuid` yet. */
  predicate FreshUuid(rt: Runtime, uuid: Uuid)
  {
    forall i :: 0 <= i < |rt.playlists| ==> uuid !in rt.playlists[i].Live()
  }

  /**
   `generateMatch`. `r0`, `r1` are the two random draws, `answer` the
   store's answer, `now` the clock and `uuid` the fresh token.
   */
  function GenerateMatch(rt: Runtime, category: string, gender: string, voter: VoterId,
                         r0: int, r1: int, answer: StoreAnswer, now: int, uuid: Uuid): (o: Generated)
    requires Valid(rt)
    requires DrawsFit(rt, category, gender, r0, r1)
    ensures !o.returned <==>
              GetPlaylist(rt, category, gender).None?
              || rt.playlists[GetPlaylist(rt, category, gender).value].profileCount < 2
    ensures !o.returned ==> o.runtime == rt && o.query == None && o.reply == None
    ensures GetPlaylist(rt, category, gender).None? ==> o.failure == Some(IllegalPlaylist)
    ensures GetPlaylist(rt, category, gender).Some? && !o.returned ==> o.failure == Some(TooFewProfiles)
    ensures o.failure == None <==> o.returned && (answer.NoConnection? || o.reply.Some?)
    ensures o.returned ==>
              var p := rt.playlists[GetPlaylist(rt, category, gender).value];
              && o.query.Some? == !answer.NoConnection?
              && (o.query.Some? ==>
                    && o.query.value.GetParticipants?
                    && o.query.value == GetParticipantsCall(p, o.query.value.ranks)
                    && |o.query.value.ranks| == 2
                    && 1 <= o.query.value.ranks[0] <= p.profileCount
                    && 1 <= o.query.value.ranks[1] <= p.profileCount
                    && o.query.value.ranks[0] != o.query.value.ranks[1])
    ensures o.reply.Some? <==> o.returned && answer.Rows? && |answer.rows| >= 2
    ensures o.reply.None? ==> o.runtime == rt
    ensures o.reply.Some? ==>
              var i := GetPlaylist(rt, category, gender).value;
              && o.reply.value == MatchOffer(uuid, answer.rows[0], answer.rows[1])
              && |o.runtime.playlists| == |rt.playlists|
              && o.runtime == rt.(playlists := rt.playlists[i := o.runtime.playlists[i]])
              && uuid in o.runtime.playlists[i].ActiveSession()
              && o.runtime.playlists[i].ActiveSession()[uuid] == NewMatch(answer.rows[0], answer.rows[1], voter)
    ensures o.returned && answer.QueryFailed? ==> o.failure == Some(DatabaseError)
    ensures o.returned && answer.Rows? && |answer.rows| < 2 ==> o.failure == Some(DatabaseError)
  {
    match GetPlaylist(rt, category, gender)
    case None => Generated(rt, false, None, None, Some(IllegalPlaylist))
    case Some(i) =>
      var p := rt.playlists[i];
      var n := p.profileCount;
      if n < 2 then Generated(rt, false, None, None, Some(TooFewProfiles))
      else
        var pair := SelectPair(n, r0, r1);
        var query := GetParticipantsCall(p, [pair.index0, pair.index1]);
        match answer
        case NoConnection => Generated(rt, true, None, None, None)
        case QueryFailed => Generated(rt, true, Some(query), None, Some(DatabaseError))
        case Rows(rows) =>
          if |rows| < 2 then Generated(rt, true, Some(query), None, Some(DatabaseError))
          else
            var (q, u) := GenMatch(p, rows[0], rows[1], voter, now, uuid);
            Generated(rt.(playlists := rt.playlists[i := q]), true, Some(query),
                      Some(MatchOffer(u, rows[0], rows[1])), None)
  }

  /** A fresh token keeps the registry valid through `generateMatch`. */
  lemma GenerateMatchKeepsValid(rt: Runtime, category: string, gender: string, voter: VoterId,
                                r0: int, r1: int, answer: StoreAnswer, now: int, uuid: Uuid)
    requires Valid(rt) && FreshUuid(rt, uuid)
    requires DrawsFit(rt, category, gender, r0, r1)
    ensures Valid(GenerateMatch(rt, category, gender, voter, r0, r1, answer, now, uuid).runtime)
  {
    var o := GenerateMatch(rt, category, gender, voter, r0, r1, answer, now, uuid);
    if o.reply.Some? {
      var i := GetPlaylist(rt, category, gender).value;
      var p := rt.playlists[i];
      var q := GenMatch(p, answer.rows[0], answer.rows[1], voter, now, uuid).0;
      assert uuid !in p.Live();
      assert o.runtime == rt.(playlists := rt.playlists[i := q]);
      ReplaceKeepsValid(rt, i, q);
    }
  }

  // ---------------------------------------------------------------------
  // finishMatch
  // ---------------------------------------------------------------------

  /**
   The rating shifts `finishMatch` issues for a stored match: one per
   nonzero delta of a decisive result, the first contestant with statistic
   `result`, the second with `1 - result`.
   */
  function ShiftCalls(p: Playlist, m: Match, result: int, d: EloFormula): (cs: seq<StoreCall>)
    ensures !IsDecisive(result) ==> cs == []
    ensures IsDecisive(result) ==>
              var delta := MatchEloDelta(m, result, d);
              && |cs| == (if delta.0 != 0 then 1 else 0) + (if delta.1 != 0 then 1 else 0)
              && (delta.0 != 0 ==> cs[0] == ShiftProfileStatsCall(p, m.id0, delta.0, result))
              && (delta.1 != 0 ==> cs[|cs| - 1] == ShiftProfileStatsCall(p, m.id1, delta.1, 1 - result))
    ensures forall c :: c in cs ==> c.ShiftProfileStats? && c.deltaElo != 0 && c.playlistId == p.id
  {
    if !IsDecisive(result) then []
    else
      var delta := MatchEloDelta(m, result, d);
      (if delta.0 != 0 then [ShiftProfileStatsCall(p, m.id0, delta.0, result)] else [])
      + (if delta.1 != 0 then [ShiftProfileStatsCall(p, m.id1, delta.1, 1 - result)] else [])
  }

  /**
   Everything `finishMatch` does: the new registry, its return value, the
   rating shifts it issued, whether the store connection was released, the
   vote it logged and the failure reason it logged.
   */
  datatype Finished = Finished(runtime: Runtime, returned: bool, shifts: seq<StoreCall>, released: bool,
                               vote: Option<VoteRow>, failure: Option<FailReason>)

  /**
   `finishMatch`. `d` is the rating formula and `connected` whether the
   store hands out a connection for the shifts. The connection is released
   by the second shift callback only, so it is released iff two shifts
   were issued.
   */
  function FinishMatch(rt: Runtime, category: string, gender: string, uuid: Uuid, result: int,
                       d: EloFormula, connected: bool): (o: Finished)
    requires Valid(rt)
    ensures Valid(o.runtime)
    ensures o.returned <==>
              GetPlaylist(rt, category, gender).Some?
              && uuid in rt.playlists[GetPlaylist(rt, category, gender).value].Live()
    ensures !o.returned ==> o.runtime == rt && o.shifts == [] && o.vote == None && !o.released
    ensures GetPlaylist(rt, category, gender).None? ==> o.failure == Some(IllegalPlaylist)
    ensures GetPlaylist(rt, category, gender).Some? && !o.returned ==> o.failure == Some(NonexistentMatch)
    ensures o.returned ==>
              var i := GetPlaylist(rt, category, gender).value;
              var (q, m) := Sessions.FinishMatch(rt.playlists[i], uuid);
              && o.runtime == rt.(playlists := rt.playlists[i := q])
              && q.Live() == rt.playlists[i].Live() - {uuid}
              && o.vote == Some(MatchEnded(rt.playlists[i].id, m.value, result))
              && o.shifts == (if connected then ShiftCalls(rt.playlists[i], m.value, result, d) else [])
              && o.failure == None
    ensures o.shifts != [] ==> IsDecisive(result) && connected
    ensures o.released <==> |o.shifts| == 2
  {
    match GetPlaylist(rt, category, gender)
    case None => Finished(rt, false, [], false, None, Some(IllegalPlaylist))
    case Some(i) =>
      var p := rt.playlists[i];
      var (q, m) := Sessions.FinishMatch(p, uuid);
      match m
      case None => Finished(rt, false, [], false, None, Some(NonexistentMatch))
      case Some(match_) =>
        var shifts := if connected then ShiftCalls(p, match_, result, d) else [];
        var r := rt.(playlists := rt.playlists[i := q]);
        ReplaceKeepsValid(rt, i, q);
        Finished(r, true, shifts, |shifts| == 2, Some(MatchEnded(p.id, match_, result)), None)
  }

  /**
   A decisive vote with exactly one nonzero delta issues one shift, whose
   callback never releases the connection.
   */
  lemma OneSidedShiftNeverReleases(rt: Runtime, category: string, gender: string, uuid: Uuid, result: int,
                                   d: EloFormula)
    requires Valid(rt)
    requires IsDecisive(result)
    requires var o := FinishMatch(rt, category, gender, uuid, result, d, true);
             o.returned &&
             var m := Sessions.FinishMatch(rt.playlists[GetPlaylist(rt, category, gender).value], uuid).1.value;
             var delta := MatchEloDelta(m, result, d);
             (delta.0 == 0) != (delta.1 == 0)
    ensures var o := FinishMatch(rt, category, gender, uuid, result, d, true);
            |o.shifts| == 1 && !o.released
  {
  }

  /** A match is finished at most once: the second `finishMatch` with the same token fails. */
  lemma FinishMatchOnce(rt: Runtime, category: string, gender: string, uuid: Uuid, result: int, result': int,
                        d: EloFormula, connected: bool)
    requires Valid(rt)
    ensures var o1 := FinishMatch(rt, category, gender, uuid, result, d, connected);
            var o2 := FinishMatch(o1.runtime, category, gender, uuid, result', d, connected);
            !o2.returned && o2.runtime == o1.runtime
  {
    var o1 := FinishMatch(rt, category, gender, uuid, result, d, connected);
    if o1.returned {
      var i := GetPlaylist(rt, category, gender).value;
      assert o1.runtime.tables == rt.tables && o1.runtime.byCategory == rt.byCategory;
      assert GetPlaylist(o1.runtime, category, gender) == Some(i);
    }
  }

  /**
   The offer `generateMatch` hands out can be voted on: `finishMatch` with
   its token succeeds, consumes the session and logs the offered pair.
   */
  lemma GenerateThenFinish(rt: Runtime, category: string, gender: string, voter: VoterId,
                           r0: int, r1: int, answer: StoreAnswer, now: int, uuid: Uuid,
                           result: int, d: EloFormula, connected: bool)
    requires Valid(rt) && FreshUuid(rt, uuid)
    requires DrawsFit(rt, category, gender, r0, r1)
    requires GenerateMatch(rt, category, gender, voter, r0, r1, answer, now, uuid).reply.Some?
    ensures var g := GenerateMatch(rt, category, gender, voter, r0, r1, answer, now, uuid);
            Valid(g.runtime)
            && var f := FinishMatch(g.runtime, category, gender, uuid, result, d, connected);
            && f.returned
            && f.vote.Some?
            && f.vote.value.profile1Id == g.reply.value.profile0.id
            && f.vote.value.profile2Id == g.reply.value.profile1.id
            && f.vote.value.voter == voter
  {
    var g := GenerateMatch(rt, category, gender, voter, r0, r1, answer, now, uuid);
    GenerateMatchKeepsValid(rt, category, gender, voter, r0, r1, answer, now, uuid);
    var i := GetPlaylist(rt, category, gender).value;
    assert g.runtime.tables == rt.tables && g.runtime.byCategory == rt.byCategory;
    assert GetPlaylist(g.runtime, category, gender) == Some(i);
    var p := g.runtime.playlists[i];
    assert uuid in p.Live();
    var m := Sessions.FinishMatch(p, uuid).1.value;
    assert m == NewMatch(answer.rows[0], answer.rows[1], voter);
  }
}

=== FILE: routes.dfy ===
/**
 The request handling of api/routes.js that decides what reaches the
 match engine: the `voterFbId` normalisation and the null-match answer of
 `GET /match/:playlist/:gender`, the acceptance gate of `POST /vote` with
 its `Number.parseInt`, and the id check of
 `GET /profile/:playlist/:gender/:fbId`.
 */
module Routes {
  import opened Common
  import opened Decimal
  import opened Outcome
  import opened Sessions
  import opened Registry

  // ---------------------------------------------------------------------
  // Number.parseInt with no radix (section 19.2.5 of ECMAScript 2015)
  // ---------------------------------------------------------------------

  /** The white space and line terminators `parseInt` skips before the number. */
  predicate IsJsWhitespace(c: char)
  {
    || c == '\t' || c == '\n' || c == '\U{B}' || c == '\U{C}' || c == '\r' || c == ' '
    || c == '\U{A0}' || c == '\U{1680}' || ('\U{2000}' <= c <= '\U{200A}')
    || c == '\U{2028}' || c == '\U{2029}' || c == '\U{202F}' || c == '\U{205F}'
    || c == '\U{3000}' || c == '\U{FEFF}'
  }

  /** `s` without its leading white space. */
  function TrimStart(s: string): string
  {
    if s == [] || !IsJsWhitespace(s[0]) then s else TrimStart(s[1..])
  }

  /** `TrimStart` removes exactly the leading white space: what is left is a suffix that starts with something else. */
  lemma {:induction false} TrimStartIsSuffix(s: string)
    ensures var r := TrimStart(s);
            && |r| <= |s| && r == s[|s| - |r|..]
            && (r == [] || !IsJsWhitespace(r[0]))
            && forall i :: 0 <= i < |s| - |r| ==> IsJsWhitespace(s[i])
  {
    if s != [] && IsJsWhitespace(s[0]) {
      TrimStartIsSuffix(s[1..]);
      var r := TrimStart(s);
      assert forall i :: 1 <= i < |s| - |r| ==> s[i] == s[1..][i - 1];
    }
  }

  /** A digit of base 10, or of base 16 in either letter case. */
  predicate IsRadixDigit(c: char, radix: nat)
  {
    IsDigit(c) || (radix == 16 && ('a' <= c <= 'f' || 'A' <= c <= 'F'))
  }

  function RadixDigitValue(c: char, radix: nat): (d: nat)
    requires IsRadixDigit(c, radix)
    ensures d < (if radix == 16 then 16 else 10)
  {
    if IsDigit(c) then DigitValue(c)
    else if 'a' <= c <= 'f' then c as int - 'a' as int + 10
    else c as int - 'A' as int + 10
  }

  /** The length of the longest prefix of `s` made of digits of `radix`. */
  function DigitRun(s: string, radix: nat): (n: nat)
    ensures n <= |s|
    ensures forall i :: 0 <= i < n ==> IsRadixDigit(s[i], radix)
    ensures n < |s| ==> !IsRadixDigit(s[n], radix)
  {
    if s == [] || !IsRadixDigit(s[0], radix) then 0 else 1 + DigitRun(s[1..], radix)
  }

  /** The value of a string of digits of `radix`, most significant first. */
  function RadixValue(z: string, radix: nat): nat
    requires forall i :: 0 <= i < |z| ==> IsRadixDigit(z[i], radix)
  {
    if z == [] then 0
    else if radix == 16 then RadixValue(z[..|z| - 1], radix) * 16 + RadixDigitValue(z[|z| - 1], radix)
    else RadixValue(z[..|z| - 1], radix) * 10 + RadixDigitValue(z[|z| - 1], radix)
  }

  /** A `0x`/`0X` prefix, which switches `parseInt` to base 16. */
  predicate HasHexPrefix(u: string)
  {
    |u| >= 2 && u[0] == '0' && (u[1] == 'x' || u[1] == 'X')
  }

  /**
   The unsigned part of `parseInt`: the value of the longest run of digits
   after an optional hex prefix; `None` when that run is empty.
   */
  function ReadUnsigned(u: string): (r: Option<nat>)
  {
    var radix := if HasHexPrefix(u) then 16 else 10;
    var v := if HasHexPrefix(u) then u[2..] else u;
    var z := v[..DigitRun(v, radix)];
    if z == [] then None else Some(RadixValue(z, radix))
  }

  /** A leading `-`, which makes `parseInt` negate the digits it reads. */
  predicate IsNegative(t: string)
  {
    |t| > 0 && t[0] == '-'
  }

  /** `t` without one leading sign character. */
  function AfterSign(t: string): (u: string)
    ensures u == t || (|t| > 0 && u == t[1..] && (t[0] == '-' || t[0] == '+'))
  {
    if |t| > 0 && (t[0] == '-' || t[0] == '+') then t[1..] else t
  }

  /** `parseInt` after the white space: an optional sign, then the unsigned digits. */
  function ParseTrimmed(t: string): Option<int>
  {
    match ReadUnsigned(AfterSign(t))
    case None => None
    case Some(m) => Some(if IsNegative(t) then -(m as int) else m)
  }

  /**
   `Number.parseInt(s)`: skips leading white space, takes one optional
   sign, reads base 16 after a `0x`/`0X` prefix and base 10 otherwise, and
   converts the longest run of digits; `None` is `NaN` (no digit at all).
   The sign of zero is dropped, since `-0 == 0` wherever the result is used.
   */
  function ParseInt(s: string): (r: Option<int>)
    ensures s == [] ==> r == None
    ensures r.Some? ==> exists i :: 0 <= i < |s| && IsDigit(s[i])
    ensures |s| > 0 && IsDigit(s[0]) && !HasHexPrefix(s) ==> r.Some? && r.value >= 0
  {
    TrimStartIsSuffix(s);
    if ParseTrimmed(TrimStart(s)).Some? then
      var t := TrimStart(s);
      ParsedHasDigit(t);
      var i :| 0 <= i < |t| && IsDigit(t[i]);
      assert s[|s| - |t| + i] == t[i];
      ParseTrimmed(t)
    else ParseTrimmed(TrimStart(s))
  }

  /** `parseInt` finds no number in text without a digit: base 16 needs its `0x` prefix. */
  lemma ParsedHasDigit(t: string)
    requires ParseTrimmed(t).Some?
    ensures exists i :: 0 <= i < |t| && IsDigit(t[i])
  {
    var u := AfterSign(t);
    var k := |t| - |u|;
    assert u == t[k..];
    if HasHexPrefix(u) {
      assert t[k] == '0';
    } else {
      assert IsRadixDigit(u[0], 10);
      assert t[k] == u[0];
    }
  }

  /** In base 10 the two digit readings agree. */
  lemma {:induction false} DecimalRadixValue(z: string)
    requires forall i :: 0 <= i < |z| ==> IsDigit(z[i])
    ensures RadixValue(z, 10) == Value(z)
  {
    if z != [] {
      DecimalRadixValue(z[..|z| - 1]);
    }
  }

  /** A plain digit string is its own longest digit run, read in base 10. */
  lemma DigitsReadWhole(s: string)
    requires IsDigits(s)
    ensures ReadUnsigned(s) == Some(RadixValue(s, 10))
  {
    assert !HasHexPrefix(s);
    assert s[..DigitRun(s, 10)] == s;
  }

  /** A plain digit string is read whole, with its decimal value. */
  lemma DigitsReadAsDecimal(s: string)
    requires IsDigits(s)
    ensures ReadUnsigned(s) == Some(Value(s))
  {
    DigitsReadWhole(s);
    DecimalRadixValue(s);
  }

  /** A plain digit string has no white space to skip. */
  lemma DigitsTrimmed(s: string)
    requires IsDigits(s)
    ensures TrimStart(s) == s
  {
    assert IsDigit(s[0]);
  }

  /** Text without a sign is read unsigned. */
  lemma UnsignedRead(t: string, v: nat)
    requires t == [] || (t[0] != '-' && t[0] != '+')
    requires ReadUnsigned(t) == Some(v)
    ensures ParseTrimmed(t) == Some(v)
  {
    assert AfterSign(t) == t && !IsNegative(t);
  }

  /** A plain digit string has no white space or sign to skip, and parses to its decimal value. */
  lemma DigitsParseAsDecimal(s: string)
    requires IsDigits(s)
    ensures TrimStart(s) == s
    ensures ParseTrimmed(s) == Some(Value(s))
  {
    DigitsTrimmed(s);
    DigitsReadAsDecimal(s);
    assert IsDigit(s[0]);
    UnsignedRead(s, Value(s));
  }

  /** The sign is applied to whatever the unsigned reading gives. */
  lemma SignApplies(t: string, v: nat)
    requires ReadUnsigned(AfterSign(t)) == Some(v)
    ensures ParseTrimmed(t) == Some(if IsNegative(t) then -(v as int) else v)
  {
  }

  /** A sign is not white space; it is skipped, and only `-` negates. */
  lemma SignThenText(c: char, s: string)
    requires c == '-' || c == '+'
    ensures TrimStart([c] + s) == [c] + s
    ensures AfterSign([c] + s) == s
    ensures IsNegative([c] + s) <==> c == '-'
  {
    assert ([c] + s)[1..] == s;
  }

  /** A sign in front of text applies to the unsigned reading of the text. */
  lemma SignedRead(c: char, s: string, v: nat)
    requires c == '-' || c == '+'
    requires ReadUnsigned(s) == Some(v)
    ensures ParseInt([c] + s) == Some(if c == '-' then -(v as int) else v)
  {
    SignThenText(c, s);
    SignApplies([c] + s, v);
  }

  /** A sign in front of a digit string is applied to its decimal value. */
  lemma SignedDigits(c: char, s: string)
    requires c == '-' || c == '+'
    requires IsDigits(s)
    ensures ParseInt([c] + s) == Some(if c == '-' then -(Value(s) as int) else Value(s))
  {
    DigitsReadAsDecimal(s);
    SignedRead(c, s, Value(s));
  }

  /** `parseInt` reads a digit string with either sign as its decimal value. */
  lemma ParseIntDigits(s: string)
    requires IsDigits(s)
    ensures ParseInt(s) == Some(Value(s))
    ensures ParseInt("-" + s) == Some(-(Value(s) as int))
    ensures ParseInt("+" + s) == Some(Value(s))
  {
    DigitsParseAsDecimal(s);
    SignedDigits('-', s);
    SignedDigits('+', s);
  }

  /** Leading white space never changes the result. */
  lemma ParseIntSkipsWhitespace(w: string, s: string)
    requires forall i :: 0 <= i < |w| ==> IsJsWhitespace(w[i])
    ensures ParseInt(w + s) == ParseInt(s)
  {
    if w == [] {
      assert w + s == s;
    } else {
      TrimStartSkips(w, s);
    }
  }

  /** `TrimStart` removes a whitespace prefix entirely. */
  lemma {:induction false} TrimStartSkips(w: string, s: string)
    requires forall i :: 0 <= i < |w| ==> IsJsWhitespace(w[i])
    ensures TrimStart(w + s) == TrimStart(s)
  {
    if w != [] {
      assert (w + s)[1..] == w[1..] + s;
      TrimStartSkips(w[1..], s);
    } else {
      assert w + s == s;
    }
  }

  /** `parseInt` stops at the first character that is not a digit. */
  lemma ParseIntStopsAtPoint()
    ensures ParseInt("1.9") == Some(1)
  {
    var s := "1.9";
    assert TrimStart(s) == s;
    assert AfterSign(s) == s;
    assert !HasHexPrefix(s);
    assert DigitRun(s, 10) == 1 by { assert DigitRun(s[1..], 10) == 0; }
    assert s[..1] == "1";
    assert RadixValue("1", 10) == 1;
    SignApplies(s, 1);
  }

  /** After a `0x` prefix the digits are read in base 16. */
  lemma ParseIntReadsHex()
    ensures ParseInt("0x1") == Some(1)
  {
    var s := "0x1";
    assert TrimStart(s) == s;
    assert AfterSign(s) == s;
    assert HasHexPrefix(s);
    assert s[2..] == "1";
    assert DigitRun("1", 16) == 1;
    assert "1"[..1] == "1";
    assert RadixValue("1", 16) == 1;
    SignApplies(s, 1);
  }

  /** Text that starts with a letter is `NaN`. */
  lemma ParseIntOfWordIsNaN()
    ensures ParseInt("abc") == None
  {
    var s := "abc";
    assert TrimStart(s) == s;
    assert AfterSign(s) == s;
    assert DigitRun(s, 10) == 0;
  }

  // ---------------------------------------------------------------------
  // GET /match/:playlist/:gender
  // ---------------------------------------------------------------------

  /**
   The `voterFbId` query parameter: kept when it is a non-empty string of
   ASCII digits, `-1` (anonymous) when it is missing or anything else.
   */
  function NormalizeVoter(query: Option<string>): (v: VoterId)
    ensures v.FbId? <==> query.Some? && IsDigits(query.value)
    ensures v.FbId? ==> v.digits == query.value
  {
    match query
    case None => Anonymous
    case Some(s) => if IsDigits(s) then FbId(s) else Anonymous
  }

  /** The JSON a match request answers with. */
  datatype MatchJson = OfferJson(offer: MatchOffer) | StartFailedJson

  /** The callback of the match route: `null` becomes `{ error: "Failed to start match" }`. */
  function MatchReply(data: Option<MatchOffer>): (j: MatchJson)
    ensures j == StartFailedJson <==> data.None?
    ensures data.Some? ==> j == OfferJson(data.value)
  {
    match data
    case None => StartFailedJson
    case Some(offer) => OfferJson(offer)
  }

  /** The whole match route: the voter is normalised, a match generated, and its callback answered. */
  function MatchRoute(rt: Runtime, playlist: string, gender: string, voterQuery: Option<string>,
                      r0: int, r1: int, answer: StoreAnswer, now: int, uuid: Uuid): (r: (Generated, MatchJson))
    requires Valid(rt)
    requires DrawsFit(rt, playlist, gender, r0, r1)
    ensures r.0 == GenerateMatch(rt, playlist, gender, NormalizeVoter(voterQuery), r0, r1, answer, now, uuid)
    ensures r.1.OfferJson? <==> r.0.reply.Some?
    ensures r.1.OfferJson? ==> r.1.offer.matchUuid == uuid
  {
    var g := GenerateMatch(rt, playlist, gender, NormalizeVoter(voterQuery), r0, r1, answer, now, uuid);
    (g, MatchReply(g.reply))
  }

  /** A match with a non-digit voter id is recorded as anonymous. */
  lemma NonDigitVoterIsAnonymous(rt: Runtime, playlist: string, gender: string, voterQuery: string,
                                 r0: int, r1: int, answer: StoreAnswer, now: int, uuid: Uuid)
    requires Valid(rt)
    requires DrawsFit(rt, playlist, gender, r0, r1)
    requires !IsDigits(voterQuery)
    requires MatchRoute(rt, playlist, gender, Some(voterQuery), r0, r1, answer, now, uuid).1.OfferJson?
    ensures var g := MatchRoute(rt, playlist, gender, Some(voterQuery), r0, r1, answer, now, uuid).0;
            var i := GetPlaylist(rt, playlist, gender).value;
            g.runtime.playlists[i].ActiveSession()[uuid].voter == Anonymous
  {
  }

  // ---------------------------------------------------------------------
  // POST /vote
  // ---------------------------------------------------------------------

  /** The body fields `/vote` reads; `None` is a field that is absent. */
  datatype VotePost = VotePost(playlistCategory: Option<string>, gender: Option<string>,
                               matchUuid: Option<string>, result: Option<string>)

  datatype VoteJson = VoteSuccessJson | VoteFailedJson

  /** What a vote request did: the registry afterwards, the answer, and the `finishMatch` call if one was made. */
  datatype Voted = Voted(runtime: Runtime, reply: VoteJson, finish: Option<Finished>)

  /** All four fields are present. */
  predicate Complete(post: VotePost)
  {
    post.playlistCategory.Some? && post.gender.Some? && post.matchUuid.Some? && post.result.Some?
  }

  /**
   `POST /vote`: `finishMatch` is called only when all four fields are
   present and `result` parses to a number; the answer is success iff it
   returns true.
   */
  function Vote(rt: Runtime, post: VotePost, d: EloFormula, connected: bool): (v: Voted)
    requires Valid(rt)
    ensures Valid(v.runtime)
    ensures v.finish.Some? <==> Complete(post) && ParseInt(post.result.value).Some?
    ensures v.reply == VoteSuccessJson <==> v.finish.Some? && v.finish.value.returned
    ensures v.finish.None? ==> v.runtime == rt
    ensures v.finish.Some? ==>
              && v.finish.value == Registry.FinishMatch(rt, post.playlistCategory.value, post.gender.value,
                                               post.matchUuid.value, ParseInt(post.result.value).value, d, connected)
              && v.runtime == v.finish.value.runtime
  {
    if !Complete(post) then Voted(rt, VoteFailedJson, None)
    else
      match ParseInt(post.result.value)
      case None => Voted(rt, VoteFailedJson, None)
      case Some(result) =>
        var f := Registry.FinishMatch(rt, post.playlistCategory.value, post.gender.value, post.matchUuid.value, result, d, connected);
        Voted(f.runtime, if f.returned then VoteSuccessJson else VoteFailedJson, Some(f))
  }

  /** A complete post whose result parses is handed to `finishMatch`. */
  lemma VoteCalls(rt: Runtime, post: VotePost, result: int, d: EloFormula, connected: bool)
    requires Valid(rt) && Complete(post) && ParseInt(post.result.value) == Some(result)
    ensures var f := Registry.FinishMatch(rt, post.playlistCategory.value, post.gender.value, post.matchUuid.value,
                                          result, d, connected);
            Vote(rt, post, d, connected) == Voted(f.runtime, if f.returned then VoteSuccessJson else VoteFailedJson, Some(f))
  {
  }

  /** The skip code `"2"` parses to `2`. */
  lemma ParseTwo()
    ensures ParseInt("2") == Some(2)
  {
    assert IsDigits("2");
    ParseIntDigits("2");
    assert "2"[..0] == [];
  }

  /** `finishMatch` with a result that is neither `0` nor `1`, on a live match. */
  lemma SkipFinish(rt: Runtime, category: string, gender: string, uuid: string, result: int, d: EloFormula,
                   connected: bool)
    requires Valid(rt) && !IsDecisive(result)
    requires GetPlaylist(rt, category, gender).Some?
    requires uuid in rt.playlists[GetPlaylist(rt, category, gender).value].Live()
    ensures var f := Registry.FinishMatch(rt, category, gender, uuid, result, d, connected);
            && f.returned && f.shifts == [] && f.vote.Some? && f.vote.value.winnerId == -1
            && uuid !in f.runtime.playlists[GetPlaylist(rt, category, gender).value].Live()
  {
  }

  /**
   A vote whose result is a skip code (any number but 0 and 1) still
   consumes a live match and is logged with no winner, but shifts no rating.
   */
  lemma SkipVoteConsumesMatch(rt: Runtime, category: string, gender: string, uuid: string, d: EloFormula,
                              connected: bool)
    requires Valid(rt)
    requires GetPlaylist(rt, category, gender).Some?
    requires uuid in rt.playlists[GetPlaylist(rt, category, gender).value].Live()
    ensures var v := Vote(rt, VotePost(Some(category), Some(gender), Some(uuid), Some("2")), d, connected);
            && v.reply == VoteSuccessJson
            && v.finish.value.shifts == []
            && v.finish.value.vote.value.winnerId == -1
            && uuid !in v.runtime.playlists[GetPlaylist(rt, category, gender).value].Live()
  {
    ParseTwo();
    SkipFinish(rt, category, gender, uuid, 2, d, connected);
    var f := Registry.FinishMatch(rt, category, gender, uuid, 2, d, connected);
    VoteCalls(rt, VotePost(Some(category), Some(gender), Some(uuid), Some("2")), 2, d, connected);
    assert f.returned;
  }

  /** A result that is not a number is refused before the match is looked at. */
  lemma NaNResultChangesNothing(rt: Runtime, category: string, gender: string, uuid: string, result: string,
                                d: EloFormula, connected: bool)
    requires Valid(rt)
    requires ParseInt(result).None?
    ensures Vote(rt, VotePost(Some(category), Some(gender), Some(uuid), Some(result)), d, connected)
            == Voted(rt, VoteFailedJson, None)
  {
  }

  // ---------------------------------------------------------------------
  // GET /profile/:playlist/:gender/:fbId
  // ---------------------------------------------------------------------

  /** The profile route either looks the id up or answers `{ status: "Invalid id" }`. */
  datatype ProfileRequest = LookUpProfile(fbId: string) | InvalidIdJson

  /** Only a digits-only `fbId` reaches the store, which keeps it out of query text. */
  function ProfileRoute(fbId: string): (r: ProfileRequest)
    ensures r.LookUpProfile? <==> IsDigits(fbId)
    ensures r.LookUpProfile? ==> r.fbId == fbId
    ensures r.LookUpProfile? ==> forall i :: 0 <= i < |r.fbId| ==> '0' <= r.fbId[i] <= '9'
  {
    if IsDigits(fbId) then LookUpProfile(fbId) else InvalidIdJson
  }
}

=== FILE: sessions.dfy ===
/**
 The `Playlist` of api/handlers/playlist.js: a cohort of profiles together
 with its two-generation store of outstanding matches.

 Two buckets map match UUIDs to matches. New matches go into the active
 bucket; the other bucket still answers `finishMatch`. Rotation is lazy: a
 `genMatch` call that finds `now - lastSessionChange >= decayTime` flips
 the active index, records `now` and empties the newly active bucket, so a
 match lives through one rotation and is gone after the second.

 `Date.now()` and `uuidV4()` are parameters (`now`, `uuid`).
 */
module Sessions {
  import opened Common
  import opened Outcome

  type Uuid = string
  type Bucket = map<Uuid, Match>

  /** An index into the pair of buckets: `activeSessionIndex` is always 0 or 1. */
  type Bit = b: int | 0 <= b <= 1

  datatype Playlist = Playlist(
    category: string,
    gender: string,
    id: int,
    decayTime: int,
    active: bool,
    predefined: bool,
    key: string,
    lastSessionChange: int,
    session0: Bucket,
    session1: Bucket,
    activeSessionIndex: Bit,
    profileCount: int)
  {
    /** `this.sessions[i]`. */
    function Session(i: Bit): Bucket
    {
      if i == 0 then session0 else session1
    }

    /** `this.sessions[this.activeSessionIndex]`. */
    function ActiveSession(): Bucket
    {
      Session(activeSessionIndex)
    }

    /** `this.sessions[this.activeSessionIndex ^ 1]`. */
    function PreviousSession(): Bucket
    {
      Session(1 - activeSessionIndex)
    }

    /** `this.sessions[i] = b`. */
    function WithSession(i: Bit, b: Bucket): (p: Playlist)
      ensures p.Session(i) == b && p.Session(1 - i) == Session(1 - i)
      ensures p.activeSessionIndex == activeSessionIndex
    {
      if i == 0 then this.(session0 := b) else this.(session1 := b)
    }

    /** Every UUID that `finishMatch` can still resolve. */
    function Live(): set<Uuid>
    {
      session0.Keys + session1.Keys
    }
  }

  /** True when two playlists differ at most in their two buckets and the active index. */
  predicate SameExceptSessions(p: Playlist, q: Playlist)
  {
    && p.category == q.category && p.gender == q.gender && p.id == q.id
    && p.decayTime == q.decayTime && p.active == q.active && p.predefined == q.predefined
    && p.key == q.key && p.profileCount == q.profileCount
  }

  /** No UUID is held by both buckets at once. */
  predicate Disjoint(p: Playlist)
  {
    p.session0.Keys !! p.session1.Keys
  }

  /** The `Playlist` constructor; `now` is the clock reading it takes. */
  function NewPlaylist(category: string, gender: string, id: int, decayTime: int,
                       active: bool, predefined: bool, now: int): (p: Playlist)
    ensures p.key == category + "-" + gender
    ensures p.category == category && p.gender == gender && p.id == id
    ensures p.decayTime == decayTime && p.active == active && p.predefined == predefined
    ensures p.session0 == map[] && p.session1 == map[] && p.Live() == {}
    ensures p.activeSessionIndex == 0 && p.profileCount == 0
    ensures p.lastSessionChange == now
    ensures Disjoint(p)
  {
    Playlist(category, gender, id, decayTime, active, predefined,
             category + "-" + gender, now, map[], map[], 0, 0)
  }

  /** True when a `genMatch` call at time `now` rotates the buckets first. */
  predicate RotationDue(p: Playlist, now: int)
  {
    now - p.lastSessionChange >= p.decayTime
  }

  /** The rotation step at the start of `genMatch`. */
  function Rotate(p: Playlist, now: int): (q: Playlist)
    ensures SameExceptSessions(p, q)
    ensures RotationDue(p, now) ==>
              && q.activeSessionIndex == 1 - p.activeSessionIndex
              && q.lastSessionChange == now
              && q.ActiveSession() == map[]
              && q.PreviousSession() == p.ActiveSession()
    ensures !RotationDue(p, now) ==> q == p
  {
    if now - p.lastSessionChange >= p.decayTime then
      var flipped := p.(activeSessionIndex := 1 - p.activeSessionIndex, lastSessionChange := now);
      flipped.WithSession(flipped.activeSessionIndex, map[])
    else p
  }

  /**
   `genMatch`: rotate if due, then store a new match under `uuid` in the
   active bucket. Returns the updated playlist and the UUID.
   */
  function GenMatch(p: Playlist, profile0: Profile, profile1: Profile, voter: VoterId,
                    now: int, uuid: Uuid): (r: (Playlist, Uuid))
    ensures r.1 == uuid
    ensures SameExceptSessions(p, r.0)
    ensures r.0.ActiveSession() == Rotate(p, now).ActiveSession()[uuid := NewMatch(profile0, profile1, voter)]
    ensures r.0.PreviousSession() == Rotate(p, now).PreviousSession()
    ensures r.0.activeSessionIndex == Rotate(p, now).activeSessionIndex
    ensures r.0.lastSessionChange == Rotate(p, now).lastSessionChange
    ensures Disjoint(p) && uuid !in p.Live() ==> Disjoint(r.0)
  {
    var q := Rotate(p, now);
    var m := NewMatch(profile0, profile1, voter);
    (q.WithSession(q.activeSessionIndex, q.ActiveSession()[uuid := m]), uuid)
  }

  /** `hasMatch`: looks in the active bucket, then in the previous one. */
  function HasMatch(p: Playlist, uuid: Uuid): (r: bool)
    ensures r <==> uuid in p.session0 || uuid in p.session1
    ensures r <==> uuid in p.Live()
  {
    if uuid in p.ActiveSession() then true
    else uuid in p.PreviousSession()
  }

  /**
   `finishMatch`: takes the match out of the active bucket if it is there,
   otherwise out of the previous bucket; `None` (the source's `null`) when
   neither bucket holds it.
   */
  function FinishMatch(p: Playlist, uuid: Uuid): (r: (Playlist, Option<Match>))
    ensures SameExceptSessions(p, r.0)
    ensures r.0.activeSessionIndex == p.activeSessionIndex
    ensures r.0.lastSessionChange == p.lastSessionChange
    ensures uuid in p.ActiveSession() ==>
              && r.1 == Some(p.ActiveSession()[uuid])
              && r.0.ActiveSession() == p.ActiveSession() - {uuid}
              && r.0.PreviousSession() == p.PreviousSession()
    ensures uuid !in p.ActiveSession() && uuid in p.PreviousSession() ==>
              && r.1 == Some(p.PreviousSession()[uuid])
              && r.0.PreviousSession() == p.PreviousSession() - {uuid}
              && r.0.ActiveSession() == p.ActiveSession()
    ensures r.1 == None <==> uuid !in p.Live()
    ensures r.1 == None ==> r.0 == p
    ensures Disjoint(p) ==> Disjoint(r.0) && r.0.Live() == p.Live() - {uuid}
  {
    var i := if uuid in p.ActiveSession() then p.activeSessionIndex else 1 - p.activeSessionIndex;
    if uuid !in p.Session(i) then (p, None)
    else
      var m := p.Session(i)[uuid];
      (p.WithSession(i, p.Session(i) - {uuid}), Some(m))
  }

  /** `setProfileCount`: overwrites the count. */
  function SetProfileCount(p: Playlist, count: int): (q: Playlist)
    ensures q.profileCount == count
    ensures q.Live() == p.Live() && q.activeSessionIndex == p.activeSessionIndex
    ensures q.(profileCount := p.profileCount) == p
  {
    p.(profileCount := count)
  }

  /** `shiftProfileCount`: moves the count by exactly `shiftBy`; nothing keeps it non-negative. */
  function ShiftProfileCount(p: Playlist, shiftBy: int): (q: Playlist)
    ensures q.profileCount - p.profileCount == shiftBy
    ensures q.(profileCount := p.profileCount) == p
  {
    p.(profileCount := p.profileCount + shiftBy)
  }

  // ---------------------------------------------------------------------
  // Properties relating several operations
  // ---------------------------------------------------------------------

  /** A match is findable right after `genMatch` stores it, and `finishMatch` returns it. */
  lemma GenThenFinish(p: Playlist, profile0: Profile, profile1: Profile, voter: VoterId, now: int, uuid: Uuid)
    ensures var q := GenMatch(p, profile0, profile1, voter, now, uuid).0;
            && HasMatch(q, uuid)
            && FinishMatch(q, uuid).1 == Some(NewMatch(profile0, profile1, voter))
  {
  }

  /** The live set after `genMatch`: the new UUID, plus what survived the rotation (if any). */
  lemma GenMatchLive(p: Playlist, profile0: Profile, profile1: Profile, voter: VoterId, now: int, uuid: Uuid)
    ensures var q := GenMatch(p, profile0, profile1, voter, now, uuid).0;
            && (RotationDue(p, now) ==> q.Live() == p.ActiveSession().Keys + {uuid})
            && (!RotationDue(p, now) ==> q.Live() == p.Live() + {uuid})
  {
    var r := Rotate(p, now);
    if RotationDue(p, now) {
      assert r.Live() == r.ActiveSession().Keys + r.PreviousSession().Keys;
    } else {
      assert p.Live() == p.ActiveSession().Keys + p.PreviousSession().Keys;
    }
  }

  /** Resolving the same UUID twice: the second attempt finds nothing and changes nothing. */
  lemma FinishTwice(p: Playlist, uuid: Uuid)
    requires Disjoint(p)
    ensures var q := FinishMatch(p, uuid).0;
            FinishMatch(q, uuid) == (q, None)
  {
  }

  /**
   Exactly-once resolution of a generated match: after `genMatch` stores
   `uuid`, the first `finishMatch` returns the match and the second returns
   `None`. The UUID is fresh, as `uuidV4` makes it.
   */
  lemma ExactlyOnce(p: Playlist, profile0: Profile, profile1: Profile, voter: VoterId, now: int, uuid: Uuid)
    requires Disjoint(p) && uuid !in p.Live()
    ensures var q := GenMatch(p, profile0, profile1, voter, now, uuid).0;
            var (q', first) := FinishMatch(q, uuid);
            && first == Some(NewMatch(profile0, profile1, voter))
            && FinishMatch(q', uuid).1 == None
  {
    GenThenFinish(p, profile0, profile1, voter, now, uuid);
    FinishTwice(GenMatch(p, profile0, profile1, voter, now, uuid).0, uuid);
  }

  /**
   Decay: a match stored by `genMatch` survives the next rotation (another
   `genMatch` whose clock reading makes rotation due) and is gone after the
   one after that. The later UUIDs are fresh, as `uuidV4` makes them.
   */
  lemma SurvivesOneRotationNotTwo(p: Playlist, a0: Profile, a1: Profile, voter: VoterId, uuid: Uuid, t1: int,
                                  b0: Profile, b1: Profile, uuid2: Uuid, t2: int,
                                  c0: Profile, c1: Profile, uuid3: Uuid, t3: int)
    requires uuid2 != uuid && uuid3 != uuid
    requires var q1 := GenMatch(p, a0, a1, voter, t1, uuid).0;
             RotationDue(q1, t2)
    requires var q1 := GenMatch(p, a0, a1, voter, t1, uuid).0;
             var q2 := GenMatch(q1, b0, b1, voter, t2, uuid2).0;
             RotationDue(q2, t3)
    ensures var q1 := GenMatch(p, a0, a1, voter, t1, uuid).0;
            var q2 := GenMatch(q1, b0, b1, voter, t2, uuid2).0;
            var q3 := GenMatch(q2, c0, c1, voter, t3, uuid3).0;
            && HasMatch(q2, uuid)
            && FinishMatch(q2, uuid).1 == Some(NewMatch(a0, a1, voter))
            && !HasMatch(q3, uuid)
            && FinishMatch(q3, uuid).1 == None
  {
    var q1 := GenMatch(p, a0, a1, voter, t1, uuid).0;
    var q2 := GenMatch(q1, b0, b1, voter, t2, uuid2).0;
    var q3 := GenMatch(q2, c0, c1, voter, t3, uuid3).0;
    assert uuid in q1.ActiveSession();
    assert q2.PreviousSession() == q1.ActiveSession();
    assert uuid !in q2.ActiveSession();
    assert q3.PreviousSession() == q2.ActiveSession();
    assert uuid !in q3.ActiveSession();
  }

  /** Without rotation, `genMatch` keeps every match that was live. */
  lemma NoRotationKeepsMatches(p: Playlist, profile0: Profile, profile1: Profile, voter: VoterId,
                               now: int, uuid: Uuid, other: Uuid)
    requires !RotationDue(p, now)
    requires other != uuid
    ensures var q := GenMatch(p, profile0, profile1, voter, now, uuid).0;
            FinishMatch(q, other).1 == FinishMatch(p, other).1
  {
  }

  /** `shiftProfileCount` has no lower bound: a count of 0 shifted by -1 becomes -1. */
  lemma ShiftCanGoNegative(p: Playlist)
    requires p.profileCount == 0
    ensures ShiftProfileCount(p, -1).profileCount < 0
  {
  }

  /** `setProfileCount` overwrites whatever shifts came before it. */
  lemma SetOverridesShift(p: Playlist, shiftBy: int, count: int)
    ensures SetProfileCount(ShiftProfileCount(p, shiftBy), count) == SetProfileCount(p, count)
  {
  }
}

=== FILE: store.dfy ===
/**
 The control decisions at the storage boundary: how the database wrapper
 (api/utilities/databasewrapper.js) routes a call to the predefined or the
 dynamic tables, and how api/handlers/databasemysql.js sequences its
 queries. The queries themselves are abstract: each is named by a
 `Query` value, and the database's answers are oracle inputs.
 */
module Store {
  import opened Common
  import opened Outcome
  import opened Sessions

  /** Which family of tables a call goes to: predefined playlists or user playlists. */
  datatype Variant = Static | Dynamic

  /** `playlist.isPredefined()` decides the variant of every dispatching helper. */
  function VariantOf(p: Playlist): (v: Variant)
    ensures v == Static <==> p.predefined
  {
    if p.predefined then Static else Dynamic
  }

  /** A call the wrapper forwards, with the variant it chose. */
  datatype StoreCall =
    | CountProfiles(variant: Variant, playlistId: int)
    | GetParticipants(variant: Variant, playlistId: int, ranks: seq<int>)
    | ShiftProfileStats(variant: Variant, playlistId: int, profileId: int, deltaElo: int, clause: StatClause)
    | GetLeaderboard(variant: Variant, playlistId: int, count: int)
    | UpdateRanks(variant: Variant, playlistId: int)

  /** `countProfilesInPlaylist`. */
  function CountProfilesCall(p: Playlist): (c: StoreCall)
    ensures c.CountProfiles? && c.playlistId == p.id
    ensures c.variant == Static <==> p.predefined
  {
    CountProfiles(VariantOf(p), p.id)
  }

  /** `getParticipants(playlist, callback, ...ranks)`. */
  function GetParticipantsCall(p: Playlist, ranks: seq<int>): (c: StoreCall)
    ensures c.GetParticipants? && c.playlistId == p.id && c.ranks == ranks
    ensures c.variant == Static <==> p.predefined
  {
    GetParticipants(VariantOf(p), p.id, ranks)
  }

  /**
   `shiftProfileStats`: the variant follows the playlist, and the
   statistic clause follows `statIdentifier` (0 a loss, 1 a win, else
   rating only).
   */
  function ShiftProfileStatsCall(p: Playlist, profileId: int, deltaElo: int, statIdentifier: int): (c: StoreCall)
    ensures c.ShiftProfileStats? && c.playlistId == p.id && c.profileId == profileId && c.deltaElo == deltaElo
    ensures c.variant == Static <==> p.predefined
    ensures c.clause == AddWin <==> statIdentifier == 1
    ensures c.clause == AddLoss <==> statIdentifier == 0
  {
    ShiftProfileStats(VariantOf(p), p.id, profileId, deltaElo, StatClauseFor(statIdentifier))
  }

  /** `getPlaylistLeaderboard`. */
  function GetLeaderboardCall(p: Playlist, count: int): (c: StoreCall)
    ensures c.GetLeaderboard? && c.playlistId == p.id && c.count == count
    ensures c.variant == Static <==> p.predefined
  {
    GetLeaderboard(VariantOf(p), p.id, count)
  }

  // ---------------------------------------------------------------------
  // updatePlaylistsRanks
  // ---------------------------------------------------------------------

  predicate IsPredefined(p: Playlist)
  {
    p.predefined
  }

  predicate IsDynamic(p: Playlist)
  {
    !p.predefined
  }

  /** The split of `updatePlaylistsRanks`: predefined playlists first list, the others second. */
  function Partition(ps: seq<Playlist>): (r: (seq<Playlist>, seq<Playlist>))
  {
    (Filter(IsPredefined, ps), Filter(IsDynamic, ps))
  }

  /** Each playlist lands in exactly one of the two lists, kept in order of appearance. */
  lemma {:induction false} PartitionIsSplit(ps: seq<Playlist>)
    ensures multiset(Partition(ps).0) + multiset(Partition(ps).1) == multiset(ps)
    ensures forall p :: p in Partition(ps).0 ==> p.predefined
    ensures forall p :: p in Partition(ps).1 ==> !p.predefined
    ensures |Partition(ps).0| + |Partition(ps).1| == |ps|
  {
    if ps != [] {
      PartitionIsSplit(ps[1..]);
      assert ps == [ps[0]] + ps[1..];
      assert multiset(ps) == multiset([ps[0]]) + multiset(ps[1..]);
    }
  }

  /** One more playlist extends exactly one of the two lists. */
  lemma PartitionStep(ps: seq<Playlist>, i: nat)
    requires i < |ps|
    ensures Filter(IsPredefined, ps[..i + 1]) == Filter(IsPredefined, ps[..i]) + (if ps[i].predefined then [ps[i]] else [])
    ensures Filter(IsDynamic, ps[..i + 1]) == Filter(IsDynamic, ps[..i]) + (if ps[i].predefined then [] else [ps[i]])
  {
    assert ps[..i + 1] == ps[..i] + [ps[i]];
    FilterSnoc(IsPredefined, ps[..i], ps[i]);
    FilterSnoc(IsDynamic, ps[..i], ps[i]);
  }

  /** The `for ... of` loop of `updatePlaylistsRanks` that builds the two lists. */
  method PartitionLoop(ps: seq<Playlist>) returns (staticPlaylists: seq<Playlist>, dynamicPlaylists: seq<Playlist>)
    ensures staticPlaylists == Filter(IsPredefined, ps)
    ensures dynamicPlaylists == Filter(IsDynamic, ps)
  {
    staticPlaylists := [];
    dynamicPlaylists := [];
    var i := 0;
    while i < |ps|
      invariant 0 <= i <= |ps|
      invariant staticPlaylists == Filter(IsPredefined, ps[..i])
      invariant dynamicPlaylists == Filter(IsDynamic, ps[..i])
    {
      PartitionStep(ps, i);
      staticPlaylists := staticPlaylists + (if ps[i].predefined then [ps[i]] else []);
      dynamicPlaylists := dynamicPlaylists + (if ps[i].predefined then [] else [ps[i]]);
      i := i + 1;
    }
    assert ps[..i] == ps;
  }

  /** What a sequential rank update did: how many queries it sent, and its status. */
  datatype RankRun = RankRun(sent: nat, ok: bool)

  /** True when every playlist's rank query is answered with success. */
  predicate AllRanked(v: Variant, ps: seq<Playlist>, rankOk: (Variant, int) -> bool)
  {
    forall i :: 0 <= i < |ps| ==> rankOk(v, ps[i].id)
  }

  /** `AllRanked` of a non-empty list splits into its head and its tail. */
  lemma AllRankedCons(v: Variant, ps: seq<Playlist>, rankOk: (Variant, int) -> bool, k: nat)
    requires ps != [] && k < |ps|
    ensures AllRanked(v, ps, rankOk) <==> rankOk(v, ps[0].id) && AllRanked(v, ps[1..], rankOk)
    ensures AllRanked(v, ps[..k + 1], rankOk) <==> rankOk(v, ps[0].id) && AllRanked(v, ps[1..][..k], rankOk)
  {
    assert forall i :: 1 <= i < |ps| ==> ps[i] == ps[1..][i - 1];
    assert ps[..k + 1] == [ps[0]] + ps[1..][..k];
  }

  /**
   databasemysql.js `updatePlaylistsRanks`: one query per playlist, in
   order, stopping at the first error; success only after all succeed.
   `rankOk(v, id)` is the database's answer for playlist `id`.
   */
  function UpdateRanksSequential(v: Variant, ps: seq<Playlist>, rankOk: (Variant, int) -> bool): (r: RankRun)
    ensures r.ok <==> AllRanked(v, ps, rankOk)
    ensures r.sent <= |ps|
    ensures r.ok ==> r.sent == |ps|
    ensures !r.ok ==> 1 <= r.sent && !rankOk(v, ps[r.sent - 1].id) && AllRanked(v, ps[..r.sent - 1], rankOk)
    decreases |ps|
  {
    if ps == [] then RankRun(0, true)
    else if !rankOk(v, ps[0].id) then RankRun(1, false)
    else
      var rest := UpdateRanksSequential(v, ps[1..], rankOk);
      AllRankedCons(v, ps, rankOk, if rest.ok then 0 else rest.sent - 1);
      RankRun(rest.sent + 1, rest.ok)
  }

  /** The combined answer of `updatePlaylistsRanks`; `None` when the callback is never invoked. */
  datatype RanksOutcome = RanksOutcome(calls: seq<StoreCall>, status: Option<bool>)

  /** The update calls for the first `sent` playlists of `ps`. */
  function RankCalls(v: Variant, ps: seq<Playlist>, sent: nat): (cs: seq<StoreCall>)
    requires sent <= |ps|
    ensures |cs| == sent
    ensures forall i :: 0 <= i < sent ==> cs[i] == UpdateRanks(v, ps[i].id)
  {
    if sent == 0 then [] else RankCalls(v, ps, sent - 1) + [UpdateRanks(v, ps[sent - 1].id)]
  }

  /**
   databasewrapper.js `updatePlaylistsRanks`: the predefined playlists are
   re-ranked first, then the dynamic ones (even after a failed static
   update), and the combined status `status1 ? status2 : status1` is
   success iff both succeed. With no playlists at all the callback is
   never invoked.
   */
  /**
   `calls` issues the rank updates of the first `n1` static playlists, in
   order, and then those of the first `n2` dynamic playlists, in order.
   */
  predicate CallsInOrder(calls: seq<StoreCall>, st: seq<Playlist>, n1: nat, dy: seq<Playlist>, n2: nat)
    requires n1 <= |st| && n2 <= |dy|
  {
    && |calls| == n1 + n2
    && (forall i :: 0 <= i < n1 ==> calls[i] == UpdateRanks(Static, st[i].id))
    && (forall i :: 0 <= i < n2 ==> calls[n1 + i] == UpdateRanks(Dynamic, dy[i].id))
  }

  lemma JoinedCallsInOrder(st: seq<Playlist>, n1: nat, dy: seq<Playlist>, n2: nat)
    requires n1 <= |st| && n2 <= |dy|
    ensures CallsInOrder(RankCalls(Static, st, n1) + RankCalls(Dynamic, dy, n2), st, n1, dy, n2)
  {
    var a, b := RankCalls(Static, st, n1), RankCalls(Dynamic, dy, n2);
    assert forall i :: 0 <= i < n2 ==> (a + b)[n1 + i] == b[i];
  }

  function UpdatePlaylistsRanks(ps: seq<Playlist>, rankOk: (Variant, int) -> bool): (o: RanksOutcome)
    ensures ps == [] <==> o.status == None
    ensures o.status == Some(true) <==>
              ps != [] && AllRanked(Static, Partition(ps).0, rankOk) && AllRanked(Dynamic, Partition(ps).1, rankOk)
    ensures Partition(ps).1 == [] ==> o.status == (if ps == [] then None else Some(AllRanked(Static, Partition(ps).0, rankOk)))
    ensures Partition(ps).0 == [] ==> o.status == (if ps == [] then None else Some(AllRanked(Dynamic, Partition(ps).1, rankOk)))
    ensures |o.calls| <= |ps|
  {
    PartitionIsSplit(ps);
    var (st, dy) := Partition(ps);
    var s1 := UpdateRanksSequential(Static, st, rankOk);
    var s2 := UpdateRanksSequential(Dynamic, dy, rankOk);
    // An empty kind sends nothing, so both kinds' calls can always be joined.
    var calls := RankCalls(Static, st, s1.sent) + RankCalls(Dynamic, dy, s2.sent);
    if |st| > 0 then
      if |dy| > 0 then RanksOutcome(calls, Some(if s1.ok then s2.ok else s1.ok))
      else RanksOutcome(calls, Some(s1.ok))
    else if |dy| > 0 then RanksOutcome(calls, Some(s2.ok))
    else RanksOutcome(calls, None)
  }
  /**
   The updates are issued static first: the static playlists in order up
   to the first failing one, then the dynamic playlists in order up to the
   first failing one.
   */
  lemma StaticRanksFirst(ps: seq<Playlist>, rankOk: (Variant, int) -> bool)
    ensures CallsInOrder(UpdatePlaylistsRanks(ps, rankOk).calls,
                         Partition(ps).0, UpdateRanksSequential(Static, Partition(ps).0, rankOk).sent,
                         Partition(ps).1, UpdateRanksSequential(Dynamic, Partition(ps).1, rankOk).sent)
  {
    var (st, dy) := Partition(ps);
    JoinedCallsInOrder(st, UpdateRanksSequential(Static, st, rankOk).sent, dy, UpdateRanksSequential(Dynamic, dy, rankOk).sent);
  }


  /** The dynamic update runs even after the static update failed. */
  lemma DynamicRunsAfterStaticFailure(ps: seq<Playlist>, rankOk: (Variant, int) -> bool)
    requires Partition(ps).1 != []
    requires Partition(ps).0 != [] && !AllRanked(Static, Partition(ps).0, rankOk)
    ensures UpdateRanks(Dynamic, Partition(ps).1[0].id) in UpdatePlaylistsRanks(ps, rankOk).calls
    ensures UpdatePlaylistsRanks(ps, rankOk).status == Some(false)
  {
    var dy := Partition(ps).1;
    var st := Partition(ps).0;
    var s1 := UpdateRanksSequential(Static, st, rankOk);
    var s2 := UpdateRanksSequential(Dynamic, dy, rankOk);
    var calls := RankCalls(Static, st, s1.sent) + RankCalls(Dynamic, dy, s2.sent);
    assert calls[s1.sent] == UpdateRanks(Dynamic, dy[0].id);
  }

  // ---------------------------------------------------------------------
  // Tasks: performTask, addProfileToPlaylists, removeProfileByUserId
  // ---------------------------------------------------------------------

  /**
   A row of the `tasks` table. `data` is what `JSON.parse` makes of the
   row's data column: the list of playlist ids of an "add" task, or `None`
   when the text does not parse and `JSON.parse` throws.
   */
  datatype Task = Task(id: int, kind: string, userId: int, data: Option<seq<int>>)

  /** The queries a task run can issue. */
  datatype Query =
    | DeleteTask(taskId: int)
    | InsertMemberships(rows: seq<(int, int)>)
    | DeleteMemberships(userId: int)
    | DeleteUser(userId: int)

  /** The database's answers to the (at most three) queries of one task, in order. */
  datatype TaskAnswers = TaskAnswers(deleteTaskOk: bool, firstOk: bool, secondOk: bool)

  /** What a store operation did: its queries in order, and the status its callback got (`None`: never called). */
  datatype Run = Run(queries: seq<Query>, status: Option<bool>)

  /** The `(playlist_id, user_id)` tuples of the membership insert, one per playlist, in order. */
  function MembershipRows(playlistIds: seq<int>, userId: int): (rows: seq<(int, int)>)
    ensures |rows| == |playlistIds|
    ensures forall i :: 0 <= i < |rows| ==> rows[i] == (playlistIds[i], userId)
  {
    if playlistIds == [] then [] else [(playlistIds[0], userId)] + MembershipRows(playlistIds[1..], userId)
  }

  /** `addProfileToPlaylists`: no query for an empty list, else one insert of all tuples. */
  function AddProfileToPlaylists(playlistIds: seq<int>, userId: int, insertOk: bool): (r: Run)
    ensures playlistIds == [] ==> r == Run([], Some(true))
    ensures playlistIds != [] ==> r.queries == [InsertMemberships(MembershipRows(playlistIds, userId))]
    ensures playlistIds != [] ==> r.status == Some(insertOk)
  {
    if |playlistIds| <= 0 then Run([], Some(true))
    else Run([InsertMemberships(MembershipRows(playlistIds, userId))], Some(insertOk))
  }

  /** `removeProfileByUserId`: memberships are deleted before the user row, stopping at the first error. */
  function RemoveProfileByUserId(userId: int, membershipsOk: bool, userOk: bool): (r: Run)
    ensures 1 <= |r.queries| <= 2 && r.queries[0] == DeleteMemberships(userId)
    ensures |r.queries| == 2 <==> membershipsOk
    ensures |r.queries| == 2 ==> r.queries[1] == DeleteUser(userId)
    ensures r.status == Some(membershipsOk && userOk)
  {
    if !membershipsOk then Run([DeleteMemberships(userId)], Some(false))
    else Run([DeleteMemberships(userId), DeleteUser(userId)], Some(userOk))
  }

  /**
   `performTask`: deletes the task row first; if that fails the callback
   is never invoked. Otherwise "add" inserts the memberships, "remove"
   removes the profile, and any other kind reports failure. The data of an
   "add" task is parsed only after its row is deleted, so unparsable data
   throws inside the delete's callback: the task is gone and the callback
   is never invoked.
   */
  function PerformTask(task: Task, answers: TaskAnswers): (r: Run)
    ensures |r.queries| >= 1 && r.queries[0] == DeleteTask(task.id)
    ensures r.status == None <==> !answers.deleteTaskOk || (task.kind == "add" && task.data.None?)
    ensures !answers.deleteTaskOk ==> r.queries == [DeleteTask(task.id)]
    ensures answers.deleteTaskOk && task.kind == "add" && task.data.None? ==> r == Run([DeleteTask(task.id)], None)
    ensures answers.deleteTaskOk && task.kind == "add" && task.data.Some? ==>
              r == Run([DeleteTask(task.id)] + AddProfileToPlaylists(task.data.value, task.userId, answers.firstOk).queries,
                       AddProfileToPlaylists(task.data.value, task.userId, answers.firstOk).status)
    ensures answers.deleteTaskOk && task.kind == "remove" ==>
              r.queries[1..] == RemoveProfileByUserId(task.userId, answers.firstOk, answers.secondOk).queries
              && r.status == Some(answers.firstOk && answers.secondOk)
    ensures answers.deleteTaskOk && task.kind != "add" && task.kind != "remove" ==>
              r == Run([DeleteTask(task.id)], Some(false))
  {
    if !answers.deleteTaskOk then Run([DeleteTask(task.id)], None)
    else if task.kind == "add" then
      match task.data
      case None => Run([DeleteTask(task.id)], None)
      case Some(playlistIds) =>
        var applied := AddProfileToPlaylists(playlistIds, task.userId, answers.firstOk);
        Run([DeleteTask(task.id)] + applied.queries, applied.status)
    else if task.kind == "remove" then
      var applied := RemoveProfileByUserId(task.userId, answers.firstOk, answers.secondOk);
      Run([DeleteTask(task.id)] + applied.queries, applied.status)
    else Run([DeleteTask(task.id)], Some(false))
  }
}

=== FILE: translation.dfy ===
/**
 The translation tooling of api/handlers/admin.js: a parsed JSON document
 is a tree whose objects keep their keys in order and whose leaves are
 strings. `findNextTranslationKeyPath` searches the English tree for the
 first leaf missing from a partial translation, `findEndNode` descends to
 a leaf along first keys, `getTranslationFromTranslationKey` walks a
 dotted path, and `submitTranslation` writes a translation under a dotted
 path, creating the objects on the way.

 Property access follows JavaScript for own properties: an object answers
 for the keys it holds, a string answers for its index keys `"0"`, `"1"`,
 ... with a one-character string, and everything else is `undefined`.
 Names every object inherits from `Object.prototype` (`"constructor"`,
 `"toString"`, ...) are not modelled: here they are `undefined` too.
 */
module Translation {
  import opened Common
  import opened Decimal

  // ---------------------------------------------------------------------
  // JSON trees and property access
  // ---------------------------------------------------------------------

  datatype Json = Str(text: string) | Obj(fields: seq<Field>)
  datatype Field = Field(key: string, value: Json)

  function Sum(xs: seq<nat>): nat
  {
    if xs == [] then 0 else xs[0] + Sum(xs[1..])
  }

  lemma {:induction false} SumBound(xs: seq<nat>, i: nat)
    requires i < |xs|
    ensures xs[i] <= Sum(xs)
  {
    if i > 0 {
      SumBound(xs[1..], i - 1);
    }
  }

  /** The number of nodes of a tree; it bounds every descent. */
  function Size(j: Json): nat
  {
    match j
    case Str(_) => 1
    case Obj(fs) => 1 + Sum(seq(|fs|, i requires 0 <= i < |fs| => Size(fs[i].value)))
  }

  /** A field's value is smaller than the object holding it. */
  lemma FieldIsSmaller(fs: seq<Field>, m: nat)
    requires m < |fs|
    ensures Size(fs[m].value) < Size(Obj(fs))
  {
    SumBound(seq(|fs|, i requires 0 <= i < |fs| => Size(fs[i].value)), m);
  }

  /** The index property names of a string of length `n`: `"0"`, ..., in order. */
  function IndexKeys(n: nat): (ks: seq<string>)
    ensures |ks| == n
    ensures forall i :: 0 <= i < n ==> ks[i] == Render(i)
  {
    seq(n, i requires 0 <= i => Render(i))
  }

  /** `Object.keys(j)`: an object's keys in order, a string's index keys. */
  function Keys(j: Json): (ks: seq<string>)
    ensures j.Obj? ==> |ks| == |j.fields| && forall i :: 0 <= i < |ks| ==> ks[i] == j.fields[i].key
    ensures j.Str? ==> ks == IndexKeys(|j.text|)
  {
    match j
    case Obj(fs) => seq(|fs|, i requires 0 <= i < |fs| => fs[i].key)
    case Str(s) => IndexKeys(|s|)
  }

  /** The position of the first field named `k`. */
  function FieldIndex(fs: seq<Field>, k: string): (r: Option<nat>)
    ensures r.Some? ==> r.value < |fs| && fs[r.value].key == k
    ensures r.Some? ==> forall i :: 0 <= i < r.value ==> fs[i].key != k
    ensures r.None? ==> forall i :: 0 <= i < |fs| ==> fs[i].key != k
  {
    if fs == [] then None
    else if fs[0].key == k then Some(0)
    else
      match FieldIndex(fs[1..], k)
      case None => None
      case Some(m) => Some(m + 1)
  }

  /** The one-character string at a canonical index key, if the string is long enough. */
  lemma IndexKeyLookup(s: string, k: string)
    ensures (IndexOf(k).Some? && IndexOf(k).value < |s|) <==> k in IndexKeys(|s|)
  {
    if k in IndexKeys(|s|) {
      var i :| 0 <= i < |s| && IndexKeys(|s|)[i] == k;
      IndexOfRender(i);
    }
    if IndexOf(k).Some? && IndexOf(k).value < |s| {
      assert IndexKeys(|s|)[IndexOf(k).value] == k;
    }
  }

  /**
   `j[k]` for an own property: the value of an object's first field named
   `k`, the character of a string at an index key; `None` is `undefined`.
   */
  function Get(j: Json, k: string): (r: Option<Json>)
    ensures r.Some? <==> k in Keys(j)
    ensures j.Obj? && r.Some? ==> Size(r.value) < Size(j)
    ensures j.Str? && r.Some? ==> r.value.Str? && |r.value.text| == 1
  {
    match j
    case Obj(fs) =>
      (match FieldIndex(fs, k)
       case None => None
       case Some(m) =>
         FieldIsSmaller(fs, m);
         Some(fs[m].value))
    case Str(s) =>
      IndexKeyLookup(s, k);
      match IndexOf(k)
      case None => None
      case Some(i) => if i < |s| then Some(Str([s[i]])) else None
  }

  /** `s.replace(/^\./, "")`: one leading dot removed. */
  function StripDot(s: string): (r: string)
    ensures |s| > 0 && s[0] == '.' ==> r == s[1..]
    ensures (|s| == 0 || s[0] != '.') ==> r == s
  {
    if |s| > 0 && s[0] == '.' then s[1..] else s
  }

  // ---------------------------------------------------------------------
  // findEndNode and findNextTranslationKeyPath
  // ---------------------------------------------------------------------

  /**
   `findEndNode(object, keyPath)`: a non-object (here `None` or a string)
   ends the descent; otherwise the first key is appended after a dot and
   followed until its value is not an object. An empty object yields
   `undefined` (`None`).
   */
  function FindEndNode(v: Option<Json>, keyPath: string): (r: Option<string>)
    ensures r.Some? ==> keyPath <= r.value
    ensures r.Some? && v.Some? && v.value.Obj? ==> |keyPath| < |r.value|
    ensures r.None? ==> v.Some? && v.value.Obj?
    decreases if v.Some? then Size(v.value) else 0
  {
    if v.None? || v.value.Str? then Some(keyPath)
    else
      var keys := Keys(v.value);
      if |keys| == 0 then None
      else
        var newKeyPath := keyPath + "." + keys[0];
        var child := Get(v.value, keys[0]);
        if !child.value.Obj? then Some(newKeyPath) else FindEndNode(child, newKeyPath)
  }

  /** What `findNextTranslationKeyPath` gives: `-1`, a key path, or a thrown `TypeError`. */
  datatype NextKey = NoneLeft | Path(path: string) | Throws

  /** What one turn of the search loop does: `continue`, or `return` (a throw propagates as a return). */
  datatype Turn = Continue | Return(result: NextKey)

  /**
   One turn of the loop of `findNextTranslationKeyPath`, for key `k` of
   `all`: a key `existing` lacks ends the search through `findEndNode`; a
   key whose value in `existing` is an object is searched recursively, and
   `-1` from there continues; any other value continues. The path returned
   loses one leading dot here; `undefined` from `findEndNode` makes
   `.replace` throw.
   */
  function VisitKey(all: Json, existing: Json, keyPath: string, k: string): Turn
    requires k in Keys(all)
    decreases Size(existing), 0
  {
    var newKeyPath := keyPath + "." + k;
    match Get(existing, k)
    case None =>
      (match FindEndNode(Get(all, k), newKeyPath)
       case None => Return(Throws)
       case Some(p) => Return(Path(StripDot(p))))
    case Some(e) =>
      if e.Obj? then
        match FindFrom(Get(all, k).value, e, newKeyPath, 0)
        case NoneLeft => Continue
        case Throws => Return(Throws)
        case Path(p) => Return(Path(StripDot(p)))
      else Continue
  }

  /** The loop of `findNextTranslationKeyPath` from key number `i` of `all`; `-1` after the last key. */
  function FindFrom(all: Json, existing: Json, keyPath: string, i: nat): NextKey
    requires i <= |Keys(all)|
    decreases Size(existing), |Keys(all)| - i + 1
  {
    if i == |Keys(all)| then NoneLeft
    else
      match VisitKey(all, existing, keyPath, Keys(all)[i])
      case Continue => FindFrom(all, existing, keyPath, i + 1)
      case Return(r) => r
  }

  /** `findNextTranslationKeyPath(all, existing, keyPath)`: `-1` at once when `all` has no keys. */
  function FindNext(all: Json, existing: Json, keyPath: string): (r: NextKey)
    ensures |Keys(all)| == 0 ==> r == NoneLeft
  {
    if |Keys(all)| == 0 then NoneLeft else FindFrom(all, existing, keyPath, 0)
  }

  // ---------------------------------------------------------------------
  // The same search over key lists
  // ---------------------------------------------------------------------

  /** The key path the search accumulates: `"." + k1 + "." + k2 + ...`. */
  function Dotted(q: seq<string>): string
  {
    if q == [] then "" else "." + q[0] + Dotted(q[1..])
  }

  /** `q.join(".")`. */
  function Join(q: seq<string>): string
  {
    if |q| == 0 then "" else if |q| == 1 then q[0] else q[0] + "." + Join(q[1..])
  }

  /** A key the dotted notation can carry: non-empty and without a dot. */
  predicate GoodKey(k: string)
  {
    |k| > 0 && '.' !in k
  }

  /** Every object key in `j` is a good key (index keys of strings always are). */
  predicate GoodKeys(j: Json)
  {
    match j
    case Str(_) => true
    case Obj(fs) => forall i :: 0 <= i < |fs| ==> GoodKey(fs[i].key) && GoodKeys(fs[i].value)
  }

  /** No object in `j` is empty, the assumption `findEndNode` states. */
  predicate NoEmptyObjects(j: Json)
  {
    match j
    case Str(_) => true
    case Obj(fs) => |fs| > 0 && forall i :: 0 <= i < |fs| ==> NoEmptyObjects(fs[i].value)
  }

  /** `q` leads from `j` through own properties to a string. */
  predicate LeafPath(j: Json, q: seq<string>)
    decreases |q|
  {
    if q == [] then j.Str? else Get(j, q[0]).Some? && LeafPath(Get(j, q[0]).value, q[1..])
  }

  /** Following `q` in `e` meets `undefined`, passing through objects only. */
  predicate Absent(e: Json, q: seq<string>)
    decreases |q|
  {
    q != [] && (Get(e, q[0]).None? || (Get(e, q[0]).value.Obj? && Absent(Get(e, q[0]).value, q[1..])))
  }

  /** The first-key descent as a key list; `None` at an empty object. */
  function EndPath(v: Json): (r: Option<seq<string>>)
    ensures r.Some? ==> LeafPath(v, r.value)
    decreases Size(v)
  {
    match v
    case Str(_) => Some([])
    case Obj(_) =>
      if |Keys(v)| == 0 then None
      else
        var k := Keys(v)[0];
        match EndPath(Get(v, k).value)
        case None => None
        case Some(q) =>
          assert ([k] + q)[1..] == q;
          Some([k] + q)
  }

  /** The outcome of the search as a key list; `NoneMissing` also means "continue". */
  datatype Missing = NoneMissing | MissingAt(keys: seq<string>) | EmptyObject

  /** The turn of `VisitKey` with key lists in place of path strings. */
  function MissingUnder(all: Json, existing: Json, k: string): (r: Missing)
    requires k in Keys(all)
    ensures r.MissingAt? ==> |r.keys| >= 1 && r.keys[0] == k
    decreases Size(existing), 0
  {
    match Get(existing, k)
    case None =>
      (match EndPath(Get(all, k).value)
       case None => EmptyObject
       case Some(q) => MissingAt([k] + q))
    case Some(e) =>
      if e.Obj? then
        match FirstMissing(Get(all, k).value, e, 0)
        case MissingAt(q) => MissingAt([k] + q)
        case other => other
      else NoneMissing
  }

  /** The first leaf of `all`, in key order from key number `i`, that `existing` lacks. */
  function FirstMissing(all: Json, existing: Json, i: nat): (r: Missing)
    requires i <= |Keys(all)|
    ensures r.MissingAt? ==> |r.keys| >= 1 && r.keys[0] in Keys(all)[i..]
    decreases Size(existing), |Keys(all)| - i + 1
  {
    if i == |Keys(all)| then NoneMissing
    else
      match MissingUnder(all, existing, Keys(all)[i])
      case NoneMissing => FirstMissing(all, existing, i + 1)
      case other => other
  }

  /** Every leaf of `all` is present in `existing`, or blocked there by a string on the way. */
  ghost predicate NothingMissing(all: Json, existing: Json)
  {
    forall q :: LeafPath(all, q) ==> !Absent(existing, q)
  }

  /** A reported key list is a leaf of `all` that `existing` lacks. */
  predicate Reported(all: Json, existing: Json, m: Missing)
  {
    m.MissingAt? ==> LeafPath(all, m.keys) && Absent(existing, m.keys)
  }

  /** A key list reported under key `k` is a leaf of `all` that `existing` lacks. */
  lemma {:induction false} MissingUnderIsAbsentLeaf(all: Json, existing: Json, k: string)
    requires k in Keys(all)
    ensures Reported(all, existing, MissingUnder(all, existing, k))
    decreases Size(existing), 0
  {
    var a := Get(all, k).value;
    match Get(existing, k)
    case None =>
      if EndPath(a).Some? {
        assert ([k] + EndPath(a).value)[1..] == EndPath(a).value;
      }
    case Some(e) =>
      if e.Obj? {
        MissingIsAbsentLeaf(a, e, 0);
        if FirstMissing(a, e, 0).MissingAt? {
          assert ([k] + FirstMissing(a, e, 0).keys)[1..] == FirstMissing(a, e, 0).keys;
        }
      }
  }

  /** A key list the search reports is a leaf of `all` that `existing` lacks. */
  lemma {:induction false} MissingIsAbsentLeaf(all: Json, existing: Json, i: nat)
    requires i <= |Keys(all)|
    ensures Reported(all, existing, FirstMissing(all, existing, i))
    decreases Size(existing), |Keys(all)| - i + 1
  {
    if i < |Keys(all)| {
      var k := Keys(all)[i];
      MissingUnderIsAbsentLeaf(all, existing, k);
      MissingIsAbsentLeaf(all, existing, i + 1);
      var m := MissingUnder(all, existing, k);
      assert FirstMissing(all, existing, i) == if m == NoneMissing then FirstMissing(all, existing, i + 1) else m;
    }
  }

  /** When nothing under key `k` is reported, no leaf of `all` through `k` is absent from `existing`. */
  lemma {:induction false} CompleteUnder(all: Json, existing: Json, k: string, q: seq<string>)
    requires k in Keys(all)
    requires MissingUnder(all, existing, k) == NoneMissing
    requires LeafPath(all, q) && |q| >= 1 && q[0] == k
    ensures !Absent(existing, q)
    decreases Size(existing), 0
  {
    var a := Get(all, k).value;
    var e := Get(existing, k).value;
    if e.Obj? && |q| > 1 {
      assert q[1] in Keys(a);
      assert q[1..][0] == q[1];
      CompleteFrom(a, e, 0, q[1..]);
    }
  }

  /** When the search reports nothing from key number `i`, no leaf of `all` through those keys is absent. */
  lemma {:induction false} CompleteFrom(all: Json, existing: Json, i: nat, q: seq<string>)
    requires i <= |Keys(all)|
    requires FirstMissing(all, existing, i) == NoneMissing
    requires LeafPath(all, q) && |q| >= 1 && q[0] in Keys(all)[i..]
    ensures !Absent(existing, q)
    decreases Size(existing), |Keys(all)| - i + 1
  {
    var k := Keys(all)[i];
    if q[0] == k {
      CompleteUnder(all, existing, k, q);
    } else {
      assert q[0] in Keys(all)[i + 1..];
      CompleteFrom(all, existing, i + 1, q);
    }
  }

  /**
   The reported key comes first in key order: no key from number `from`
   up to one with an absent leaf `q` under it is passed over, so the
   reported key is that key or an earlier one.
   */
  lemma FirstMissingIsFirst(all: Json, existing: Json, from: nat, j: nat, q: seq<string>)
    requires from <= j < |Keys(all)|
    requires FirstMissing(all, existing, from).MissingAt?
    requires LeafPath(all, q) && |q| >= 1 && q[0] == Keys(all)[j] && Absent(existing, q)
    ensures FirstMissing(all, existing, from).keys[0] in Keys(all)[from..j + 1]
  {
    GapStopsSearch(all, existing, j, q);
    var x := FirstMissingStopsBy(all, existing, from, j);
    InWindow(Keys(all), from, x, j);
  }

  /**
   The search from key number `from` stops at some key `x` no later than a
   key `j` that reports something, and every key it passes over has
   nothing missing under it.
   */
  lemma FirstMissingStopsBy(all: Json, existing: Json, from: nat, j: nat) returns (x: nat)
    requires from <= j < |Keys(all)|
    requires MissingUnder(all, existing, Keys(all)[j]) != NoneMissing
    ensures from <= x <= j
    ensures FirstMissing(all, existing, from) == MissingUnder(all, existing, Keys(all)[x])
    ensures forall y :: from <= y < x ==> MissingUnder(all, existing, Keys(all)[y]) == NoneMissing
  {
    var outs, firsts := SearchTable(all, existing);
    x := SearchStopsBy(outs, firsts, from, j);
    forall y | from <= y < x
      ensures MissingUnder(all, existing, Keys(all)[y]) == NoneMissing
    {
      assert outs[y] == NoneMissing;
    }
    assert firsts[from] == outs[x];
  }

  /** What each key reports, and what the search from each key number reports. */
  lemma SearchTable(all: Json, existing: Json) returns (outs: seq<Missing>, firsts: seq<Missing>)
    ensures |outs| == |Keys(all)| && |firsts| == |outs| + 1
    ensures forall i {:trigger outs[i]} :: 0 <= i < |outs| ==> outs[i] == MissingUnder(all, existing, Keys(all)[i])
    ensures forall i {:trigger firsts[i]} :: 0 <= i <= |outs| ==> firsts[i] == FirstMissing(all, existing, i)
    ensures forall i {:trigger outs[i]} :: 0 <= i < |outs| ==> firsts[i] == (if outs[i] == NoneMissing then firsts[i + 1] else outs[i])
  {
    var n := |Keys(all)|;
    outs := seq(n, i requires 0 <= i < n => MissingUnder(all, existing, Keys(all)[i]));
    firsts := seq(n + 1, i requires 0 <= i <= n => FirstMissing(all, existing, i));
    forall i | 0 <= i < n
      ensures firsts[i] == (if outs[i] == NoneMissing then firsts[i + 1] else outs[i])
    {
      assert outs[i] == MissingUnder(all, existing, Keys(all)[i]);
      assert firsts[i] == FirstMissing(all, existing, i) && firsts[i + 1] == FirstMissing(all, existing, i + 1);
      FirstMissingStep(all, existing, i);
    }
  }

  /** A key with an absent leaf under it is not passed over. */
  lemma GapStopsSearch(all: Json, existing: Json, j: nat, q: seq<string>)
    requires j < |Keys(all)|
    requires LeafPath(all, q) && |q| >= 1 && q[0] == Keys(all)[j] && Absent(existing, q)
    ensures MissingUnder(all, existing, Keys(all)[j]) != NoneMissing
  {
    if MissingUnder(all, existing, Keys(all)[j]) == NoneMissing {
      CompleteUnder(all, existing, Keys(all)[j], q);
      assert false;
    }
  }

  /**
   The search's step, on its own: `outs[i]` is what key number `i` reports
   and `firsts[i]` what the search from key number `i` reports. A search
   from `from` stops at some key `x` no later than a key `j` that reports
   something, and every key it passes over reports nothing.
   */
  lemma {:induction false} SearchStopsBy(outs: seq<Missing>, firsts: seq<Missing>, from: nat, j: nat) returns (x: nat)
    requires from <= j < |outs| < |firsts|
    requires outs[j] != NoneMissing
    requires forall i {:trigger outs[i]} :: from <= i < |outs| ==> firsts[i] == (if outs[i] == NoneMissing then firsts[i + 1] else outs[i])
    ensures from <= x <= j && firsts[from] == outs[x]
    ensures forall y :: from <= y < x ==> outs[y] == NoneMissing
    decreases j - from
  {
    if outs[from] == NoneMissing {
      x := SearchStopsBy(outs, firsts, from + 1, j);
    } else {
      x := from;
    }
  }

  /** One step of the search: a key with nothing missing under it is passed over, any other ends it. */
  lemma FirstMissingStep(all: Json, existing: Json, i: nat)
    requires i < |Keys(all)|
    ensures FirstMissing(all, existing, i)
            == if MissingUnder(all, existing, Keys(all)[i]) == NoneMissing then FirstMissing(all, existing, i + 1)
               else MissingUnder(all, existing, Keys(all)[i])
  {
  }

  lemma InWindow(s: seq<string>, from: nat, x: nat, j: nat)
    requires from <= x <= j < |s|
    ensures s[x] in s[from..j + 1]
  {
    assert s[from..j + 1][x - from] == s[x];
  }

  /** `-1` from the key-list search means every leaf of `all` is present in, or blocked by a string of, `existing`. */
  lemma NoneMissingIsComplete(all: Json, existing: Json)
    requires FirstMissing(all, existing, 0) == NoneMissing
    ensures NothingMissing(all, existing)
  {
    forall q | LeafPath(all, q)
      ensures !Absent(existing, q)
    {
      if q != [] {
        assert q[0] in Keys(all)[0..];
        CompleteFrom(all, existing, 0, q);
      }
    }
  }

  // ---------------------------------------------------------------------
  // Completeness when no object is empty
  // ---------------------------------------------------------------------

  /** The trees below an object without empty objects have none either. */
  lemma ChildHasNoEmptyObjects(j: Json, k: string)
    requires NoEmptyObjects(j) && k in Keys(j)
    ensures NoEmptyObjects(Get(j, k).value)
  {
    if j.Obj? {
      var m := FieldIndex(j.fields, k).value;
      assert Get(j, k).value == j.fields[m].value;
    }
  }

  /** The first-key descent reaches a string when no object is empty. */
  lemma {:induction false} EndPathExists(v: Json)
    requires NoEmptyObjects(v)
    ensures EndPath(v).Some?
    decreases Size(v)
  {
    if v.Obj? {
      var k := Keys(v)[0];
      ChildHasNoEmptyObjects(v, k);
      EndPathExists(Get(v, k).value);
    }
  }

  /** Without empty objects the search under key `k` never meets one. */
  lemma {:induction false} NeverEmptyUnder(all: Json, existing: Json, k: string)
    requires NoEmptyObjects(all) && k in Keys(all)
    ensures MissingUnder(all, existing, k) != EmptyObject
    decreases Size(existing), 0
  {
    var a := Get(all, k).value;
    ChildHasNoEmptyObjects(all, k);
    match Get(existing, k)
    case None =>
      EndPathExists(a);
    case Some(e) =>
      if e.Obj? {
        NeverEmptyFrom(a, e, 0);
      }
  }

  /** Without empty objects the search never meets one. */
  lemma {:induction false} NeverEmptyFrom(all: Json, existing: Json, i: nat)
    requires NoEmptyObjects(all) && i <= |Keys(all)|
    ensures FirstMissing(all, existing, i) != EmptyObject
    decreases Size(existing), |Keys(all)| - i + 1
  {
    if i < |Keys(all)| {
      NeverEmptyUnder(all, existing, Keys(all)[i]);
      NeverEmptyFrom(all, existing, i + 1);
    }
  }

  /**
   When no object of `all` is empty, the key-list search reports a leaf of
   `all` that `existing` lacks, and reports nothing exactly when there is
   no such leaf.
   */
  lemma FirstMissingIsAbsentLeaf(all: Json, existing: Json)
    requires NoEmptyObjects(all)
    ensures FirstMissing(all, existing, 0) != EmptyObject
    ensures FirstMissing(all, existing, 0) == NoneMissing
            <==> NothingMissing(all, existing)
    ensures FirstMissing(all, existing, 0).MissingAt? ==>
              LeafPath(all, FirstMissing(all, existing, 0).keys) && Absent(existing, FirstMissing(all, existing, 0).keys)
  {
    NeverEmptyFrom(all, existing, 0);
    MissingIsAbsentLeaf(all, existing, 0);
    var m := FirstMissing(all, existing, 0);
    if m == NoneMissing {
      NoneMissingIsComplete(all, existing);
    } else {
      var q := m.keys;
      assert LeafPath(all, q) && Absent(existing, q);
    }
  }

  // ---------------------------------------------------------------------
  // The string search is the key-list search
  // ---------------------------------------------------------------------

  /** The accumulated path of a concatenation. */
  lemma {:induction false} DottedAppend(p: seq<string>, q: seq<string>)
    ensures Dotted(p + q) == Dotted(p) + Dotted(q)
  {
    if p != [] {
      assert (p + q)[1..] == p[1..] + q;
      DottedAppend(p[1..], q);
    } else {
      assert p + q == q;
    }
  }

  /** Appending a key to the accumulated path. */
  lemma DottedSnoc(q: seq<string>, k: string)
    ensures Dotted(q + [k]) == Dotted(q) + "." + k
  {
    DottedAppend(q, [k]);
    assert Dotted([k]) == "." + k + Dotted([]);
  }

  /** The accumulated path is the joined path behind one dot. */
  lemma {:induction false} DottedIsDotJoin(q: seq<string>)
    requires |q| >= 1
    ensures Dotted(q) == "." + Join(q)
  {
    if |q| > 1 {
      DottedIsDotJoin(q[1..]);
    } else {
      assert Dotted(q) == "." + q[0] + Dotted([]);
    }
  }

  /** A joined path whose first key is good starts with that key's first character, never a dot. */
  lemma JoinStartsWithKey(q: seq<string>)
    requires |q| >= 1 && GoodKey(q[0])
    ensures |Join(q)| > 0 && Join(q)[0] == q[0][0] && Join(q)[0] != '.'
  {
    assert q[0][0] in q[0];
  }

  /** The keys of a tree of good keys are good, and so are the trees below them. */
  lemma KeyIsGood(j: Json, k: string)
    requires GoodKeys(j) && k in Keys(j)
    ensures GoodKey(k)
    ensures GoodKeys(Get(j, k).value)
  {
    match j
    case Str(s) =>
      var i :| 0 <= i < |s| && IndexKeys(|s|)[i] == k;
      assert Canonical(Render(i));
    case Obj(fs) =>
      var m := FieldIndex(fs, k).value;
      assert Get(j, k).value == fs[m].value;
  }

  /** One step of `findEndNode` below a non-empty object. */
  lemma FindEndNodeStep(v: Json, keyPath: string)
    requires v.Obj? && |Keys(v)| > 0
    ensures var k := Keys(v)[0];
            var c := Get(v, k).value;
            FindEndNode(Some(v), keyPath)
            == if c.Obj? then FindEndNode(Some(c), keyPath + "." + k) else Some(keyPath + "." + k)
  {
  }

  /** One step of the first-key descent below a non-empty object. */
  lemma EndPathStep(v: Json)
    requires v.Obj? && |Keys(v)| > 0
    ensures var k := Keys(v)[0];
            EndPath(v) == match EndPath(Get(v, k).value) case None => None case Some(q) => Some([k] + q)
  {
  }

  /** The path arithmetic of one descent step of `findEndNode` and `EndPath` together. */
  lemma DescentStep(keyPath: string, k: string, ec: Option<seq<string>>, fc: Option<string>)
    requires fc == (match ec case None => None case Some(q) => Some(keyPath + "." + k + Dotted(q)))
    ensures fc == (match (match ec case None => None case Some(q) => Some([k] + q))
                   case None => None case Some(q) => Some(keyPath + Dotted(q)))
  {
    if ec.Some? {
      var q := ec.value;
      assert Dotted([k] + q) == "." + k + Dotted(q) by { assert ([k] + q)[1..] == q; }
      assert keyPath + Dotted([k] + q) == keyPath + "." + k + Dotted(q);
    }
  }

  /** `findEndNode` appends exactly the dotted form of the first-key descent. */
  lemma {:induction false} FindEndNodeIsEndPath(v: Json, keyPath: string)
    ensures FindEndNode(Some(v), keyPath)
            == (match EndPath(v) case None => None case Some(q) => Some(keyPath + Dotted(q)))
    decreases Size(v)
  {
    if v.Str? {
      assert keyPath + Dotted([]) == keyPath;
    } else if |Keys(v)| > 0 {
      var k := Keys(v)[0];
      var c := Get(v, k).value;
      FindEndNodeStep(v, keyPath);
      EndPathStep(v);
      if c.Obj? {
        FindEndNodeIsEndPath(c, keyPath + "." + k);
      } else {
        assert keyPath + "." + k + Dotted([]) == keyPath + "." + k;
      }
      DescentStep(keyPath, k, EndPath(c), if c.Obj? then FindEndNode(Some(c), keyPath + "." + k) else Some(keyPath + "." + k));
    }
  }

  /** The string outcome of the search, seen from the key-list outcome under the prefix `p`. */
  function Lift(p: seq<string>, m: Missing): NextKey
  {
    match m
    case NoneMissing => NoneLeft
    case EmptyObject => Throws
    case MissingAt(q) => Path(Join(p + q))
  }

  /** The string turn, seen from the key-list outcome of one key. */
  function LiftTurn(p: seq<string>, m: Missing): Turn
  {
    if m == NoneMissing then Continue else Return(Lift(p, m))
  }

  /** The path `findEndNode` builds below an absent key, its leading dot removed, joins the keys. */
  lemma AbsentKeyPath(p: seq<string>, k: string, q: seq<string>)
    ensures StripDot(Dotted(p) + "." + k + Dotted(q)) == Join(p + ([k] + q))
  {
    var pk := p + [k];
    var r := p + ([k] + q);
    assert r == pk + q;
    DottedSnoc(p, k);
    DottedAppend(pk, q);
    var s := Dotted(p) + "." + k + Dotted(q);
    assert s == Dotted(r);
    DottedIsDotJoin(r);
    assert s == "." + Join(r);
    assert s[1..] == Join(r);
  }

  /** A path found below an object key loses no further character to the second removal of a leading dot. */
  lemma NestedPath(p: seq<string>, k: string, q: seq<string>)
    requires GoodKey(k)
    requires forall m :: 0 <= m < |p| ==> GoodKey(p[m])
    ensures StripDot(Join(p + [k] + q)) == Join(p + ([k] + q))
  {
    var r := p + [k] + q;
    assert r == p + ([k] + q);
    assert r[0] == if p == [] then k else p[0];
    JoinStartsWithKey(r);
  }

  /** The outcome arithmetic of a turn that met an absent key. */
  lemma AbsentTurn(p: seq<string>, k: string, found: Option<string>, ep: Option<seq<string>>)
    requires found == (match ep case None => None case Some(q) => Some(Dotted(p) + "." + k + Dotted(q)))
    ensures (match found case None => Return(Throws) case Some(s) => Return(Path(StripDot(s))))
            == LiftTurn(p, match ep case None => EmptyObject case Some(q) => MissingAt([k] + q))
  {
    if ep.Some? {
      AbsentKeyPath(p, k, ep.value);
    }
  }

  /** The turn for a key `existing` lacks. */
  lemma AbsentKeyTurn(all: Json, existing: Json, p: seq<string>, k: string)
    requires k in Keys(all) && Get(existing, k).None?
    ensures VisitKey(all, existing, Dotted(p), k) == LiftTurn(p, MissingUnder(all, existing, k))
  {
    var a := Get(all, k).value;
    FindEndNodeIsEndPath(a, Dotted(p) + "." + k);
    AbsentTurn(p, k, FindEndNode(Some(a), Dotted(p) + "." + k), EndPath(a));
  }

  /** The outcome arithmetic of a turn that searched below an object key. */
  lemma NestedTurn(p: seq<string>, k: string, inner: NextKey, m: Missing)
    requires GoodKey(k)
    requires forall i :: 0 <= i < |p| ==> GoodKey(p[i])
    requires inner == Lift(p + [k], m)
    ensures (match inner case NoneLeft => Continue case Throws => Return(Throws) case Path(s) => Return(Path(StripDot(s))))
            == LiftTurn(p, match m case MissingAt(q) => MissingAt([k] + q) case NoneMissing => NoneMissing case EmptyObject => EmptyObject)
  {
    if m.MissingAt? {
      NestedPath(p, k, m.keys);
    }
  }

  /** The turn for a key whose value in `existing` is an object, given the agreement one level down. */
  lemma ObjectKeyTurn(all: Json, existing: Json, p: seq<string>, k: string)
    requires k in Keys(all) && GoodKey(k)
    requires forall m :: 0 <= m < |p| ==> GoodKey(p[m])
    requires Get(existing, k).Some? && Get(existing, k).value.Obj?
    requires FindFrom(Get(all, k).value, Get(existing, k).value, Dotted(p + [k]), 0)
             == Lift(p + [k], FirstMissing(Get(all, k).value, Get(existing, k).value, 0))
    ensures VisitKey(all, existing, Dotted(p), k) == LiftTurn(p, MissingUnder(all, existing, k))
  {
    var a := Get(all, k).value;
    var e := Get(existing, k).value;
    DottedSnoc(p, k);
    NestedTurn(p, k, FindFrom(a, e, Dotted(p + [k]), 0), FirstMissing(a, e, 0));
  }

  /** Over good keys one turn of the string search agrees with the key-list search under that key. */
  lemma {:induction false} VisitKeyIsMissingUnder(all: Json, existing: Json, p: seq<string>, k: string)
    requires GoodKeys(all) && k in Keys(all)
    requires forall m :: 0 <= m < |p| ==> GoodKey(p[m])
    ensures VisitKey(all, existing, Dotted(p), k) == LiftTurn(p, MissingUnder(all, existing, k))
    decreases Size(existing), 0
  {
    KeyIsGood(all, k);
    match Get(existing, k)
    case None =>
      AbsentKeyTurn(all, existing, p, k);
    case Some(e) =>
      if e.Obj? {
        var pk := p + [k];
        assert forall m :: 0 <= m < |pk| ==> GoodKey(pk[m]);
        FindFromIsFirstMissing(Get(all, k).value, e, pk, 0);
        ObjectKeyTurn(all, existing, p, k);
      }
  }

  /**
   Over good keys the string search and the key-list search agree: the
   path the search returns is the joined key list, its leading dot
   removed at each level.
   */
  lemma {:induction false} FindFromIsFirstMissing(all: Json, existing: Json, p: seq<string>, i: nat)
    requires GoodKeys(all)
    requires forall m :: 0 <= m < |p| ==> GoodKey(p[m])
    requires i <= |Keys(all)|
    ensures FindFrom(all, existing, Dotted(p), i) == Lift(p, FirstMissing(all, existing, i))
    decreases Size(existing), |Keys(all)| - i + 1
  {
    if i < |Keys(all)| {
      VisitKeyIsMissingUnder(all, existing, p, Keys(all)[i]);
      FindFromIsFirstMissing(all, existing, p, i + 1);
    }
  }

  /** The top-level call, with an empty key path. */
  lemma FindNextIsFirstMissing(all: Json, existing: Json)
    requires GoodKeys(all)
    ensures FindNext(all, existing, "") == Lift([], FirstMissing(all, existing, 0))
  {
    FindFromIsFirstMissing(all, existing, [], 0);
  }

  /**
   `findNextTranslationKeyPath(all, existing, "")` over an English tree of
   good keys without empty objects never throws; a path it returns joins
   the keys of a leaf of `all` that `existing` lacks, and it returns `-1`
   exactly when there is no such leaf.
   */
  lemma FindNextFindsAbsentLeaf(all: Json, existing: Json)
    requires GoodKeys(all) && NoEmptyObjects(all)
    ensures !FindNext(all, existing, "").Throws?
    ensures FindNext(all, existing, "").Path? ==>
              exists q :: Join(q) == FindNext(all, existing, "").path && LeafPath(all, q) && Absent(existing, q)
    ensures FindNext(all, existing, "") == NoneLeft <==> NothingMissing(all, existing)
  {
    FindNextIsFirstMissing(all, existing);
    FirstMissingIsAbsentLeaf(all, existing);
    var m := FirstMissing(all, existing, 0);
    if m.MissingAt? {
      assert [] + m.keys == m.keys;
      assert Join(m.keys) == FindNext(all, existing, "").path;
    }
  }

  /**
   When a leaf under key number `j` of `all` is absent, the search returns
   an absent leaf under key number `j` or an earlier one: the first gap in
   key order.
   */
  lemma FindNextFindsFirstAbsentLeaf(all: Json, existing: Json, j: nat, q: seq<string>)
    requires GoodKeys(all) && NoEmptyObjects(all)
    requires j < |Keys(all)|
    requires LeafPath(all, q) && |q| >= 1 && q[0] == Keys(all)[j] && Absent(existing, q)
    ensures FindNext(all, existing, "").Path?
    ensures exists r :: && Join(r) == FindNext(all, existing, "").path
                        && LeafPath(all, r) && Absent(existing, r)
                        && |r| >= 1 && r[0] in Keys(all)[..j + 1]
  {
    FindNextFindsAbsentLeaf(all, existing);
    FindNextIsFirstMissing(all, existing);
    FirstMissingIsAbsentLeaf(all, existing);
    var m := FirstMissing(all, existing, 0);
    assert !NothingMissing(all, existing);
    FirstMissingIsFirst(all, existing, 0, j, q);
    assert [] + m.keys == m.keys;
    assert Keys(all)[0..j + 1] == Keys(all)[..j + 1];
  }

  // ---------------------------------------------------------------------
  // Dotted paths: split and join
  // ---------------------------------------------------------------------

  /** The position of the first dot in `s`. */
  function DotIndex(s: string): (r: Option<nat>)
    ensures r.Some? ==> r.value < |s| && s[r.value] == '.' && '.' !in s[..r.value]
    ensures r.None? <==> '.' !in s
  {
    if s == [] then None
    else if s[0] == '.' then Some(0)
    else
      match DotIndex(s[1..])
      case None => None
      case Some(i) =>
        assert s[..i + 1] == [s[0]] + s[1..][..i];
        Some(i + 1)
  }

  /** The first dot of `a + "." + b` is the one after `a` when `a` has none. */
  lemma FirstDot(a: string, b: string)
    requires '.' !in a
    ensures DotIndex(a + "." + b) == Some(|a|)
  {
    var s := a + "." + b;
    assert s[|a|] == '.';
    assert forall i :: 0 <= i < |a| ==> s[i] == a[i];
  }

  /** `s.split(".")`: the pieces between dots, at least one, none containing a dot. */
  function Split(s: string): (parts: seq<string>)
    ensures |parts| >= 1
    ensures forall i :: 0 <= i < |parts| ==> '.' !in parts[i]
    decreases |s|
  {
    match DotIndex(s)
    case None => [s]
    case Some(i) => [s[..i]] + Split(s[i + 1..])
  }

  /** Splitting a joined list of dot-free keys gives the keys back. */
  lemma {:induction false} SplitJoin(q: seq<string>)
    requires |q| >= 1
    requires forall i :: 0 <= i < |q| ==> '.' !in q[i]
    ensures Split(Join(q)) == q
  {
    if |q| > 1 {
      var s := Join(q);
      var n := |q[0]|;
      assert s == q[0] + "." + Join(q[1..]);
      assert s[..n] == q[0];
      FirstDot(q[0], Join(q[1..]));
      assert s[n + 1..] == Join(q[1..]);
      SplitJoin(q[1..]);
    }
  }

  /** Joining the pieces of a split gives the string back. */
  lemma {:induction false} JoinSplit(s: string)
    ensures Join(Split(s)) == s
    decreases |s|
  {
    match DotIndex(s)
    case None =>
    case Some(i) =>
      var rest := Split(s[i + 1..]);
      JoinSplit(s[i + 1..]);
      assert ([s[..i]] + rest)[1..] == rest;
      assert s == s[..i] + "." + s[i + 1..];
  }

  /** The keys on a leaf path of a tree of good keys are good, hence dot-free. */
  lemma {:induction false} LeafPathKeysGood(j: Json, q: seq<string>)
    requires GoodKeys(j) && LeafPath(j, q)
    ensures forall i :: 0 <= i < |q| ==> GoodKey(q[i])
    decreases |q|
  {
    if q != [] {
      KeyIsGood(j, q[0]);
      LeafPathKeysGood(Get(j, q[0]).value, q[1..]);
      assert forall i :: 1 <= i < |q| ==> q[i] == q[1..][i - 1];
    }
  }

  // ---------------------------------------------------------------------
  // getTranslationFromTranslationKey
  // ---------------------------------------------------------------------

  /** The value of a property walk: a value, `undefined`, or a thrown `TypeError`. */
  datatype Lookup = Defined(value: Json) | Undefined | TypeError

  /**
   `current = current[part]` for each part in turn: `undefined` at the last
   part is the result; `undefined` before it makes the next access throw.
   */
  function Walk(j: Json, parts: seq<string>): (r: Lookup)
    ensures parts == [] ==> r == Defined(j)
    ensures |parts| == 1 ==> (r.Defined? <==> parts[0] in Keys(j)) && !r.TypeError?
    ensures r.TypeError? ==> |parts| >= 2
    decreases |parts|
  {
    if parts == [] then Defined(j)
    else
      match Get(j, parts[0])
      case None => if |parts| == 1 then Undefined else TypeError
      case Some(c) => Walk(c, parts[1..])
  }

  /** A walk ends at a string exactly along a leaf path. */
  lemma {:induction false} WalkLeafPath(j: Json, q: seq<string>)
    ensures LeafPath(j, q) <==> Walk(j, q).Defined? && Walk(j, q).value.Str?
    decreases |q|
  {
    if q != [] && Get(j, q[0]).Some? {
      WalkLeafPath(Get(j, q[0]).value, q[1..]);
    }
  }

  /** A walk along a path absent from `e` never reaches a value. */
  lemma {:induction false} WalkAbsent(e: Json, q: seq<string>)
    requires Absent(e, q)
    ensures !Walk(e, q).Defined?
    decreases |q|
  {
    if Get(e, q[0]).Some? {
      WalkAbsent(Get(e, q[0]).value, q[1..]);
    }
  }

  /**
   `getTranslationFromTranslationKey(object, translationKey)`: `""` for
   `-1` (here `None`), otherwise the walk along the dot-split key.
   */
  function GetTranslation(obj: Json, translationKey: Option<string>): (r: Lookup)
    ensures translationKey.None? ==> r == Defined(Str(""))
  {
    match translationKey
    case None => Defined(Str(""))
    case Some(s) => Walk(obj, Split(s))
  }

  /** Looking up a joined leaf path of a tree of good keys gives the leaf. */
  lemma GetTranslationOfLeaf(all: Json, q: seq<string>)
    requires GoodKeys(all) && LeafPath(all, q) && |q| >= 1
    ensures GetTranslation(all, Some(Join(q))).Defined?
    ensures GetTranslation(all, Some(Join(q))).value.Str?
  {
    LeafPathKeysGood(all, q);
    SplitJoin(q);
    WalkLeafPath(all, q);
  }

  /**
   The path `findNextTranslationKeyPath` returns for an English tree of
   good keys without empty objects looks up a string of that tree, and the
   same lookup in the partial translation finds nothing.
   */
  lemma FoundPathResolves(all: Json, existing: Json)
    requires GoodKeys(all) && NoEmptyObjects(all)
    requires FindNext(all, existing, "").Path?
    ensures var s := FindNext(all, existing, "").path;
            GetTranslation(all, Some(s)).Defined? && GetTranslation(all, Some(s)).value.Str?
            && !GetTranslation(existing, Some(s)).Defined?
  {
    FindNextIsFirstMissing(all, existing);
    FirstMissingIsAbsentLeaf(all, existing);
    var q := FirstMissing(all, existing, 0).keys;
    assert [] + q == q;
    GetTranslationOfLeaf(all, q);
    LeafPathKeysGood(all, q);
    SplitJoin(q);
    WalkAbsent(existing, q);
  }

  // ---------------------------------------------------------------------
  // The insertion loop of submitTranslation
  // ---------------------------------------------------------------------

  /** The first field named `k` is at `m` when `m` carries it and no earlier field does. */
  lemma FirstFieldIndex(gs: seq<Field>, k: string, m: nat)
    requires m < |gs| && gs[m].key == k
    requires forall i :: 0 <= i < m ==> gs[i].key != k
    ensures FieldIndex(gs, k) == Some(m)
  {
    assert FieldIndex(gs, k).Some?;
  }

  /** Fields before a position agree on whether they carry `k`, so the first such field is found alike. */
  lemma FieldIndexOfUpdate(fs: seq<Field>, m: nat, f: Field, k: string)
    requires m < |fs| && fs[m].key != k && f.key != k
    ensures FieldIndex(fs[m := f], k) == FieldIndex(fs, k)
  {
    var gs := fs[m := f];
    assert forall i :: 0 <= i < |fs| ==> (gs[i].key == k <==> fs[i].key == k);
    if FieldIndex(fs, k).Some? {
      var a := FieldIndex(fs, k).value;
      assert gs[a].key == k;
    }
    if FieldIndex(gs, k).Some? {
      var b := FieldIndex(gs, k).value;
      assert fs[b].key == k;
    }
  }

  /** Appending a field named otherwise leaves the first field named `k` where it was. */
  lemma FieldIndexOfAppend(fs: seq<Field>, f: Field, k: string)
    requires f.key != k
    ensures FieldIndex(fs + [f], k) == FieldIndex(fs, k)
  {
    var gs := fs + [f];
    if FieldIndex(fs, k).Some? {
      var a := FieldIndex(fs, k).value;
      assert gs[a].key == k;
    }
    if FieldIndex(gs, k).Some? {
      var b := FieldIndex(gs, k).value;
      assert b < |fs|;
      assert fs[b].key == k;
    }
  }

  /**
   `object[k] = v` on an object: an own key keeps its place and takes the
   new value; a new key goes last. Every other key keeps its value.
   */
  function SetProperty(j: Json, k: string, v: Json): (r: Json)
    requires j.Obj?
    ensures r.Obj?
    ensures Get(r, k) == Some(v)
    ensures forall k' :: k' != k ==> Get(r, k') == Get(j, k')
    ensures Keys(j) <= Keys(r)
  {
    var fs := j.fields;
    match FieldIndex(fs, k)
    case None =>
      var r := Obj(fs + [Field(k, v)]);
      FirstFieldIndex(r.fields, k, |fs|);
      forall k' | k' != k
        ensures Get(r, k') == Get(j, k')
      {
        FieldIndexOfAppend(fs, Field(k, v), k');
      }
      r
    case Some(m) =>
      var r := Obj(fs[m := Field(k, v)]);
      FirstFieldIndex(r.fields, k, m);
      forall k' | k' != k
        ensures Get(r, k') == Get(j, k')
      {
        FieldIndexOfUpdate(fs, m, Field(k, v), k');
      }
      r
  }

  /**
   The insertion loop of `submitTranslation` along `parts`, then the
   assignment of the translation; `None` is a thrown `TypeError`. A missing
   key of an object gets `{}`; on a string, an index key continues with
   its character, any other key is assigned to in vain and the next access
   reads `undefined`; assigning to a string changes nothing.
   */
  function Insert(j: Json, parts: seq<string>, t: string): (r: Option<Json>)
    requires |parts| >= 1
    ensures r.Some? ==> r.value.Obj? == j.Obj?
    ensures j.Str? && r.Some? ==> r.value == j
    decreases |parts|
  {
    var k := parts[0];
    if |parts| == 1 then Some(if j.Obj? then SetProperty(j, k, Str(t)) else j)
    else
      match j
      case Obj(_) =>
        var child := if Get(j, k).Some? then Get(j, k).value else Obj([]);
        (match Insert(child, parts[1..], t)
         case None => None
         case Some(c) => Some(SetProperty(j, k, c)))
      case Str(_) =>
        match Get(j, k)
        case None => None
        case Some(c) =>
          match Insert(c, parts[1..], t)
          case None => None
          case Some(_) => Some(j)
  }

  /** Every step of `parts` meets an object or a missing key. */
  predicate Insertable(j: Json, parts: seq<string>)
    decreases |parts|
  {
    j.Obj? && |parts| >= 1
    && (|parts| == 1 || Get(j, parts[0]).None? || Insertable(Get(j, parts[0]).value, parts[1..]))
  }

  /** Along an insertable path the loop stores the translation where a walk finds it. */
  lemma {:induction false} InsertStores(j: Json, parts: seq<string>, t: string)
    requires Insertable(j, parts)
    ensures Insert(j, parts, t).Some?
    ensures Walk(Insert(j, parts, t).value, parts) == Defined(Str(t))
    decreases |parts|
  {
    var k := parts[0];
    if |parts| > 1 {
      var child := if Get(j, k).Some? then Get(j, k).value else Obj([]);
      assert Insertable(child, parts[1..]);
      InsertStores(child, parts[1..], t);
    }
  }

  /**
   Along an insertable path every other leaf keeps its place and its
   string: only leaves below the inserted path can be replaced.
   */
  lemma {:induction false} InsertKeepsOtherLeaves(j: Json, parts: seq<string>, t: string, q: seq<string>)
    requires Insertable(j, parts) && LeafPath(j, q) && !(parts <= q)
    ensures Insert(j, parts, t).Some?
    ensures LeafPath(Insert(j, parts, t).value, q)
    ensures Walk(Insert(j, parts, t).value, q) == Walk(j, q)
    decreases |parts|
  {
    InsertStores(j, parts, t);
    var r := Insert(j, parts, t).value;
    var k := parts[0];
    if q[0] != k {
      assert Get(r, q[0]) == Get(j, q[0]);
    } else {
      var c := Get(j, k).value;
      assert |parts| > 1 && Insertable(c, parts[1..]);
      assert !(parts[1..] <= q[1..]);
      InsertKeepsOtherLeaves(c, parts[1..], t, q[1..]);
      assert Get(r, k) == Insert(c, parts[1..], t);
    }
  }

  /** A path absent from an object can be inserted along. */
  lemma {:induction false} AbsentIsInsertable(e: Json, q: seq<string>)
    requires e.Obj? && Absent(e, q)
    ensures Insertable(e, q)
    decreases |q|
  {
    if |q| > 1 && Get(e, q[0]).Some? {
      AbsentIsInsertable(Get(e, q[0]).value, q[1..]);
    }
  }

  /** Assigning below a string's character is ignored... */
  lemma InsertUnderStringIsIgnored()
    ensures Insert(Obj([Field("a", Str("x"))]), ["a", "b"], "t") == Some(Obj([Field("a", Str("x"))]))
  {
    var j := Obj([Field("a", Str("x"))]);
    assert FieldIndex(j.fields, "a") == Some(0);
    assert ["a", "b"][1..] == ["b"];
    assert Insert(Str("x"), ["b"], "t") == Some(Str("x"));
    assert SetProperty(j, "a", Str("x")) == j;
  }

  /** ...but one level deeper the loop reads `undefined` and throws. */
  lemma InsertBelowStringThrows()
    ensures Insert(Obj([Field("a", Str("x"))]), ["a", "b", "c"], "t") == None
  {
    var j := Obj([Field("a", Str("x"))]);
    assert FieldIndex(j.fields, "a") == Some(0);
    assert !IsDigit("b"[0]);
    assert Get(Str("x"), "b") == None;
  }

  // ---------------------------------------------------------------------
  // Translation keys and the two requests
  // ---------------------------------------------------------------------

  /**
   What the key store answers for a key: nothing when no database wrapper
   is available (the handler then logs and never calls back), otherwise
   the status and message of `translationKeyExists`.
   */
  datatype KeyCheck = NoStore | KeyAnswer(status: int, message: string)

  /** The object `testTranslationKey` passes on: `{status: 0, language}` or `{status, error}`. */
  datatype KeyResult = Authorized(language: string) | Refused(status: int, error: string)

  /** `testTranslationKey(key, callback)`; `None` is a callback never made. */
  function TestTranslationKey(key: Option<string>, check: KeyCheck): (r: Option<KeyResult>)
    ensures key.None? ==> r == Some(Refused(1, "No key"))
    ensures r.None? <==> key.Some? && check.NoStore?
    ensures (r.Some? && r.value.Authorized?) <==> key.Some? && check.KeyAnswer? && check.status == 0
    ensures r.Some? && r.value.Authorized? ==> r.value.language == check.message
    ensures key.Some? && check.KeyAnswer? && check.status != 0 ==> r == Some(Refused(check.status, check.message))
  {
    if key.None? then Some(Refused(1, "No key"))
    else
      match check
      case NoStore => None
      case KeyAnswer(status, msg) =>
        if status == 0 then Some(Authorized(msg)) else Some(Refused(status, msg))
  }

  /** The refusal for a key that belongs to another language. */
  const NotAuthorized: KeyResult := Refused(1, "That key is not authorized for that language")

  /** The reply of `submitTranslation`, with the tree written to the in-progress file, if any. */
  datatype SubmitReply = Stored | SubmitRefused(refusal: KeyResult)
  datatype Submitted = Submitted(reply: SubmitReply, written: Option<Json>)

  /**
   `submitTranslation(key, language, translationKey, translation, callback)`
   over the in-progress tree `inProgress` of the language; `None` is a
   callback never made (no key store, or a thrown `TypeError`).
   */
  function SubmitTranslation(key: Option<string>, language: Option<string>, translationKey: Option<string>,
                             translation: string, check: KeyCheck, inProgress: Json): (r: Option<Submitted>)
    ensures key.None? ==> r == Some(Submitted(SubmitRefused(Refused(1, "No key")), None))
    ensures r.Some? && r.value.written.Some? <==>
              key.Some? && language.Some? && check == KeyAnswer(0, language.value)
              && translationKey.Some? && Insert(inProgress, Split(translationKey.value), translation).Some?
    ensures r.Some? && r.value.written.Some? ==>
              r.value.written == Insert(inProgress, Split(translationKey.value), translation)
    ensures r.Some? ==> (r.value.reply == Stored <==> r.value.written.Some?)
    ensures key.Some? && check.KeyAnswer? && check.status == 0 && language != Some(check.message) ==>
              r == Some(Submitted(SubmitRefused(NotAuthorized), None))
  {
    match TestTranslationKey(key, check)
    case None => None
    case Some(Refused(status, error)) => Some(Submitted(SubmitRefused(Refused(status, error)), None))
    case Some(Authorized(lang)) =>
      if language != Some(lang) then Some(Submitted(SubmitRefused(NotAuthorized), None))
      else
        match translationKey
        case None => None
        case Some(tk) =>
          match Insert(inProgress, Split(tk), translation)
          case None => None
          case Some(j) => Some(Submitted(Stored, Some(j)))
  }

  /** The reply of `requestNewTranslation`: the next key (`None` for `-1`) and its English text. */
  datatype RequestReply = NextTranslation(translationKey: Option<string>, translation: Lookup) | RequestRefused(refusal: KeyResult)

  /**
   The authorized branch of `requestNewTranslation`: the next key and its
   English text; `None` when the search or the lookup throws.
   */
  function NextTranslationReply(all: Json, existing: Json): (r: Option<RequestReply>)
    ensures r.Some? ==> r.value.NextTranslation? && !r.value.translation.TypeError?
    ensures r.Some? && r.value.translationKey.None? ==>
              FindNext(all, existing, "") == NoneLeft && r.value.translation == Defined(Str(""))
    ensures r.Some? && r.value.translationKey.Some? ==>
              FindNext(all, existing, "") == Path(r.value.translationKey.value)
              && r.value.translation == GetTranslation(all, r.value.translationKey)
    ensures r.None? <==>
              (FindNext(all, existing, "").Throws?
               || (FindNext(all, existing, "").Path? && GetTranslation(all, Some(FindNext(all, existing, "").path)).TypeError?))
  {
    match FindNext(all, existing, "")
    case Throws => None
    case NoneLeft => Some(NextTranslation(None, GetTranslation(all, None)))
    case Path(s) =>
      var text := GetTranslation(all, Some(s));
      if text.TypeError? then None else Some(NextTranslation(Some(s), text))
  }

  /**
   `requestNewTranslation(key, language, callback)` over the English tree
   `all` and the in-progress tree `existing`; `None` is a callback never
   made (no key store, or a thrown `TypeError`).
   */
  function RequestNewTranslation(key: Option<string>, language: Option<string>, check: KeyCheck,
                                 all: Json, existing: Json): (r: Option<RequestReply>)
    ensures key.None? ==> r == Some(RequestRefused(Refused(1, "No key")))
    ensures r.Some? && r.value.NextTranslation? <==>
              key.Some? && language.Some? && check == KeyAnswer(0, language.value)
              && NextTranslationReply(all, existing).Some?
    ensures key.Some? && check.KeyAnswer? && check.status == 0 && language != Some(check.message) ==>
              r == Some(RequestRefused(NotAuthorized))
    ensures key.Some? && check.KeyAnswer? && check.status != 0 ==>
              r == Some(RequestRefused(Refused(check.status, check.message)))
  {
    match TestTranslationKey(key, check)
    case None => None
    case Some(Refused(status, error)) => Some(RequestRefused(Refused(status, error)))
    case Some(Authorized(lang)) =>
      if language != Some(lang) then Some(RequestRefused(NotAuthorized))
      else NextTranslationReply(all, existing)
  }

  /** With an authorized key, a translation submitted along an insertable path is stored where that path finds it. */
  lemma SubmitStores(key: Option<string>, language: string, translationKey: string, translation: string,
                     check: KeyCheck, inProgress: Json)
    requires key.Some? && check == KeyAnswer(0, language)
    requires Insertable(inProgress, Split(translationKey))
    ensures var s := SubmitTranslation(key, Some(language), Some(translationKey), translation, check, inProgress);
            s.Some? && s.value.reply == Stored
            && GetTranslation(s.value.written.value, Some(translationKey)) == Defined(Str(translation))
  {
    InsertStores(inProgress, Split(translationKey), translation);
  }

  /** A path the search returns can take a translation in an in-progress object. */
  lemma FoundPathIsInsertable(all: Json, existing: Json)
    requires GoodKeys(all) && NoEmptyObjects(all) && existing.Obj?
    requires FindNext(all, existing, "").Path?
    ensures Insertable(existing, Split(FindNext(all, existing, "").path))
  {
    FindNextIsFirstMissing(all, existing);
    FirstMissingIsAbsentLeaf(all, existing);
    var q := FirstMissing(all, existing, 0).keys;
    assert [] + q == q;
    LeafPathKeysGood(all, q);
    SplitJoin(q);
    AbsentIsInsertable(existing, q);
  }

  /**
   Over an English tree of good keys without empty objects the next
   translation is always offered; a key it offers names an English string
   that the in-progress tree lacks.
   */
  lemma NextTranslationOffersAGap(all: Json, existing: Json)
    requires GoodKeys(all) && NoEmptyObjects(all)
    ensures var r := NextTranslationReply(all, existing);
            r.Some?
            && (r.value.translationKey.Some? ==>
                  r.value.translation.Defined? && r.value.translation.value.Str?
                  && !GetTranslation(existing, r.value.translationKey).Defined?)
            && (r.value.translationKey.None? <==> NothingMissing(all, existing))
            && (r.value.translationKey.None? ==> r.value.translation == Defined(Str("")))
  {
    FindNextFindsAbsentLeaf(all, existing);
    if FindNext(all, existing, "").Path? {
      FoundPathResolves(all, existing);
    }
  }

  /** With an authorized key the request is the next translation. */
  lemma AuthorizedRequest(key: Option<string>, language: string, check: KeyCheck, all: Json, existing: Json)
    requires key.Some? && check == KeyAnswer(0, language)
    ensures RequestNewTranslation(key, Some(language), check, all, existing) == NextTranslationReply(all, existing)
  {
  }

  /** A request followed by the submission of its key fills the gap the request offered. */
  lemma RequestThenSubmitFillsTheGap(key: Option<string>, language: string, check: KeyCheck,
                                     all: Json, existing: Json, translation: string)
    requires key.Some? && check == KeyAnswer(0, language)
    requires GoodKeys(all) && NoEmptyObjects(all) && existing.Obj?
    requires RequestNewTranslation(key, Some(language), check, all, existing).Some?
    requires RequestNewTranslation(key, Some(language), check, all, existing).value.translationKey.Some?
    ensures var r := RequestNewTranslation(key, Some(language), check, all, existing).value;
            var s := SubmitTranslation(key, Some(language), r.translationKey, translation, check, existing);
            s.Some? && s.value.reply == Stored
            && GetTranslation(s.value.written.value, r.translationKey) == Defined(Str(translation))
  {
    AuthorizedRequest(key, language, check, all, existing);
    var r := RequestNewTranslation(key, Some(language), check, all, existing).value;
    FoundPathIsInsertable(all, existing);
    SubmitStores(key, language, r.translationKey.value, translation, check, existing);
  }

  /**
   An empty key loses its place in the path: the second removal of a
   leading dot eats the separator after it, so the path returned for the
   missing leaf `["", "a"]` is `"a"`, which looks up nothing.
   */
  lemma EmptyKeyLosesItsPlace()
    ensures var all := Obj([Field("", Obj([Field("a", Str("x"))]))]);
            var existing := Obj([Field("", Obj([]))]);
            LeafPath(all, ["", "a"]) && Absent(existing, ["", "a"])
            && FindNext(all, existing, "") == Path("a")
            && GetTranslation(all, Some("a")) == Undefined
  {
    var inner := Obj([Field("a", Str("x"))]);
    var all := Obj([Field("", inner)]);
    var existing := Obj([Field("", Obj([]))]);
    assert FieldIndex(all.fields, "") == Some(0);
    assert FieldIndex(existing.fields, "") == Some(0);
    assert FieldIndex(inner.fields, "a") == Some(0);
    assert ["", "a"][1..] == ["a"];
    assert Keys(all) == [""];
    assert Keys(inner) == ["a"];
    assert Get(inner, "a") == Some(Str("x"));
    var top := "" + "." + "";
    assert top == ".";
    assert top + "." + "a" == "..a";
    assert FindEndNode(Get(inner, "a"), top + "." + "a") == Some("..a");
    assert VisitKey(inner, Obj([]), top, "a") == Return(Path(".a"));
    assert FindFrom(inner, Obj([]), top, 0) == Path(".a");
    assert VisitKey(all, existing, "", "") == Return(Path("a"));
    assert FieldIndex(all.fields, "a") == None;
    assert DotIndex("a") == None;
  }
}
